=== FILE: README.md ===
# Nivaran issue core, modelled in Dafny

Nivaran is a civic-issue reporting system. Citizens report garbage, potholes, broken
streetlights, water and sewage problems and encroachments; an admin panel lists, filters,
assigns and resolves them. This project models the logic behind that panel and one piece of
the landing page.

**The issue library**
- **Duplicate clustering.** `detectAndMergeDuplicates` sorts the reports by creation time. It then groups each report with the first earlier group whose first member is near it, in the same category, textually similar and close in time. A grid index of cells narrows which groups are scanned. Each group then collapses into one canonical issue carrying the group's summed upvotes and latest update time.
- **Text similarity.** Jaccard similarity over the word sets of the normalised texts.
- **Query layer.** Filtering, stable sorting, clamped pagination and the dashboard metrics.
- **Generator.** The seeded synthetic issue generator, driven by a linear congruential generator.

**The admin panel's state**
- **Issue store.** `assign`, `setStatus`, `regenerate`, and the supervisor access check that reads what `assign` writes.
- **Supervisor notes.** Each issue's acknowledgement time and attached images.
- **Leaderboard.** The top citizens and top wards tables.
- **Authentication.** The demo login: the `login` checks, `logout`, `hasRole` and the `Protected` gate.

**The landing page**
- **Header menu.** The `normalize` slug function, the menu keys it derives, and the active-item state.

**Representation**
- Identifiers from `crypto.randomUUID` are naturals.
- Coordinates are integer micro-degrees.
- Timestamps are integer milliseconds.
- Text is ASCII `seq<char>`.

**Module map.** Modules follow the source files:
- `IssueModel`, `Similarity`, `Dedup`, `Generator`, `Query` and `Sorting` come from `lib/nivaran.ts`.
- `DataContext` comes from `context/DataContext.tsx`.
- `SupervisorStore` comes from `hooks/useSupervisorStore.ts`.
- `Leaderboard` comes from `pages/Leaderboard.tsx`.
- `Auth` comes from `context/AuthContext.tsx`.
- `Header` comes from the landing page's `components/site/Header.tsx`.
- `Text`, `Seqs` and `Wrappers` are shared helpers.

**Two empty texts are identical.** `jaccardSimilarity` scores two empty texts 1, not 0: `"".split(" ")` is `[""]`, so both token sets are `{""}`. `Similarity.JaccardBothEmpty` proves the value 1.

**How the clustering loop is specified.** `Dedup.IsRun` describes the loop by its run: the groups and grid index before each report and after the last. A run starts empty, and each turn is `Placement`, the first-fit placement of the next report. `Dedup.RunUnique` shows that the reports determine the run, so the methods that return a run fix their groups exactly.

## Model

| member | source | states |
|---|---|---|
| IssueModel.StatusRankIsStringOrder | Admin_pannel/client/lib/nivaran.ts:257-265 | ranking statuses as In Progress < Pending < Resolved agrees exactly with comparing their strings, as the status sort does |
| Similarity.NormalizeText | Admin_pannel/client/lib/nivaran.ts:62-64 | lower-cases the text, drops every character outside `[a-z0-9\s]`, turns each run of whitespace into one space and trims both ends |
| Similarity.NormalizeTextIsNormal | Admin_pannel/client/lib/nivaran.ts:62-64 | normalised text holds only `[a-z0-9 ]`, has no two spaces in a row and no space at either end |
| Similarity.NormalizeTextIdempotent | Admin_pannel/client/lib/nivaran.ts:62-64 | normalising normalised text changes nothing |
| Similarity.Words | Admin_pannel/client/lib/nivaran.ts:68-69 | the word set of any text has at least one element, because splitting always yields a piece |
| Similarity.Jaccard | Admin_pannel/client/lib/nivaran.ts:66-72 | the similarity is a fraction with a positive denominator and lies in [0, 1] |
| Similarity.AtLeastIsRealComparison | Admin_pannel/client/lib/nivaran.ts:106 | cross-multiplied comparison against the threshold is the same as comparing the real quotients |
| Similarity.JaccardSymmetric | Admin_pannel/client/lib/nivaran.ts:66-72 | similarity of a with b equals similarity of b with a |
| Similarity.JaccardSameText | Admin_pannel/client/lib/nivaran.ts:66-72 | texts that normalise alike score 1 |
| Similarity.JaccardBothEmpty | Admin_pannel/client/lib/nivaran.ts:66-72 | two texts that both normalise to "" score exactly 1/1; the `: 0` branch is never taken |
| Sorting.SortBy | Admin_pannel/client/lib/nivaran.ts:259 | the sorted copy is a permutation of the input, ordered by the key |
| Sorting.SortByStable | Admin_pannel/client/lib/nivaran.ts:259 | the items of any one key keep their input order, as `Array.prototype.sort` guarantees |
| Sorting.SortedCut | Admin_pannel/client/pages/Leaderboard.tsx:18 | cutting a sorted list, no element kept ranks after an element cut off |
| Dedup.Resolve | Admin_pannel/client/lib/nivaran.ts:75-77 | unset options default to a text threshold of 1/2 and a 24-hour window; set ones, fractional windows included, are used as given |
| Dedup.CellKeys | Admin_pannel/client/lib/nivaran.ts:86-92 | five neighbour cell keys are looked up, the issue's own cell first |
| Dedup.Candidates | Admin_pannel/client/lib/nivaran.ts:94-98 | the candidate list is the group indices of those cells, each once, in first-seen order |
| Dedup.Matches | Admin_pannel/client/lib/nivaran.ts:104-107 | an issue matches a group's first member when the two are near (the `within` test), share the category, score at least the text threshold, and were created at most the time window apart |
| Dedup.FirstFit | Admin_pannel/client/lib/nivaran.ts:100-116 | the first position in scan order whose group exists and whose first member matches, or the length of the order when none does; no earlier position matches |
| Dedup.FirstFitUnique | Admin_pannel/client/lib/nivaran.ts:100-116 | a position that fits and follows only positions that do not is the first fit |
| Dedup.FindMatch | Admin_pannel/client/lib/nivaran.ts:100-116 | the loop returns the first fit: the first position in scan order whose group's first member matches, every earlier position not matching |
| Dedup.ScanFor | Admin_pannel/client/lib/nivaran.ts:94-100 | the scan order is the candidate groups of the five cells, or every group when there are none; every entry names an existing group |
| Dedup.PlacementJoin | Admin_pannel/client/lib/nivaran.ts:107-114 | when the first fit is found, the issue is appended to that group and the group is registered under its first member's cell |
| Dedup.PlacementOpen | Admin_pannel/client/lib/nivaran.ts:118-125 | when nothing fits, a new group holding only the issue is opened and indexed under the issue's cell |
| Dedup.Place | Admin_pannel/client/lib/nivaran.ts:84-125 | one turn equals `Placement`: the issue joins the first fitting group of its scan order, else opens a new group; the grid index stays valid |
| Dedup.RegisterValid | Admin_pannel/client/lib/nivaran.ts:108-111 | registering a group in a cell keeps every stored index valid and each cell's list free of repeats |
| Dedup.OpenValid | Admin_pannel/client/lib/nivaran.ts:118-125 | indexing a newly opened group keeps the grid index valid |
| Dedup.GroupJoin | Admin_pannel/client/lib/nivaran.ts:104-109 | a group joined by a matching, later issue still matches its first member and stays in creation order |
| Dedup.Step | Admin_pannel/client/lib/nivaran.ts:84-125 | one turn of the loop extends the run by `Placement` of the next issue; the issue either joins the first fitting group of its scan order or opens the next group; the grid index stays valid |
| Dedup.RunExtend | Admin_pannel/client/lib/nivaran.ts:84-126 | a run over the first n issues followed by the placement of issue n is a run over the first n+1 |
| Dedup.RunPrefix | Admin_pannel/client/lib/nivaran.ts:84-126 | the loop's state after m issues depends only on those m issues: a run's prefix is a run |
| Dedup.RunUnique | Admin_pannel/client/lib/nivaran.ts:84-126 | the loop is deterministic: two runs over the same sorted issues agree at every turn, so a run fixes the groups |
| Dedup.Cluster | Admin_pannel/client/lib/nivaran.ts:79-126 | the loop passes through a run (`IsRun`), the first-fit placement of each sorted issue in turn, and ends on its last snapshot; each turn keeps the invariant (groups partition the issues seen, later members match the first, creation order, valid index), so at the end the groups partition the sorted input (multiset of members equals the input); every group matches its first member, which is its earliest; the grid index is valid; there are no more groups than issues |
| Dedup.GatherEmpty | Admin_pannel/client/lib/nivaran.ts:94-98 | an empty grid index yields no candidates |
| Dedup.OneClusterOrder | Admin_pannel/client/lib/nivaran.ts:94-100 | with one group and a valid index, the scan order is that group alone, found through the index or by the full scan |
| Dedup.OneClusterScan | Admin_pannel/client/lib/nivaran.ts:94-100 | whatever cells are looked up, an index over one group yields candidates `[0]` or none, and the scan order is `[0]` |
| Dedup.FirstPlacement | Admin_pannel/client/lib/nivaran.ts:118-125 | in any run, the earliest issue opens the first group, indexed under its own cell |
| Dedup.JoinFirst | Admin_pannel/client/lib/nivaran.ts:104-114 | an issue matching the sole member of the sole group is appended to that group |
| Dedup.SecondJoinsFirst | Admin_pannel/client/lib/nivaran.ts:84-126 | in any run, when the second issue matches the first, the first two issues form one group, earliest first |
| Dedup.PlacementGrows | Admin_pannel/client/lib/nivaran.ts:107-125 | a turn never removes, renames or reorders a group and only appends members |
| Dedup.RunGrows | Admin_pannel/client/lib/nivaran.ts:84-126 | from one turn of a run to the next, every group keeps its id and its members as a prefix |
| Dedup.FirstPairStaysTogether | Admin_pannel/client/lib/nivaran.ts:84-126 | in any run, when the second issue matches the first, the first group begins with both of them after any number of further issues |
| Dedup.SortedPair | Admin_pannel/client/lib/nivaran.ts:79 | two issues already in creation order keep that order after the sort |
| Dedup.RepeatMatches | Admin_pannel/client/lib/nivaran.ts:74-77 | with default options, a report with the same category, title and description, near an earlier one and at most 24 hours later, matches it |
| Dedup.RepeatReportMerges | Admin_pannel/client/lib/nivaran.ts:74-126 | with default options, in the run over such a repeat report and the earlier issue, the two form a single group, the earlier issue first |
| Dedup.ClusterAndMerge | Admin_pannel/client/lib/nivaran.ts:79-146 | the groups are the last snapshot of the first-fit run over the input sorted by creation time; one merged issue per group, each its canonical copy; sizes and upvotes conserved |
| Dedup.CanonicalUnique | Admin_pannel/client/lib/nivaran.ts:130-134 | the canonical member under (priority asc, upvotes desc, createdAt desc, first wins on ties) is unique |
| Dedup.PickCanonical | Admin_pannel/client/lib/nivaran.ts:130-134 | the picked member is minimal under the three-key order and comes before every member that ties with it |
| Dedup.Latest | Admin_pannel/client/lib/nivaran.ts:142 | the latest update time is at least every member's and is attained (or is the start value) |
| Dedup.MergedCopy | Admin_pannel/client/lib/nivaran.ts:140-144 | the merged issue is the canonical member with the group id, no `duplicateOf`, upvotes summed over the group and the latest `updatedAt`; nothing else differs |
| Dedup.WriteBack | Admin_pannel/client/lib/nivaran.ts:136-139 | each member keeps its place and gets the group's id; its `duplicateOf` is the canonical id, or null for the member whose id is the canonical id |
| Dedup.WriteBackMarksCanonical | Admin_pannel/client/lib/nivaran.ts:136-139 | every member gets the group id; with distinct ids exactly the canonical member has no `duplicateOf`, and all others point at it |
| Dedup.MergeGroups | Admin_pannel/client/lib/nivaran.ts:128-146 | one merged issue per group, in group order, each the merged copy of that group's canonical member |
| Dedup.MembersOutnumberGroups | Admin_pannel/client/lib/nivaran.ts:118-125 | groups that each hold at least one issue (every group opens with one) are no more numerous than their members |
| Dedup.Conservation | Admin_pannel/client/lib/nivaran.ts:84-146 | group sizes sum to the input length, and merged upvotes sum to the input's upvotes |
| Dedup.MergedMarked | Admin_pannel/client/lib/nivaran.ts:140-144 | every merged issue is canonical (`duplicateOf` unset) and carries its group's id |
| Dedup.DetectAndMergeDuplicates | Admin_pannel/client/lib/nivaran.ts:74-147 | the groups are the last snapshot of the first-fit run over the input sorted by creation time, under the resolved options with Jaccard; empty input gives empty output; one merged issue per group; the groups partition the input and match their first members under the resolved options with Jaccard; each merged issue is its group's canonical copy; sizes and upvotes are conserved |
| Generator.Next | Admin_pannel/client/lib/nivaran.ts:151 | one step of the generator: `(s * 9301 + 49297) % 233280` with JavaScript's sign-of-dividend remainder |
| Generator.JsRem | Admin_pannel/client/lib/nivaran.ts:151 | JavaScript's `%` takes the dividend's sign: in [0, m) for a non-negative dividend, in (-m, 0] otherwise |
| Generator.NextInRange | Admin_pannel/client/lib/nivaran.ts:151 | from a state whose next step is non-negative, every later state lies in [0, 233280) |
| Generator.SeededSeeds | Admin_pannel/client/lib/nivaran.ts:149-151 | the first state is non-negative exactly for seeds from -5 upwards and for seeds whose negative dividend is a multiple of 233280 |
| Generator.NegativeSeedZeroState | Admin_pannel/client/lib/nivaran.ts:149-151 | seed -210637 has a negative dividend, yet its first state is 0 |
| Generator.Pick | Admin_pannel/client/lib/nivaran.ts:167-168 | a scaled draw lies in [0, k) |
| Generator.Draw | Admin_pannel/client/lib/nivaran.ts:167 | a draw advances the state by one step and returns a value below k |
| Generator.DrawBelow | Admin_pannel/client/lib/nivaran.ts:205 | a probability test advances the state and answers `rand() < p` |
| Generator.StatusForThresholds | Admin_pannel/client/lib/nivaran.ts:171-172 | statuses fall at states below 128304 (Pending), below 198288 (In Progress) and above (Resolved) |
| Generator.SetHours | Admin_pannel/client/lib/nivaran.ts:170 | setting the hour moves the time by less than a day |
| Generator.MakeBase | Admin_pannel/client/lib/nivaran.ts:166-202 | a base issue has a title of its category and the matching description. Its coordinates lie in the 0.15-degree box, it was created after `now` minus 60 days and less than a day after `now` (`setHours` can move a time of today past `now`), and it was updated within 9 days. Upvotes are below 120, the reporter is one of the 200 citizens, and there is no assignment, duplicate or group |
| Generator.ScaleUpvotes | Admin_pannel/client/lib/nivaran.ts:215 | a duplicate's upvotes are at most 110% of its base's |
| Generator.MakeDup | Admin_pannel/client/lib/nivaran.ts:207-220 | a duplicate copies its base except id, position (within 0.00075 degrees), upvotes, times (created within a day, updated within two) and assignment (none) |
| Generator.AddDups | Admin_pannel/client/lib/nivaran.ts:204-222 | a base issue is followed by zero, one or two duplicates of it, numbered on from its id |
| Generator.BlocksLength | Admin_pannel/client/lib/nivaran.ts:166-223 | k blocks hold between k and 3k issues |
| Generator.GenerateIssues | Admin_pannel/client/lib/nivaran.ts:149-226 | the output is `count` blocks, each a base issue and its duplicates, so its length lies between count and 3·count; ids are consecutive |
| Query.FilterIssues | Admin_pannel/client/lib/nivaran.ts:241-255 | the filtered list is no longer than the input |
| Query.Keep | Admin_pannel/client/lib/nivaran.ts:242-253 | an issue is kept when it is not a duplicate under `onlyCanonical`, its title, description and address contain the lower-cased query, its category, status and priority match unless the criterion is unset or "All", and it was created no earlier than `start` and no later than a day after `end` |
| Query.FilterIssuesMembership | Admin_pannel/client/lib/nivaran.ts:241-255 | an issue is in the result exactly when it is in the input and passes every set criterion |
| Query.FilterIssuesOrder | Admin_pannel/client/lib/nivaran.ts:242 | filtering distributes over concatenation, so input order is preserved |
| Query.FilterIssuesNoFilter | Admin_pannel/client/lib/nivaran.ts:243-252 | with no criterion set the whole list is returned |
| Query.OnlyCanonicalDropsDuplicates | Admin_pannel/client/lib/nivaran.ts:243 | `onlyCanonical` keeps exactly the issues without `duplicateOf` |
| Query.EndBoundInclusive | Admin_pannel/client/lib/nivaran.ts:252 | the end bound admits creation times up to one day after it |
| Query.SortIssues | Admin_pannel/client/lib/nivaran.ts:257-266 | the result is a permutation of the input, ordered by the key ascending or descending |
| Query.SortIssuesStable | Admin_pannel/client/lib/nivaran.ts:257-266 | issues with equal key keep their input order, in both directions |
| Query.StatusSortIsStringSort | Admin_pannel/client/lib/nivaran.ts:260-263 | sorting by status ascending orders the status strings |
| Query.CeilDiv | Admin_pannel/client/lib/nivaran.ts:270 | the quotient is the least q with q·d ≥ n |
| Query.Paginate | Admin_pannel/client/lib/nivaran.ts:268-275 | pages = max(1, ⌈total/perPage⌉); the page is clamped into [1, pages]; items are the slice from (page-1)·perPage of at most perPage items, full on every page but the last, and the last page ends at the last item |
| Query.PageNonEmpty | Admin_pannel/client/lib/nivaran.ts:268-275 | a non-empty list never yields an empty page |
| Query.PaginateClampsToLastPage | Admin_pannel/client/lib/nivaran.ts:268-275 | 45 items at 20 per page, page 10 asked: page 3 of 3 with the last 5 items |
| Query.RoundHours | Admin_pannel/client/lib/nivaran.ts:287 | the average in hours is the nearest integer, halves rounded up |
| Query.ComputeMetrics | Admin_pannel/client/lib/nivaran.ts:277-290 | total is the length; each status maps to its count; the average resolution is 0 with nothing resolved, else the rounded mean duration of resolved issues |
| Query.MetricsByStatusSum | Admin_pannel/client/lib/nivaran.ts:279-282 | the three status counts sum to the total |
| DataContext.StaffSlug | Admin_pannel/client/context/DataContext.tsx:43 | the staff id of a name: lower case, each run of whitespace replaced by one `-` |
| DataContext.StaffSlugShape | Admin_pannel/client/context/DataContext.tsx:43 | a staff id has no upper-case letter and no whitespace |
| DataContext.AssignStatus | Admin_pannel/client/context/DataContext.tsx:43 | Pending becomes In Progress; any other status is kept |
| DataContext.AssignIssues | Admin_pannel/client/context/DataContext.tsx:39-47 | length kept; other ids unchanged; the matching issue gets the staff id, name and time and the status step, and nothing else changes |
| DataContext.SetStatusIssues | Admin_pannel/client/context/DataContext.tsx:49-51 | length kept; other ids unchanged; the matching issue gets the status and update time, and nothing else changes |
| DataContext.NoMatchUnchanged | Admin_pannel/client/context/DataContext.tsx:39-51 | with no issue of that id both operations return the list unchanged |
| DataContext.IdsKept | Admin_pannel/client/context/DataContext.tsx:39-51 | every issue keeps its id and position |
| DataContext.AssignIdempotent | Admin_pannel/client/context/DataContext.tsx:39-47 | assigning the same person twice at the same time equals assigning once |
| DataContext.SetStatusLastWins | Admin_pannel/client/context/DataContext.tsx:49-51 | setting a status twice equals setting only the second |
| DataContext.CanAccess | Admin_pannel/client/pages/supervisor/IssueDetail.tsx:43-47 | a signed-in user may open an issue when the slug of their name is its staff id or their name is its staff name; nobody signed in may not |
| DataContext.AssignGrantsAccess | Admin_pannel/client/pages/supervisor/IssueDetail.tsx:43-47 | after assigning an issue to a name, a user of that name can open it, through the staff id alone |
| DataContext.UnassignedDeniesAll | Admin_pannel/client/pages/supervisor/IssueDetail.tsx:43-47 | an unassigned issue admits nobody |
| DataContext.SeededListDetermined | Admin_pannel/client/context/DataContext.tsx:29 | the generated issues decide the stored list: two seedings over the same generated issues end with the same groups, canonical members and merged list |
| DataContext.Seed | Admin_pannel/client/context/DataContext.tsx:29 | `detectAndMergeDuplicates(generateIssues(count))`: the generated issues are `count` base-and-duplicate blocks, between `count` and `3·count` of them, numbered on; the groups are the last snapshot of the first-fit run over them sorted by creation time, under the default options; the list holds one merged copy of each group's canonical member, no more entries than were generated; the groups' members are exactly the generated issues and the upvotes are conserved; the list is empty exactly for a non-positive count, and every entry is canonical with its group's id |
| DataContext.Store.Assign | Admin_pannel/client/context/DataContext.tsx:39-47 | the stored list becomes the assigned list |
| DataContext.Store.SetStatus | Admin_pannel/client/context/DataContext.tsx:49-51 | the stored list becomes the updated list |
| DataContext.Store.Regenerate | Admin_pannel/client/context/DataContext.tsx:53-56 | the store holds `detectAndMergeDuplicates(generateIssues(count))` as `Seed` states it (the generated issues, the first-fit run and the merged copies are returned as ghost outputs); it is empty exactly for a non-positive count, and every entry is canonical with its group's id |
| DataContext.Store.LoadInitial | Admin_pannel/client/context/DataContext.tsx:18-31 | the first load with nothing usable stored (no saved list, an empty one, or one that does not parse) stores `detectAndMergeDuplicates(generateIssues(6000))` as `Seed` states it; the list is non-empty and every entry is canonical with its group's id |
| SupervisorStore.Get | Admin_pannel/client/hooks/useSupervisorStore.ts:44 | a known id returns its state; an unknown one returns no acknowledgement and no images |
| SupervisorStore.Acknowledged | Admin_pannel/client/hooks/useSupervisorStore.ts:32-35 | the id's acknowledgement time is set, its images kept, every other id unchanged |
| SupervisorStore.WithImage | Admin_pannel/client/hooks/useSupervisorStore.ts:37-42 | the id's image list grows by one with the new image last and the earlier ones in order; the acknowledgement and every other id are unchanged |
| SupervisorStore.OthersUnaffected | Admin_pannel/client/hooks/useSupervisorStore.ts:32-42 | neither update changes what another id reads back |
| SupervisorStore.AcknowledgeAddImageCommute | Admin_pannel/client/hooks/useSupervisorStore.ts:32-42 | acknowledging and adding an image commute |
| SupervisorStore.AddImagesInOrder | Admin_pannel/client/hooks/useSupervisorStore.ts:37-42 | images added one after another are listed in that order |
| SupervisorStore.Notes.constructor | Admin_pannel/client/hooks/useSupervisorStore.ts:44 | the store starts empty |
| SupervisorStore.Notes.Acknowledge | Admin_pannel/client/hooks/useSupervisorStore.ts:32-35 | the store becomes the acknowledged store |
| SupervisorStore.Notes.AddImage | Admin_pannel/client/hooks/useSupervisorStore.ts:37-42 | the store becomes the store with the image added |
| Leaderboard.GroupNonEmpty | Admin_pannel/client/pages/Leaderboard.tsx:12-17 | a key has issues exactly when it occurs as some issue's key |
| Leaderboard.GroupSizesSum | Admin_pannel/client/pages/Leaderboard.tsx:12-17 | the group sizes over the map's keys sum to the number of issues |
| Leaderboard.CitizenRowOf | Admin_pannel/client/pages/Leaderboard.tsx:13-15 | a reporter's count is the number of their issues |
| Leaderboard.CitizenRowStep | Admin_pannel/client/pages/Leaderboard.tsx:13-16 | one more issue adds one to its reporter's count and its upvotes to the reporter's sum, and leaves the other reporters and the first-seen name alone |
| Leaderboard.TallyCitizens | Admin_pannel/client/pages/Leaderboard.tsx:11-17 | the loop's map holds, for each reporter in first-seen order, the first-seen name, the issue count and the upvote sum |
| Leaderboard.CitizenCountsSum | Admin_pannel/client/pages/Leaderboard.tsx:12-18 | before slicing, the reporter counts sum to the number of issues |
| Leaderboard.TopBy | Admin_pannel/client/pages/Leaderboard.tsx:18 | the top list has at most 20 rows (fewer only when the table is smaller), drawn from the table and ordered by the key; no row left out ranks before a row shown; it is the whole table when there are 20 or fewer rows |
| Leaderboard.TakeSplit | Admin_pannel/client/pages/Leaderboard.tsx:18 | the slice keeps part of the rows, and the rows left out are exactly the rest of the sorted table |
| Leaderboard.TopCitizensOf | Admin_pannel/client/pages/Leaderboard.tsx:18 | `ShowsTopCitizens`: exactly min(20, n) of the n citizen rows, a sub-multiset of them, ordered by count descending then upvotes descending; every citizen left out has a lower count, or the same count and no more upvotes, than every citizen shown; all of them when there are at most 20 |
| Leaderboard.CitizenTop | Admin_pannel/client/pages/Leaderboard.tsx:18 | the sort and slice of any citizen rows shows min(20, n) of them, best first, none ranked below a row left out |
| Leaderboard.ShownCount | Admin_pannel/client/pages/Leaderboard.tsx:18 | `slice(0, 20)` of n rows keeps exactly min(20, n) of them |
| Leaderboard.CitizenKeyOrder | Admin_pannel/client/pages/Leaderboard.tsx:18 | ranking by the sort key is ranking by count, then upvotes, both descending |
| Leaderboard.TopCitizensAreReporters | Admin_pannel/client/pages/Leaderboard.tsx:10-19 | every listed row is some reporter's true row, with a positive count |
| Leaderboard.TopCitizens | Admin_pannel/client/pages/Leaderboard.tsx:10-19 | the loop, sort and slice compute the top-citizens table |
| Leaderboard.WardOf | Admin_pannel/client/pages/Leaderboard.tsx:24 | the ward key is the address before its first comma and contains no comma |
| Leaderboard.WardCountOf | Admin_pannel/client/pages/Leaderboard.tsx:25-28 | a ward's total counts its issues and its open count is at most the total |
| Leaderboard.WardCountStep | Admin_pannel/client/pages/Leaderboard.tsx:25-28 | one more issue adds one to its ward's total, and one to the open count unless it is Resolved |
| Leaderboard.TallyWards | Admin_pannel/client/pages/Leaderboard.tsx:22-29 | the loop's map holds, for each ward in first-seen order, its open and total counts |
| Leaderboard.WardTotalsSum | Admin_pannel/client/pages/Leaderboard.tsx:25-30 | before slicing, ward totals sum to the number of issues |
| Leaderboard.TopWardsOf | Admin_pannel/client/pages/Leaderboard.tsx:30 | `ShowsTopWards`: exactly min(20, n) of the n ward rows, a sub-multiset of them, ordered by open count descending; every ward left out has no more open issues than every ward shown; all of them when there are at most 20 |
| Leaderboard.WardTop | Admin_pannel/client/pages/Leaderboard.tsx:30 | the sort and slice of any ward rows shows min(20, n) of them, most open first, none ranked below a row left out |
| Leaderboard.WardKeyOrder | Admin_pannel/client/pages/Leaderboard.tsx:30 | ranking by the sort key is ranking by open count, descending |
| Leaderboard.TopWardsAreWards | Admin_pannel/client/pages/Leaderboard.tsx:21-31 | every listed ward occurs in the issues, with its true counts, a positive total and open ≤ total |
| Leaderboard.TopWardsStable | Admin_pannel/client/pages/Leaderboard.tsx:30 | wards with equal open counts keep their first-seen order |
| Leaderboard.TopWards | Admin_pannel/client/pages/Leaderboard.tsx:21-31 | the loop, sort and slice compute the top-wards table |
| Auth.CheckLogin | Admin_pannel/client/context/AuthContext.tsx:40-51 | an empty email or password fails with "Email and password are required" first. A password under 6 characters fails with "Password must be at least 6 characters". Otherwise the user has the email, role and id given, and the name given, or else the email's text before the first "@" |
| Auth.FallbackNameIsFirstPiece | Admin_pannel/client/context/AuthContext.tsx:48 | the fallback name is `email.split("@")[0]` |
| Auth.HasRoleOf | Admin_pannel/client/context/AuthContext.tsx:63 | `hasRole`: someone is signed in and their role is in the list |
| Auth.RendersOf | Admin_pannel/client/context/AuthContext.tsx:76-86 | `Protected` renders its children only for a signed-in user and, when a role list is given, only for one of its roles |
| Auth.ProtectedIsHasRole | Admin_pannel/client/context/AuthContext.tsx:63-86 | with a role list, `Protected` renders exactly when `hasRole` holds |
| Auth.Session.constructor | Admin_pannel/client/context/AuthContext.tsx:40-86 | nobody is signed in at first |
| Auth.Session.Login | Admin_pannel/client/context/AuthContext.tsx:40-55 | on success the new user is signed in; on failure the session is unchanged |
| Auth.Session.Logout | Admin_pannel/client/context/AuthContext.tsx:57-61 | nobody is signed in afterwards |
| Auth.LogoutDeniesAll | Admin_pannel/client/context/AuthContext.tsx:57-86 | after logout no role check passes and nothing protected renders |
| Header.Normalize | Landing_page/client/components/site/Header.tsx:22-26 | lower-cases the label, replaces each run of characters outside `[a-z0-9]` by one `-`, and removes one `-` at the start and one at the end |
| Header.NormalizeIsSlug | Landing_page/client/components/site/Header.tsx:22-26 | a key holds only `a-z`, `0-9` and `-`, never `--`, and no `-` at either end |
| Header.NormalizeSlug | Landing_page/client/components/site/Header.tsx:22-26 | a string already in key shape normalises to itself |
| Header.NormalizeIdempotent | Landing_page/client/components/site/Header.tsx:22-26 | normalising twice equals normalising once |
| Header.NormalizeWords | Landing_page/client/components/site/Header.tsx:22-26 | a label of words separated by single spaces normalises to its lower-case form with `-` for each space |
| Header.Items | Landing_page/client/components/site/Header.tsx:132-137 | one menu item per nav entry, keyed by the normalised label |
| Header.KeyHelpCentre | Landing_page/client/components/site/Header.tsx:10 | "Help Centre" becomes "help-centre" |
| Header.KeyAdminPanel | Landing_page/client/components/site/Header.tsx:11 | "Admin Panel" becomes "admin-panel" |
| Header.NavKeysAreNormalized | Landing_page/client/components/site/Header.tsx:5-12 | the six keys are about-us, authorities, tech-stack, feedback, help-centre and admin-panel |
| Header.Find | Landing_page/client/components/site/Header.tsx:142 | the lookup returns the first item with that key (every earlier item has another key), and finds nothing only when no item has it |
| Header.FindByOwnKey | Landing_page/client/components/site/Header.tsx:142 | with distinct keys, looking up an item's key returns that item |
| Header.NavKeysDistinct | Landing_page/client/components/site/Header.tsx:5-12 | the six keys are distinct, so selecting any of them finds its own item |
| Header.Menu.constructor | Landing_page/client/components/site/Header.tsx:138 | `active` starts as the first item's key, or "" with no items |
| Header.Menu.Select | Landing_page/client/components/site/Header.tsx:140-142 | the key becomes active and the item with that key is looked up |

## Left out

- `haversineKm` and the `maxKm` option are not modelled: the whole distance test `haversineKm(...) <= maxKm` is the parameter `within`, since it is floating-point trigonometry.
- The `toFixed(3)` grid key is the parameter `cell`; neighbour cells are ±1000 micro-degrees.
- The generator's `rand() * k` is computed exactly on integers as `(s·k)/233280`, an idealisation of the floating-point product; the 0.15-degree box, the jitter and the upvote factor are likewise exact integer forms.
- `crypto.randomUUID` ids are consecutive naturals, from `firstId` for issues and from `firstGroupId` for groups. The generator's `groupId: ""` is `None`.
- Dates are integer milliseconds. The model leaves out `new Date`, `toISOString`, time zones and daylight saving. `setHours` works in UTC, and `addDays`/`subDays` add whole days of milliseconds. Comparing ISO strings is comparing those integers.
- Text is ASCII: `toLowerCase`, `\s`, `trim` and the regex classes are modelled over ASCII characters only.
- Dedup.WriteBack: the in-place writes of `groupId` and `duplicateOf` onto the original issue objects are modelled as a function over each group's members. The aliasing with the caller's array is not modelled.
- Query.Paginate: requires `perPage > 0`; the callers pass only 10, 20, 50 or 100. With `perPage` 0 the source divides by zero: a non-empty list gets `Infinity` pages and an empty page, and an empty list gets `NaN` pages and page `NaN`, because `Math.max(1, NaN)` is `NaN`. A negative `perPage` is excluded by its type `nat`; there the source reports one page and slices with a negative end, which drops items from the end of the list.
- Generator.GenerateIssues: requires a non-negative first state when `count > 0` (seed ≥ -5, or a dividend that is an exact multiple of 233280). For any other seed the source's state goes negative and it indexes the category table out of range.
- Leaderboard.TallyCitizens: the JavaScript `Map` is modelled as its key order (a sequence) plus a Dafny `map`. The mutation of shared entry objects is modelled as map updates.
- Absent `images` in a supervisor record is the empty list.
- `localStorage`, JSON, React state and effects, `navigate`, Firebase calls, `FileReader` and the JSX are not modelled.
- Chart bucketing in the dashboard pages and the 48-hour notifications window are not modelled.
- The header's icons, animation and menu-bar layout are not modelled.
- The current time (`new Date()`) is the parameter `now`.

=== FILE: auth.dfy ===
/**
 * The admin panel's demo authentication: `login` validation and user construction,
 * `logout`, `hasRole` and the `Protected` render decision. The signed-in user is the
 * state of a `Session`; storage and navigation are outside the model.
 */
module Auth {
  import opened Wrappers
  import opened Text

  datatype Role = Admin | Supervisor | Field

  datatype User = User(id: nat, name: string, email: string, role: Role)

  const MissingCredentials: string := "Email and password are required"

  const ShortPassword: string := "Password must be at least 6 characters"

  /**
   * The checks and the user `login` builds: both fields are required, the password needs six
   * characters, and an empty name falls back to the part of the email before the first "@".
   */
  function CheckLogin(name: string, email: string, role: Role, password: string, id: nat): (r: Result<User, string>)
    ensures email == "" || password == "" ==> r == Failure(MissingCredentials)
    ensures email != "" && password != "" && |password| < 6 ==> r == Failure(ShortPassword)
    ensures r.Success? <==> email != "" && |password| >= 6
    ensures r.Success? ==> r.value.email == email && r.value.role == role && r.value.id == id
    ensures r.Success? && name != "" ==> r.value.name == name
    ensures r.Success? && name == "" ==>
      var n := r.value.name;
      && '@' !in n && |n| <= |email| && n == email[..|n|]
      && (|n| < |email| ==> email[|n|] == '@')
  {
    if email == "" || password == "" then Failure(MissingCredentials)
    else if |password| < 6 then Failure(ShortPassword)
    else Success(User(id, if name != "" then name else BeforeFirst(email, '@'), email, role))
  }

  /** The fallback name is `email.split("@")[0]`. */
  lemma FallbackNameIsFirstPiece(email: string, role: Role, password: string, id: nat)
    requires CheckLogin("", email, role, password, id).Success?
    ensures CheckLogin("", email, role, password, id).value.name == Split(email, '@')[0]
  {
    BeforeFirstIsFirstPiece(email, '@');
  }

  /** `hasRole(...roles)`: someone is signed in and holds one of `roles`. */
  predicate HasRoleOf(user: Option<User>, roles: seq<Role>) {
    user.Some? && user.value.role in roles
  }

  /**
   * `<Protected roles>`: children are rendered only for a signed-in user, and, when a role
   * list is given, only for one of its roles (an empty list admits nobody).
   */
  predicate RendersOf(user: Option<User>, roles: Option<seq<Role>>) {
    user.Some? && (roles.None? || user.value.role in roles.value)
  }

  /** With a role list, `Protected` renders exactly when `hasRole` holds. */
  lemma ProtectedIsHasRole(user: Option<User>, roles: seq<Role>)
    ensures RendersOf(user, Some(roles)) <==> HasRoleOf(user, roles)
  {
  }

  /** The signed-in user, as the auth context holds it. */
  class Session {
    var user: Option<User>

    constructor()
      ensures user == None
    {
      user := None;
    }

    /** `login(...)`: on success the new user is signed in; on failure nothing changes. */
    method Login(name: string, email: string, role: Role, password: string, id: nat)
      returns (r: Result<User, string>)
      modifies this
      ensures r == CheckLogin(name, email, role, password, id)
      ensures r.Success? ==> user == Some(r.value)
      ensures r.Failure? ==> user == old(user)
    {
      r := CheckLogin(name, email, role, password, id);
      if r.Success? {
        user := Some(r.value);
      }
    }

    /** `logout()`: nobody is signed in afterwards. */
    method Logout()
      modifies this
      ensures user == None
    {
      user := None;
    }

    predicate HasRole(roles: seq<Role>)
      reads this
    {
      HasRoleOf(user, roles)
    }

    predicate Renders(roles: Option<seq<Role>>)
      reads this
    {
      RendersOf(user, roles)
    }
  }

  /** After `logout`, no role check passes and nothing protected is rendered. */
  method LogoutDeniesAll(s: Session, roles: seq<Role>, guard: Option<seq<Role>>)
    modifies s
    ensures !s.HasRole(roles) && !s.Renders(guard)
  {
    s.Logout();
  }
}

=== FILE: data_context.dfy ===
/**
 * The admin panel's issue store: the list transforms behind `assign`, `setStatus` and
 * `regenerate`, and the supervisor access check that reads what `assign` writes.
 * The current time is a parameter; persistence to local storage is outside the model.
 */
module DataContext {
  import opened Wrappers
  import opened Text
  import opened Seqs
  import opened IssueModel
  import opened Auth
  import opened Generator
  import opened Dedup
  import opened Sorting
  import opened Similarity

  /** `staffName.toLowerCase().replace(/\s+/g, "-")`. */
  function StaffSlug(name: string): string {
    ReplaceRuns(Lower(name), IsSpace, '-')
  }

  /** A staff id has no upper-case letter and no whitespace. */
  lemma StaffSlugShape(name: string)
    ensures forall i :: 0 <= i < |StaffSlug(name)| ==> !IsUpper(StaffSlug(name)[i]) && !IsSpace(StaffSlug(name)[i])
  {
    var l := Lower(name);
    ReplaceRunsChars(l, IsSpace, '-');
    assert forall x :: x in l ==> !IsUpper(x);
  }

  /** The assignment record `assign` writes. */
  function AssignmentOf(staffName: string, now: int): Assignment {
    Assignment(Some(StaffSlug(staffName)), Some(staffName), Some(now))
  }

  /** `Pending` moves to `In Progress`; the other statuses stay. */
  function AssignStatus(s: Status): (r: Status)
    ensures r != Pending
    ensures s != Pending ==> r == s
  {
    if s == Pending then InProgress else s
  }

  /** `assign(id, staffName)`: the issues with that id get the assignment and the status step. */
  function AssignIssues(issues: seq<Issue>, id: nat, staffName: string, now: int): (r: seq<Issue>)
    ensures |r| == |issues|
    ensures forall k :: 0 <= k < |r| && issues[k].id != id ==> r[k] == issues[k]
    ensures forall k :: 0 <= k < |r| && issues[k].id == id ==>
      && r[k].assignment == AssignmentOf(staffName, now)
      && r[k].status == AssignStatus(issues[k].status)
      && r[k].(assignment := issues[k].assignment, status := issues[k].status) == issues[k]
  {
    seq(|issues|, k requires 0 <= k < |issues| =>
      var i := issues[k];
      if i.id == id then i.(assignment := AssignmentOf(staffName, now), status := AssignStatus(i.status)) else i)
  }

  /** `setStatus(id, status)`: the issues with that id get the status and `updatedAt`. */
  function SetStatusIssues(issues: seq<Issue>, id: nat, status: Status, now: int): (r: seq<Issue>)
    ensures |r| == |issues|
    ensures forall k :: 0 <= k < |r| && issues[k].id != id ==> r[k] == issues[k]
    ensures forall k :: 0 <= k < |r| && issues[k].id == id ==>
      && r[k].status == status && r[k].updatedAt == now
      && r[k].(status := issues[k].status, updatedAt := issues[k].updatedAt) == issues[k]
  {
    seq(|issues|, k requires 0 <= k < |issues| =>
      var i := issues[k];
      if i.id == id then i.(status := status, updatedAt := now) else i)
  }

  predicate HasId(issues: seq<Issue>, id: nat) {
    exists k :: 0 <= k < |issues| && issues[k].id == id
  }

  /** With no issue carrying the id, `assign` and `setStatus` return the list unchanged. */
  lemma NoMatchUnchanged(issues: seq<Issue>, id: nat, staffName: string, status: Status, now: int)
    requires !HasId(issues, id)
    ensures AssignIssues(issues, id, staffName, now) == issues
    ensures SetStatusIssues(issues, id, status, now) == issues
  {
    var a := AssignIssues(issues, id, staffName, now);
    var s := SetStatusIssues(issues, id, status, now);
    assert forall k :: 0 <= k < |issues| ==> a[k] == issues[k];
    assert forall k :: 0 <= k < |issues| ==> s[k] == issues[k];
  }

  /** Both transforms keep every id in its place, so the list stays aligned with the old one. */
  lemma IdsKept(issues: seq<Issue>, id: nat, staffName: string, status: Status, now: int)
    ensures forall k :: 0 <= k < |issues| ==> AssignIssues(issues, id, staffName, now)[k].id == issues[k].id
    ensures forall k :: 0 <= k < |issues| ==> SetStatusIssues(issues, id, status, now)[k].id == issues[k].id
  {
  }

  /** Assigning the same person twice at the same time is the same as assigning once. */
  lemma AssignIdempotent(issues: seq<Issue>, id: nat, staffName: string, now: int)
    ensures AssignIssues(AssignIssues(issues, id, staffName, now), id, staffName, now)
      == AssignIssues(issues, id, staffName, now)
  {
    var once := AssignIssues(issues, id, staffName, now);
    var twice := AssignIssues(once, id, staffName, now);
    forall k | 0 <= k < |issues|
      ensures twice[k] == once[k]
    {
      if issues[k].id == id {
        assert once[k].id == id;
      }
    }
  }

  /** Setting a status twice: the second call decides. */
  lemma SetStatusLastWins(issues: seq<Issue>, id: nat, s1: Status, t1: int, s2: Status, t2: int)
    ensures SetStatusIssues(SetStatusIssues(issues, id, s1, t1), id, s2, t2) == SetStatusIssues(issues, id, s2, t2)
  {
    var one := SetStatusIssues(issues, id, s1, t1);
    var two := SetStatusIssues(one, id, s2, t2);
    var direct := SetStatusIssues(issues, id, s2, t2);
    forall k | 0 <= k < |issues|
      ensures two[k] == direct[k]
    {
      if issues[k].id == id {
        assert one[k].id == id;
      }
    }
  }

  /**
   * The supervisor detail page's access test: a signed-in user whose normalised name is the
   * assigned staff id, or whose name is the assigned staff name.
   */
  predicate CanAccess(user: Option<User>, issue: Issue) {
    user.Some? &&
    (issue.assignment.staffId == Some(StaffSlug(user.value.name)) || issue.assignment.staffName == Some(user.value.name))
  }

  /**
   * Assigning an issue to a name gives every user of that name access to it, and through the
   * staff id alone, whatever else is stored; an unassigned issue admits nobody.
   */
  lemma AssignGrantsAccess(issues: seq<Issue>, id: nat, u: User, now: int, k: nat)
    requires k < |issues| && issues[k].id == id
    ensures CanAccess(Some(u), AssignIssues(issues, id, u.name, now)[k])
    ensures AssignIssues(issues, id, u.name, now)[k].assignment.staffId == Some(StaffSlug(u.name))
  {
  }

  /** Nobody can open an issue that was never assigned. */
  lemma UnassignedDeniesAll(user: Option<User>, issue: Issue)
    requires issue.assignment == Unassigned
    ensures !CanAccess(user, issue)
  {
  }

  /** The seed `generateIssues` uses when none is given. */
  const DefaultSeed: int := 42

  /** The number of issues generated on first load. */
  const InitialCount: int := 6000

  /**
   * `list` is `detectAndMergeDuplicates(generated)` with the default options, and `generated` is
   * what `generateIssues(count)` emits: `count` blocks of a base issue and its near-duplicates,
   * numbered from `firstId`. The groups `gs` are the last snapshot of the first-fit run over the
   * generated issues sorted by creation time, `canon` picks each group's canonical member, and
   * `list` holds one merged copy per group, never more entries than were generated, so the
   * generated issues and their upvotes are all accounted for.
   */
  ghost predicate SeededList(count: int, firstId: nat, now: int, within: (Point, Point) -> bool,
                             cell: Point -> string, firstGroupId: nat, generated: seq<Issue>,
                             list: seq<Issue>, gs: seq<Group>, canon: seq<nat>, run: seq<Snapshot>)
  {
    var n := if count < 0 then 0 else count;
    var sorted := SortBy(generated, CreatedKey);
    && n <= |generated| <= 3 * n && (exists sizes :: |sizes| == n && Blocks(generated, sizes, now))
    && NumberedFrom(generated, firstId)
    && IsRun(sorted, run, |sorted|, Resolve(Options(None, None)), within, Jaccard, cell, firstGroupId)
    && gs == run[|sorted|].0
    && |list| == |gs| && |canon| == |gs| && |list| <= |generated|
    && multiset(Members(gs)) == multiset(generated)
    && (forall k :: 0 <= k < |gs| ==> IsCanonical(gs[k].members, canon[k]) && list[k] == MergedCopy(gs[k], canon[k]))
    && SumOf(list, Upvotes) == SumOf(generated, Upvotes)
  }

  /**
   * The generated issues decide the stored list: two seedings that generate the same issues
   * end with the same groups, the same canonical members and the same merged list.
   */
  lemma SeededListDetermined(count: int, firstId: nat, now: int, within: (Point, Point) -> bool,
                             cell: Point -> string, firstGroupId: nat, generated: seq<Issue>,
                             l1: seq<Issue>, gs1: seq<Group>, c1: seq<nat>, r1: seq<Snapshot>,
                             l2: seq<Issue>, gs2: seq<Group>, c2: seq<nat>, r2: seq<Snapshot>)
    requires SeededList(count, firstId, now, within, cell, firstGroupId, generated, l1, gs1, c1, r1)
    requires SeededList(count, firstId, now, within, cell, firstGroupId, generated, l2, gs2, c2, r2)
    ensures gs1 == gs2 && c1 == c2 && l1 == l2
  {
    var sorted := SortBy(generated, CreatedKey);
    RunUnique(sorted, r1, r2, |sorted|, Resolve(Options(None, None)), within, Jaccard, cell, firstGroupId);
    forall k | 0 <= k < |gs1|
      ensures c1[k] == c2[k] && l1[k] == l2[k]
    {
      CanonicalUnique(gs1[k].members, c1[k], c2[k]);
    }
  }

  /** `detectAndMergeDuplicates(generateIssues(count))`, with the default seed and options. */
  method Seed(count: int, firstId: nat, now: int, within: (Point, Point) -> bool, cell: Point -> string, firstGroupId: nat)
    returns (list: seq<Issue>, generated: seq<Issue>, ghost gs: seq<Group>, ghost canon: seq<nat>, ghost run: seq<Snapshot>)
    ensures SeededList(count, firstId, now, within, cell, firstGroupId, generated, list, gs, canon, run)
    ensures count <= 0 <==> list == []
    ensures forall k :: 0 <= k < |list| ==> list[k].duplicateOf.None? && list[k].groupId == Some(firstGroupId + k)
  {
    SeededSeeds(DefaultSeed);
    generated := GenerateIssues(count, DefaultSeed, firstId, now);
    list, gs, canon, run := DetectAndMergeDuplicates(generated, Options(None, None), within, cell, firstGroupId);
    assert NonEmptyGroups(gs) by {
      forall k | 0 <= k < |gs| ensures |gs[k].members| > 0 {
        assert GroupShape(gs[k], firstGroupId + k, Resolve(Options(None, None)), within, Jaccard);
      }
    }
    MembersOutnumberGroups(gs);
    assert |Members(gs)| == |multiset(Members(gs))| == |multiset(generated)| == |generated|;
  }

  /** The provider's list of issues and the operations that replace it. */
  class Store {
    var issues: seq<Issue>

    constructor()
      ensures issues == []
    {
      issues := [];
    }

    /** `assign(id, staffName)` at time `now`. */
    method Assign(id: nat, staffName: string, now: int)
      modifies this
      ensures issues == AssignIssues(old(issues), id, staffName, now)
    {
      issues := AssignIssues(issues, id, staffName, now);
    }

    /** `setStatus(id, status)` at time `now`. */
    method SetStatus(id: nat, status: Status, now: int)
      modifies this
      ensures issues == SetStatusIssues(old(issues), id, status, now)
    {
      issues := SetStatusIssues(issues, id, status, now);
    }

    /** `regenerate(count)`: a fresh generated and merged list replaces the old one. */
    method Regenerate(count: int, firstId: nat, now: int, within: (Point, Point) -> bool, cell: Point -> string, firstGroupId: nat)
      returns (ghost generated: seq<Issue>, ghost gs: seq<Group>, ghost canon: seq<nat>, ghost run: seq<Snapshot>)
      modifies this
      ensures SeededList(count, firstId, now, within, cell, firstGroupId, generated, issues, gs, canon, run)
      ensures count <= 0 <==> issues == []
      ensures forall k :: 0 <= k < |issues| ==> issues[k].duplicateOf.None? && issues[k].groupId == Some(firstGroupId + k)
    {
      issues, generated, gs, canon, run := Seed(count, firstId, now, within, cell, firstGroupId);
    }

    /**
     * The first load with nothing usable stored (no saved list, an empty one, or one that does
     * not parse): 6000 generated issues, merged.
     */
    method LoadInitial(firstId: nat, now: int, within: (Point, Point) -> bool, cell: Point -> string, firstGroupId: nat)
      returns (ghost generated: seq<Issue>, ghost gs: seq<Group>, ghost canon: seq<nat>, ghost run: seq<Snapshot>)
      modifies this
      ensures SeededList(InitialCount, firstId, now, within, cell, firstGroupId, generated, issues, gs, canon, run)
      ensures issues != []
      ensures forall k :: 0 <= k < |issues| ==> issues[k].duplicateOf.None? && issues[k].groupId == Some(firstGroupId + k)
    {
      issues, generated, gs, canon, run := Seed(InitialCount, firstId, now, within, cell, firstGroupId);
    }
  }
}

=== FILE: dedup.dfy ===
/**
 * `detectAndMergeDuplicates`: sequential first-fit clustering of issues over a grid index,
 * then one merged canonical copy per cluster.
 *
 * The great-circle test `haversineKm(a, b) <= maxKm` is the caller-supplied predicate
 * `within`, and the `toFixed(3)` grid key is the caller-supplied function `cell`.
 * Fresh cluster ids (`crypto.randomUUID`) are `firstGroupId`, `firstGroupId + 1`, ...
 */
module Dedup {
  import opened Wrappers
  import opened Seqs
  import opened Sorting
  import opened IssueModel
  import opened Similarity

  /** A text-similarity score; `detectAndMergeDuplicates` uses `Jaccard`. */
  type Scorer = (string, string) -> Fraction

  /** The optional `options` argument; `maxKm` lives inside `within`. Both numbers may be fractions. */
  datatype Options = Options(textThreshold: Option<Fraction>, timeWindowHours: Option<Fraction>)

  datatype Settings = Settings(threshold: Fraction, windowHours: Fraction)

  /** `options?.textThreshold ?? 0.5` and `options?.timeWindowHours ?? 24`. */
  function Resolve(o: Options): (s: Settings)
    ensures o.textThreshold.None? ==> s.threshold == Ratio(1, 2)
    ensures o.timeWindowHours.None? ==> s.windowHours == Ratio(24, 1)
    ensures o.textThreshold.Some? ==> s.threshold == o.textThreshold.value
    ensures o.timeWindowHours.Some? ==> s.windowHours == o.timeWindowHours.value
  {
    Settings(o.textThreshold.GetOr(Ratio(1, 2)), o.timeWindowHours.GetOr(Ratio(24, 1)))
  }

  datatype Point = Point(lat: int, lon: int)

  function Pos(i: Issue): Point { Point(i.latitude, i.longitude) }

  /** 0.001 degree, in micro-degrees. */
  const Offset: int := 1000

  /** The issue's own grid key, then those of its four neighbouring cells. */
  function CellKeys(i: Issue, cell: Point -> string): (ks: seq<string>)
    ensures |ks| == 5 && ks[0] == cell(Pos(i))
  {
    [ cell(Point(i.latitude, i.longitude)),
      cell(Point(i.latitude + Offset, i.longitude)),
      cell(Point(i.latitude - Offset, i.longitude)),
      cell(Point(i.latitude, i.longitude + Offset)),
      cell(Point(i.latitude, i.longitude - Offset)) ]
  }

  /** The text that is compared: title, a space, description. */
  function CompareText(i: Issue): string { i.title + " " + i.description }

  function Abs(x: int): nat { if x < 0 then -x else x }

  /** The four duplicate conditions of an issue against a cluster's first member. */
  predicate Matches(issue: Issue, ref: Issue, st: Settings, within: (Point, Point) -> bool, sim: Scorer) {
    && within(Pos(issue), Pos(ref))
    && issue.category == ref.category
    && AtLeast(sim(CompareText(issue), CompareText(ref)), st.threshold)
    && WithinHours(issue.createdAt - ref.createdAt, st.windowHours)
  }

  /** `Math.abs(dt) / 3600000 <= hours`, by cross-multiplication over the window's positive denominator. */
  predicate WithinHours(dt: int, hours: Fraction) {
    Abs(dt) * hours.den <= hours.num * HourMs
  }

  datatype Group = Group(id: nat, members: seq<Issue>)

  predicate NonEmptyGroups(gs: seq<Group>) {
    forall k :: 0 <= k < |gs| ==> |gs[k].members| > 0
  }

  /** Group `idx` exists and its first member (the reference) matches `issue`. */
  predicate Fits(issue: Issue, gs: seq<Group>, idx: nat, st: Settings, within: (Point, Point) -> bool, sim: Scorer) {
    idx < |gs| && |gs[idx].members| > 0 && Matches(issue, gs[idx].members[0], st, within, sim)
  }

  /** The grid index: cell key to indices of clusters registered there. */
  type Bucket = map<string, seq<nat>>

  /** Every stored index names an existing cluster and occurs once in its cell's list. */
  predicate BucketValid(b: Bucket, n: nat) {
    forall k | k in b :: (forall j | 0 <= j < |b[k]| :: b[k][j] < n) && Distinct(b[k])
  }

  /** `bucket.get(k) ?? []`. */
  function ListAt(b: Bucket, k: string): seq<nat> {
    if k in b then b[k] else []
  }

  /** The lists stored under `keys`, concatenated in key order. */
  function Gather(b: Bucket, keys: seq<string>): seq<nat> {
    if keys == [] then [] else Gather(b, keys[..|keys| - 1]) + ListAt(b, keys[|keys| - 1])
  }

  lemma {:induction false} GatherValid(b: Bucket, keys: seq<string>, n: nat)
    requires BucketValid(b, n)
    ensures forall x :: x in Gather(b, keys) ==> x < n
  {
    if keys != [] {
      GatherValid(b, keys[..|keys| - 1], n);
    }
  }

  /** `[0, 1, ..., n-1]`, that is `[...groups.keys()]`. */
  function Range(n: nat): (r: seq<nat>)
    ensures |r| == n && forall i :: 0 <= i < n ==> r[i] == i
  {
    seq(n, i requires 0 <= i < n => i)
  }

  /** The clusters an issue is compared with: the candidates, or every cluster when there are none. */
  function ScanOrder(cands: seq<nat>, n: nat): seq<nat> {
    if |cands| > 0 then cands else Range(n)
  }

  /** The candidate set: cluster indices registered under any of `keys`, in insertion order. */
  method Candidates(b: Bucket, keys: seq<string>) returns (cands: seq<nat>)
    ensures cands == FirstOccurrences(Gather(b, keys))
  {
    cands := [];
    var ki := 0;
    while ki < |keys|
      invariant 0 <= ki <= |keys|
      invariant cands == FirstOccurrences(Gather(b, keys[..ki]))
    {
      var arr := ListAt(b, keys[ki]);
      ghost var before := Gather(b, keys[..ki]);
      assert before + arr[..0] == before;
      var j := 0;
      while j < |arr|
        invariant 0 <= j <= |arr|
        invariant cands == FirstOccurrences(before + arr[..j])
      {
        ghost var prev := cands;
        if arr[j] !in cands {
          cands := cands + [arr[j]];
        }
        CandidateStep(before, arr, j, prev, cands);
        j := j + 1;
      }
      GatherStep(b, keys, ki);
      ki := ki + 1;
    }
    assert keys[..|keys|] == keys;
  }

  /** One turn of the inner loop of `Candidates`: push the index unless it is already listed. */
  lemma CandidateStep(before: seq<nat>, arr: seq<nat>, j: nat, prev: seq<nat>, cands: seq<nat>)
    requires j < |arr| && prev == FirstOccurrences(before + arr[..j])
    requires cands == if arr[j] in prev then prev else prev + [arr[j]]
    ensures cands == FirstOccurrences(before + arr[..j + 1])
  {
    AppendPrefixStep(before, arr, j);
    FirstOccurrencesAppend(before + arr[..j], arr[j]);
  }

  /** Gathering one more key appends that key's list. */
  lemma GatherStep(b: Bucket, keys: seq<string>, ki: nat)
    requires ki < |keys|
    ensures Gather(b, keys[..ki + 1]) == Gather(b, keys[..ki]) + ListAt(b, keys[ki])[..|ListAt(b, keys[ki])|]
  {
    assert keys[..ki + 1][..ki] == keys[..ki];
    var arr := ListAt(b, keys[ki]);
    assert arr[..|arr|] == arr;
  }

  /** First fit: the position in `order` of the first cluster that fits, or `|order|` when none does. */
  function FirstFit(issue: Issue, gs: seq<Group>, order: seq<nat>, st: Settings,
                    within: (Point, Point) -> bool, sim: Scorer): (pos: nat)
    ensures pos <= |order|
    ensures pos < |order| ==> Fits(issue, gs, order[pos], st, within, sim)
    ensures forall t :: 0 <= t < pos ==> !Fits(issue, gs, order[t], st, within, sim)
    decreases |order|
  {
    if order == [] || Fits(issue, gs, order[0], st, within, sim) then 0
    else
      var rest := FirstFit(issue, gs, order[1..], st, within, sim);
      assert forall t :: 1 <= t < |order| ==> order[t] == order[1..][t - 1];
      1 + rest
  }

  /** A position with nothing fitting before it, that fits or is past the end, is the first fit. */
  lemma FirstFitUnique(issue: Issue, gs: seq<Group>, order: seq<nat>, st: Settings,
                       within: (Point, Point) -> bool, sim: Scorer, pos: nat)
    requires pos <= |order|
    requires pos < |order| ==> Fits(issue, gs, order[pos], st, within, sim)
    requires forall t :: 0 <= t < pos ==> !Fits(issue, gs, order[t], st, within, sim)
    ensures pos == FirstFit(issue, gs, order, st, within, sim)
  {
  }

  /** The scan of `for (const idx of ...)` up to its `break`. */
  method FindMatch(issue: Issue, gs: seq<Group>, order: seq<nat>, st: Settings, within: (Point, Point) -> bool, sim: Scorer)
    returns (pos: nat)
    ensures pos == FirstFit(issue, gs, order, st, within, sim)
  {
    pos := 0;
    while pos < |order|
      invariant pos <= |order|
      invariant forall t :: 0 <= t < pos ==> !Fits(issue, gs, order[t], st, within, sim)
    {
      var idx := order[pos];
      if idx < |gs| && |gs[idx].members| > 0 {
        var ref := gs[idx].members[0];
        if Matches(issue, ref, st, within, sim) {
          FirstFitUnique(issue, gs, order, st, within, sim, pos);
          return;
        }
      }
      pos := pos + 1;
    }
    FirstFitUnique(issue, gs, order, st, within, sim, pos);
  }

  /** `list.push(idx)` on the list stored under `k`. */
  function Push(b: Bucket, k: string, idx: nat): Bucket {
    b[k := ListAt(b, k) + [idx]]
  }

  /** `if (!list.includes(idx)) list.push(idx)` on the list stored under `k`. */
  function Register(b: Bucket, k: string, idx: nat): Bucket {
    if idx in ListAt(b, k) then b[k := ListAt(b, k)] else Push(b, k, idx)
  }

  lemma PushValid(b: Bucket, k: string, idx: nat, n: nat)
    requires BucketValid(b, n) && idx < n
    requires idx !in ListAt(b, k)
    ensures BucketValid(Push(b, k, idx), n)
  {
  }

  /** Registering an existing cluster keeps the index valid: no list ever holds an index twice. */
  lemma RegisterValid(b: Bucket, k: string, idx: nat, n: nat)
    requires BucketValid(b, n) && idx < n
    ensures BucketValid(Register(b, k, idx), n)
  {
    if idx !in ListAt(b, k) {
      PushValid(b, k, idx, n);
    }
  }

  /** Opening cluster `n` registers it under the new issue's cell, keeping the index valid for `n + 1` clusters. */
  lemma OpenValid(b: Bucket, k: string, n: nat)
    requires BucketValid(b, n)
    ensures BucketValid(Push(b, k, n), n + 1)
  {
    assert BucketValid(b, n + 1);
    assert n !in ListAt(b, k);
    PushValid(b, k, n, n + 1);
  }

  function AddMember(g: Group, issue: Issue): Group {
    Group(g.id, g.members + [issue])
  }

  /** The clusters an issue is compared with: the candidates of its five cells, or all clusters. */
  function Order(issue: Issue, gs: seq<Group>, b: Bucket, cell: Point -> string): seq<nat> {
    ScanOrder(FirstOccurrences(Gather(b, CellKeys(issue, cell))), |gs|)
  }

  /**
   * What one turn of the clustering loop does: the issue joins the first cluster of its scan
   * order whose first member it matches, and that cluster is registered under its first
   * member's cell; when none matches, the issue opens cluster `newId`, registered under its
   * own cell.
   */
  function Placement(issue: Issue, gs: seq<Group>, b: Bucket, st: Settings,
                     within: (Point, Point) -> bool, sim: Scorer, cell: Point -> string, newId: nat): (seq<Group>, Bucket)
  {
    var order := Order(issue, gs, b, cell);
    var pos := FirstFit(issue, gs, order, st, within, sim);
    if pos < |order| then
      var idx := order[pos];
      (gs[idx := AddMember(gs[idx], issue)], Register(b, cell(Pos(gs[idx].members[0])), idx))
    else
      (gs + [Group(newId, [issue])], Push(b, cell(Pos(issue)), |gs|))
  }

  /** The clusters and the grid index between two turns of the clustering loop. */
  type Snapshot = (seq<Group>, Bucket)

  /**
   * Turn `k` of a run over `sorted`: snapshot `k + 1` is issue `k` placed on snapshot `k`,
   * a cluster it opens taking the next id after `firstGroupId`.
   */
  predicate StepOK(sorted: seq<Issue>, run: seq<Snapshot>, k: nat, st: Settings, within: (Point, Point) -> bool,
                   sim: Scorer, cell: Point -> string, firstGroupId: nat)
    requires k < |sorted| && k + 1 < |run|
  {
    run[k + 1] == Placement(sorted[k], run[k].0, run[k].1, st, within, sim, cell, firstGroupId + |run[k].0|)
  }

  /**
   * `run` lists the snapshots of the clustering loop over the first `n` issues of `sorted`:
   * it starts with no clusters and an empty index, and each turn places the next issue.
   */
  predicate IsRun(sorted: seq<Issue>, run: seq<Snapshot>, n: nat, st: Settings, within: (Point, Point) -> bool,
                  sim: Scorer, cell: Point -> string, firstGroupId: nat)
  {
    && n <= |sorted| && |run| == n + 1 && run[0] == ([], map[])
    && forall k :: 0 <= k < n ==> StepOK(sorted, run, k, st, within, sim, cell, firstGroupId)
  }

  /** A run extends by one turn when the next snapshot places the next issue. */
  lemma RunExtend(sorted: seq<Issue>, run: seq<Snapshot>, n: nat, next: Snapshot, st: Settings,
                  within: (Point, Point) -> bool, sim: Scorer, cell: Point -> string, firstGroupId: nat)
    requires IsRun(sorted, run, n, st, within, sim, cell, firstGroupId) && n < |sorted|
    requires next == Placement(sorted[n], run[n].0, run[n].1, st, within, sim, cell, firstGroupId + |run[n].0|)
    ensures IsRun(sorted, run + [next], n + 1, st, within, sim, cell, firstGroupId)
  {
    var run' := run + [next];
    forall k | 0 <= k < n + 1
      ensures StepOK(sorted, run', k, st, within, sim, cell, firstGroupId)
    {
      if k < n {
        assert StepOK(sorted, run, k, st, within, sim, cell, firstGroupId);
        assert run'[k] == run[k] && run'[k + 1] == run[k + 1];
      } else {
        assert run'[k] == run[n] && run'[k + 1] == next;
      }
    }
  }

  /** The first `m + 1` snapshots of a run are a run over the first `m` issues. */
  lemma RunPrefix(sorted: seq<Issue>, run: seq<Snapshot>, n: nat, m: nat, st: Settings,
                  within: (Point, Point) -> bool, sim: Scorer, cell: Point -> string, firstGroupId: nat)
    requires IsRun(sorted, run, n, st, within, sim, cell, firstGroupId) && m <= n
    ensures IsRun(sorted, run[..m + 1], m, st, within, sim, cell, firstGroupId)
  {
    var pre := run[..m + 1];
    forall k | 0 <= k < m
      ensures StepOK(sorted, pre, k, st, within, sim, cell, firstGroupId)
    {
      assert StepOK(sorted, run, k, st, within, sim, cell, firstGroupId);
      assert pre[k] == run[k] && pre[k + 1] == run[k + 1];
    }
  }

  /** The loop is deterministic: two runs over the same issues agree snapshot for snapshot. */
  lemma {:induction false} RunUnique(sorted: seq<Issue>, r1: seq<Snapshot>, r2: seq<Snapshot>, n: nat, st: Settings,
                                     within: (Point, Point) -> bool, sim: Scorer, cell: Point -> string,
                                     firstGroupId: nat)
    requires IsRun(sorted, r1, n, st, within, sim, cell, firstGroupId)
    requires IsRun(sorted, r2, n, st, within, sim, cell, firstGroupId)
    ensures r1 == r2
  {
    if n > 0 {
      RunPrefix(sorted, r1, n, n - 1, st, within, sim, cell, firstGroupId);
      RunPrefix(sorted, r2, n, n - 1, st, within, sim, cell, firstGroupId);
      RunUnique(sorted, r1[..n], r2[..n], n - 1, st, within, sim, cell, firstGroupId);
      assert r1[n - 1] == r1[..n][n - 1] == r2[..n][n - 1] == r2[n - 1];
      assert StepOK(sorted, r1, n - 1, st, within, sim, cell, firstGroupId);
      assert StepOK(sorted, r2, n - 1, st, within, sim, cell, firstGroupId);
      assert r1 == r1[..n] + [r1[n]] && r2 == r2[..n] + [r2[n]];
    }
  }

  /** When the scan finds a match, the issue joins that cluster and it is registered under its first member's cell. */
  lemma PlacementJoin(issue: Issue, gs: seq<Group>, b: Bucket, st: Settings, within: (Point, Point) -> bool,
                      sim: Scorer, cell: Point -> string, newId: nat, order: seq<nat>, pos: nat)
    requires order == Order(issue, gs, b, cell) && pos == FirstFit(issue, gs, order, st, within, sim)
    requires pos < |order| && order[pos] < |gs| && |gs[order[pos]].members| > 0
    ensures Placement(issue, gs, b, st, within, sim, cell, newId)
      == (gs[order[pos] := AddMember(gs[order[pos]], issue)], Register(b, cell(Pos(gs[order[pos]].members[0])), order[pos]))
  {
  }

  /** When the scan finds no match, the issue opens cluster `newId`, registered under its own cell. */
  lemma PlacementOpen(issue: Issue, gs: seq<Group>, b: Bucket, st: Settings, within: (Point, Point) -> bool,
                      sim: Scorer, cell: Point -> string, newId: nat, order: seq<nat>, pos: nat)
    requires order == Order(issue, gs, b, cell) && pos == FirstFit(issue, gs, order, st, within, sim)
    requires pos >= |order|
    ensures Placement(issue, gs, b, st, within, sim, cell, newId) == (gs + [Group(newId, [issue])], Push(b, cell(Pos(issue)), |gs|))
  {
  }

  /** The scan order of an issue, computed from the spatial index, with every entry a cluster index. */
  method ScanFor(issue: Issue, gs: seq<Group>, b: Bucket, cell: Point -> string) returns (order: seq<nat>)
    requires BucketValid(b, |gs|)
    ensures order == Order(issue, gs, b, cell)
    ensures forall x :: x in order ==> x < |gs|
  {
    var keys := CellKeys(issue, cell);
    var cands := Candidates(b, keys);
    FirstOccurrencesSpec(Gather(b, keys));
    GatherValid(b, keys, |gs|);
    order := if |cands| > 0 then cands else Range(|gs|);
  }

  /** One turn of the clustering loop, computed as the source does. */
  method Place(issue: Issue, gs: seq<Group>, b: Bucket, st: Settings,
               within: (Point, Point) -> bool, sim: Scorer, cell: Point -> string, newId: nat)
    returns (gs': seq<Group>, b': Bucket, order: seq<nat>, pos: nat)
    requires NonEmptyGroups(gs) && BucketValid(b, |gs|)
    ensures (gs', b') == Placement(issue, gs, b, st, within, sim, cell, newId)
    ensures order == Order(issue, gs, b, cell) && pos == FirstFit(issue, gs, order, st, within, sim)
    ensures forall x :: x in order ==> x < |gs|
    ensures pos < |order| ==> gs' == gs[order[pos] := AddMember(gs[order[pos]], issue)]
    ensures pos >= |order| ==> gs' == gs + [Group(newId, [issue])]
    ensures NonEmptyGroups(gs') && BucketValid(b', |gs'|)
  {
    order := ScanFor(issue, gs, b, cell);
    pos := FindMatch(issue, gs, order, st, within, sim);
    if pos < |order| {
      var idx := order[pos];
      var ref := gs[idx].members[0];
      gs' := gs[idx := AddMember(gs[idx], issue)];
      b' := Register(b, cell(Pos(ref)), idx);
      RegisterValid(b, cell(Pos(ref)), idx, |gs|);
      PlacementJoin(issue, gs, b, st, within, sim, cell, newId, order, pos);
    } else {
      gs' := gs + [Group(newId, [issue])];
      b' := Push(b, cell(Pos(issue)), |gs|);
      OpenValid(b, cell(Pos(issue)), |gs|);
      PlacementOpen(issue, gs, b, st, within, sim, cell, newId, order, pos);
    }
  }

  /** All members of all clusters, cluster by cluster. */
  function Members(gs: seq<Group>): seq<Issue> {
    if gs == [] then [] else gs[0].members + Members(gs[1..])
  }

  /** Non-empty clusters hold at least as many members as there are clusters. */
  lemma {:induction false} MembersOutnumberGroups(gs: seq<Group>)
    requires NonEmptyGroups(gs)
    ensures |gs| <= |Members(gs)|
  {
    if gs != [] {
      MembersOutnumberGroups(gs[1..]);
    }
  }

  /** Pooling distributes over concatenation of cluster lists. */
  lemma {:induction false} MembersConcat(gs: seq<Group>, hs: seq<Group>)
    ensures Members(gs + hs) == Members(gs) + Members(hs)
  {
    if gs == [] {
      assert gs + hs == hs;
    } else {
      MembersConcat(gs[1..], hs);
      ConcatTail(gs, hs);
    }
  }

  lemma MembersAppend(gs: seq<Group>, g: Group)
    ensures Members(gs + [g]) == Members(gs) + g.members
  {
    MembersConcat(gs, [g]);
    assert Members([g]) == g.members + Members([]);
  }

  /** Appending an issue to one cluster adds exactly that issue to the pooled members. */
  lemma MembersAddMember(gs: seq<Group>, j: nat, issue: Issue)
    requires j < |gs|
    ensures multiset(Members(gs[j := AddMember(gs[j], issue)])) == multiset(Members(gs)) + multiset{issue}
  {
    var g := gs[j];
    var pre, post := gs[..j], gs[j + 1..];
    assert gs == pre + ([g] + post);
    assert gs[j := AddMember(g, issue)] == pre + ([AddMember(g, issue)] + post);
    MembersConcat(pre, [g] + post);
    MembersConcat(pre, [AddMember(g, issue)] + post);
    MembersConcat([g], post);
    MembersConcat([AddMember(g, issue)], post);
    assert Members([g]) == g.members + Members([]);
    assert Members([AddMember(g, issue)]) == g.members + [issue] + Members([]);
  }

  /**
   * A well-formed cluster: it has id `id`, at least one member, every later member matches
   * the first one, and members are in non-decreasing `createdAt` order.
   */
  predicate GroupShape(g: Group, id: nat, st: Settings, within: (Point, Point) -> bool, sim: Scorer) {
    && g.id == id && |g.members| > 0
    && (forall m :: 0 < m < |g.members| ==> Matches(g.members[m], g.members[0], st, within, sim))
    && (forall m, m' :: 0 <= m < m' < |g.members| ==> g.members[m].createdAt <= g.members[m'].createdAt)
  }

  /** Cluster `k` is well-formed with id `firstGroupId + k`. */
  predicate ClusterShape(gs: seq<Group>, st: Settings, within: (Point, Point) -> bool, sim: Scorer, firstGroupId: nat) {
    forall k :: 0 <= k < |gs| ==> GroupShape(gs[k], firstGroupId + k, st, within, sim)
  }

  /** No member of `g` was created after `t`. */
  predicate GroupNotAfter(g: Group, t: int) {
    forall m :: 0 <= m < |g.members| ==> g.members[m].createdAt <= t
  }

  predicate NotAfter(gs: seq<Group>, t: int) {
    forall k :: 0 <= k < |gs| ==> GroupNotAfter(gs[k], t)
  }

  lemma NotAfterLater(gs: seq<Group>, t: int, t': int)
    requires NotAfter(gs, t) && t <= t'
    ensures NotAfter(gs, t')
  {
    forall k | 0 <= k < |gs|
      ensures GroupNotAfter(gs[k], t')
    {
      assert GroupNotAfter(gs[k], t);
    }
  }

  /** A matching issue created no earlier than any member can be appended to a well-formed cluster. */
  lemma GroupJoin(g: Group, id: nat, issue: Issue, st: Settings, within: (Point, Point) -> bool, sim: Scorer)
    requires GroupShape(g, id, st, within, sim) && GroupNotAfter(g, issue.createdAt)
    requires Matches(issue, g.members[0], st, within, sim)
    ensures GroupShape(AddMember(g, issue), id, st, within, sim)
    ensures GroupNotAfter(AddMember(g, issue), issue.createdAt)
  {
    var g' := AddMember(g, issue);
    assert forall m :: 0 <= m < |g.members| ==> g'.members[m] == g.members[m];
    assert g'.members[|g.members|] == issue;
  }

  /** Joining a cluster that fits, at a time no earlier than any member, keeps the cluster shape. */
  lemma JoinKeepsShape(gs: seq<Group>, j: nat, issue: Issue, st: Settings, within: (Point, Point) -> bool,
                       sim: Scorer, firstGroupId: nat)
    requires ClusterShape(gs, st, within, sim, firstGroupId) && NotAfter(gs, issue.createdAt)
    requires Fits(issue, gs, j, st, within, sim)
    ensures ClusterShape(gs[j := AddMember(gs[j], issue)], st, within, sim, firstGroupId)
    ensures NotAfter(gs[j := AddMember(gs[j], issue)], issue.createdAt)
  {
    assert GroupShape(gs[j], firstGroupId + j, st, within, sim) && GroupNotAfter(gs[j], issue.createdAt);
    GroupJoin(gs[j], firstGroupId + j, issue, st, within, sim);
  }

  /** Opening a new cluster for an issue no earlier than any member keeps the cluster shape. */
  lemma OpenKeepsShape(gs: seq<Group>, issue: Issue, st: Settings, within: (Point, Point) -> bool,
                       sim: Scorer, firstGroupId: nat)
    requires ClusterShape(gs, st, within, sim, firstGroupId) && NotAfter(gs, issue.createdAt)
    ensures ClusterShape(gs + [Group(firstGroupId + |gs|, [issue])], st, within, sim, firstGroupId)
    ensures NotAfter(gs + [Group(firstGroupId + |gs|, [issue])], issue.createdAt)
  {
  }

  /** Issues sorted by `createdAt`, as the clustering loop receives them. */
  predicate ByCreation(sorted: seq<Issue>) {
    forall i, j :: 0 <= i < j < |sorted| ==> sorted[i].createdAt <= sorted[j].createdAt
  }

  /**
   * The clustering loop's invariant after `i` issues: the clusters hold exactly those issues,
   * have the cluster shape, none of their members is later than the last issue placed, and
   * the grid index is valid.
   */
  predicate Clustered(sorted: seq<Issue>, i: nat, gs: seq<Group>, b: Bucket, st: Settings,
                      within: (Point, Point) -> bool, sim: Scorer, firstGroupId: nat) {
    && i <= |sorted| && |gs| <= i
    && ClusterShape(gs, st, within, sim, firstGroupId) && BucketValid(b, |gs|)
    && multiset(Members(gs)) == multiset(sorted[..i])
    && (i > 0 ==> NotAfter(gs, sorted[i - 1].createdAt))
  }

  /** After the last issue, the clusters hold exactly the input. */
  lemma ClusteredAll(sorted: seq<Issue>, gs: seq<Group>, b: Bucket, st: Settings,
                     within: (Point, Point) -> bool, sim: Scorer, firstGroupId: nat)
    requires Clustered(sorted, |sorted|, gs, b, st, within, sim, firstGroupId)
    ensures multiset(Members(gs)) == multiset(sorted)
  {
    assert sorted[..|sorted|] == sorted;
  }

  /** A clustering step that appends `sorted[i]` to a cluster it fits keeps the loop invariant. */
  lemma StepJoin(sorted: seq<Issue>, i: nat, gs: seq<Group>, b: Bucket, gs': seq<Group>, b': Bucket, j: nat,
                 st: Settings, within: (Point, Point) -> bool, sim: Scorer, firstGroupId: nat)
    requires ByCreation(sorted) && i < |sorted| && Clustered(sorted, i, gs, b, st, within, sim, firstGroupId)
    requires Fits(sorted[i], gs, j, st, within, sim) && gs' == gs[j := AddMember(gs[j], sorted[i])]
    requires BucketValid(b', |gs'|)
    ensures Clustered(sorted, i + 1, gs', b', st, within, sim, firstGroupId)
  {
    var issue := sorted[i];
    if i > 0 {
      NotAfterLater(gs, sorted[i - 1].createdAt, issue.createdAt);
    }
    PrefixStep(sorted, i);
    MembersAddMember(gs, j, issue);
    JoinKeepsShape(gs, j, issue, st, within, sim, firstGroupId);
  }

  /** A clustering step that opens a new cluster for `sorted[i]` keeps the loop invariant. */
  lemma StepOpen(sorted: seq<Issue>, i: nat, gs: seq<Group>, b: Bucket, gs': seq<Group>, b': Bucket,
                 st: Settings, within: (Point, Point) -> bool, sim: Scorer, firstGroupId: nat)
    requires ByCreation(sorted) && i < |sorted| && Clustered(sorted, i, gs, b, st, within, sim, firstGroupId)
    requires gs' == gs + [Group(firstGroupId + |gs|, [sorted[i]])]
    requires BucketValid(b', |gs'|)
    ensures Clustered(sorted, i + 1, gs', b', st, within, sim, firstGroupId)
  {
    var issue := sorted[i];
    if i > 0 {
      NotAfterLater(gs, sorted[i - 1].createdAt, issue.createdAt);
    }
    PrefixStep(sorted, i);
    MembersAppend(gs, Group(firstGroupId + |gs|, [issue]));
    OpenKeepsShape(gs, issue, st, within, sim, firstGroupId);
  }

  /**
   * One turn of the clustering loop on snapshot `i` of a run: `Place` issue `i`, extending the
   * run by the snapshot it yields. Also reports the scan order and where the scan stopped.
   */
  method Step(sorted: seq<Issue>, i: nat, gs: seq<Group>, b: Bucket, ghost run: seq<Snapshot>, st: Settings,
              within: (Point, Point) -> bool, sim: Scorer, cell: Point -> string, firstGroupId: nat)
    returns (gs': seq<Group>, b': Bucket, order: seq<nat>, pos: nat, ghost run': seq<Snapshot>)
    requires i < |sorted| && NonEmptyGroups(gs) && BucketValid(b, |gs|)
    requires IsRun(sorted, run, i, st, within, sim, cell, firstGroupId) && run[i] == (gs, b)
    ensures IsRun(sorted, run', i + 1, st, within, sim, cell, firstGroupId) && run'[i + 1] == (gs', b')
    ensures pos < |order| ==>
      && order[pos] < |gs| && Fits(sorted[i], gs, order[pos], st, within, sim)
      && gs' == gs[order[pos] := AddMember(gs[order[pos]], sorted[i])]
    ensures pos >= |order| ==> gs' == gs + [Group(firstGroupId + |gs|, [sorted[i]])]
    ensures NonEmptyGroups(gs') && BucketValid(b', |gs'|)
  {
    gs', b', order, pos := Place(sorted[i], gs, b, st, within, sim, cell, firstGroupId + |gs|);
    RunExtend(sorted, run, i, (gs', b'), st, within, sim, cell, firstGroupId);
    run' := run + [(gs', b')];
  }

  /** An empty index yields no candidates, whatever the keys. */
  lemma {:induction false} GatherEmpty(keys: seq<string>)
    ensures Gather(map[], keys) == []
  {
    if keys != [] {
      GatherEmpty(keys[..|keys| - 1]);
    }
  }

  /** With a single cluster, the scan order is that cluster alone, whether or not the index names it. */
  lemma OneClusterOrder(issue: Issue, gs: seq<Group>, b: Bucket, cell: Point -> string)
    requires |gs| == 1 && BucketValid(b, 1)
    ensures Order(issue, gs, b, cell) == [0]
  {
    OneClusterScan(b, CellKeys(issue, cell));
  }

  /** Whatever the keys, an index over a single cluster yields the scan order `[0]`. */
  lemma OneClusterScan(b: Bucket, keys: seq<string>)
    requires BucketValid(b, 1)
    ensures ScanOrder(FirstOccurrences(Gather(b, keys)), 1) == [0]
  {
    var cands := FirstOccurrences(Gather(b, keys));
    GatherValid(b, keys, 1);
    FirstOccurrencesSpec(Gather(b, keys));
    ConstantPair(cands, 0);
    assert |cands| <= 1;
    if |cands| == 0 {
      assert Range(1) == [0];
    } else {
      assert cands[0] in Gather(b, keys);
      assert cands == [0];
    }
  }

  /** In any run, the first issue opens cluster `firstGroupId`, registered under its own cell. */
  lemma FirstPlacement(sorted: seq<Issue>, run: seq<Snapshot>, n: nat, st: Settings, within: (Point, Point) -> bool,
                       sim: Scorer, cell: Point -> string, firstGroupId: nat)
    requires IsRun(sorted, run, n, st, within, sim, cell, firstGroupId) && n >= 1
    ensures run[1] == ([Group(firstGroupId, [sorted[0]])], Push(map[], cell(Pos(sorted[0])), 0))
  {
    assert StepOK(sorted, run, 0, st, within, sim, cell, firstGroupId);
    GatherEmpty(CellKeys(sorted[0], cell));
    assert Order(sorted[0], [], map[], cell) == [];
    FirstFitUnique(sorted[0], [], [], st, within, sim, 0);
    PlacementOpen(sorted[0], [], map[], st, within, sim, cell, firstGroupId, [], 0);
    assert [] + [Group(firstGroupId, [sorted[0]])] == [Group(firstGroupId, [sorted[0]])];
  }

  /** An issue that matches the only member of the only cluster joins it. */
  lemma JoinFirst(first: Issue, issue: Issue, st: Settings, within: (Point, Point) -> bool, sim: Scorer,
                  cell: Point -> string, firstGroupId: nat)
    requires Matches(issue, first, st, within, sim)
    ensures Placement(issue, [Group(firstGroupId, [first])], Push(map[], cell(Pos(first)), 0),
                      st, within, sim, cell, firstGroupId + 1).0
      == [Group(firstGroupId, [first, issue])]
  {
    var gs, b := [Group(firstGroupId, [first])], Push(map[], cell(Pos(first)), 0);
    OpenValid(map[], cell(Pos(first)), 0);
    OneClusterOrder(issue, gs, b, cell);
    assert Fits(issue, gs, 0, st, within, sim);
    FirstFitUnique(issue, gs, [0], st, within, sim, 0);
    PlacementJoin(issue, gs, b, st, within, sim, cell, firstGroupId + 1, [0], 0);
    assert [first] + [issue] == [first, issue];
  }

  /** In any run, when the second issue matches the first, the two form one cluster, first issue first. */
  lemma SecondJoinsFirst(sorted: seq<Issue>, run: seq<Snapshot>, n: nat, st: Settings, within: (Point, Point) -> bool,
                         sim: Scorer, cell: Point -> string, firstGroupId: nat)
    requires IsRun(sorted, run, n, st, within, sim, cell, firstGroupId) && n >= 2
    requires Matches(sorted[1], sorted[0], st, within, sim)
    ensures run[2].0 == [Group(firstGroupId, [sorted[0], sorted[1]])]
  {
    FirstPlacement(sorted, run, n, st, within, sim, cell, firstGroupId);
    assert StepOK(sorted, run, 1, st, within, sim, cell, firstGroupId);
    JoinFirst(sorted[0], sorted[1], st, within, sim, cell, firstGroupId);
  }

  /** A turn of the loop never closes a cluster, renames one or removes a member: each cluster's members only grow at the end. */
  lemma PlacementGrows(issue: Issue, gs: seq<Group>, b: Bucket, st: Settings, within: (Point, Point) -> bool,
                       sim: Scorer, cell: Point -> string, newId: nat)
    ensures var gs' := Placement(issue, gs, b, st, within, sim, cell, newId).0;
      && |gs| <= |gs'|
      && forall k :: 0 <= k < |gs| ==> gs'[k].id == gs[k].id && gs[k].members <= gs'[k].members
  {
  }

  /** Along a run, from one snapshot to the next, clusters keep their ids and their members only grow at the end. */
  lemma RunGrows(sorted: seq<Issue>, run: seq<Snapshot>, n: nat, k: nat, st: Settings,
                 within: (Point, Point) -> bool, sim: Scorer, cell: Point -> string, firstGroupId: nat)
    requires IsRun(sorted, run, n, st, within, sim, cell, firstGroupId) && k < n
    ensures |run[k].0| <= |run[k + 1].0|
    ensures forall j :: 0 <= j < |run[k].0| ==>
      run[k + 1].0[j].id == run[k].0[j].id && run[k].0[j].members <= run[k + 1].0[j].members
  {
    assert StepOK(sorted, run, k, st, within, sim, cell, firstGroupId);
    PlacementGrows(sorted[k], run[k].0, run[k].1, st, within, sim, cell, firstGroupId + |run[k].0|);
  }

  /**
   * First fit, over a whole run: when the second issue matches the first, both stay together
   * at the head of the first cluster, however many issues follow.
   */
  lemma {:induction false} FirstPairStaysTogether(sorted: seq<Issue>, run: seq<Snapshot>, n: nat, m: nat,
                                                  st: Settings, within: (Point, Point) -> bool, sim: Scorer,
                                                  cell: Point -> string, firstGroupId: nat)
    requires IsRun(sorted, run, n, st, within, sim, cell, firstGroupId) && 2 <= m <= n
    requires Matches(sorted[1], sorted[0], st, within, sim)
    ensures |run[m].0| >= 1 && run[m].0[0].id == firstGroupId && [sorted[0], sorted[1]] <= run[m].0[0].members
  {
    if m == 2 {
      SecondJoinsFirst(sorted, run, n, st, within, sim, cell, firstGroupId);
    } else {
      FirstPairStaysTogether(sorted, run, n, m - 1, st, within, sim, cell, firstGroupId);
      RunGrows(sorted, run, n, m - 1, st, within, sim, cell, firstGroupId);
    }
  }

  /**
   * A repeat report under the default settings: same category, title and description as an
   * earlier issue, near it, and at most 24 hours later. The two are clustered together, the
   * earlier one first, so `detectAndMergeDuplicates([a, r], {})` yields one merged issue.
   */
  lemma RepeatReportMerges(a: Issue, r: Issue, run: seq<Snapshot>, within: (Point, Point) -> bool,
                            cell: Point -> string, firstGroupId: nat)
    requires a.createdAt <= r.createdAt <= a.createdAt + 24 * HourMs
    requires r.category == a.category && r.title == a.title && r.description == a.description
    requires within(Pos(r), Pos(a))
    requires IsRun(SortBy([a, r], CreatedKey), run, 2, Resolve(Options(None, None)), within, Jaccard, cell, firstGroupId)
    ensures run[2].0 == [Group(firstGroupId, [a, r])]
  {
    SortedPair(a, r);
    RepeatMatches(a, r, within);
    SecondJoinsFirst([a, r], run, 2, Resolve(Options(None, None)), within, Jaccard, cell, firstGroupId);
  }

  /** Two issues already in `createdAt` order stay in that order. */
  lemma SortedPair(a: Issue, r: Issue)
    requires a.createdAt <= r.createdAt
    ensures SortBy([a, r], CreatedKey) == [a, r]
  {
    assert SortBy([r], CreatedKey) == [r];
    assert SortBy([a, r], CreatedKey) == Insert(a, [r], CreatedKey);
  }

  /** A repeat report matches the earlier issue under the default threshold and window. */
  lemma RepeatMatches(a: Issue, r: Issue, within: (Point, Point) -> bool)
    requires a.createdAt <= r.createdAt <= a.createdAt + 24 * HourMs
    requires r.category == a.category && r.title == a.title && r.description == a.description
    requires within(Pos(r), Pos(a))
    ensures Matches(r, a, Resolve(Options(None, None)), within, Jaccard)
  {
    JaccardSameText(CompareText(r), CompareText(a));
  }

  /**
   * The clustering loop over issues sorted by `createdAt`, with `run` the snapshots it passes
   * through: each issue joins the first scanned cluster whose first member it matches, or
   * opens a new one. Every issue lands in exactly one cluster, every later member matches its
   * cluster's first member, and members are kept in arrival order, so the first member is the
   * earliest.
   */
  method Cluster(sorted: seq<Issue>, st: Settings, within: (Point, Point) -> bool, sim: Scorer,
                 cell: Point -> string, firstGroupId: nat)
    returns (gs: seq<Group>, b: Bucket, ghost run: seq<Snapshot>)
    requires ByCreation(sorted)
    ensures IsRun(sorted, run, |sorted|, st, within, sim, cell, firstGroupId) && run[|sorted|] == (gs, b)
    ensures ClusterShape(gs, st, within, sim, firstGroupId) && BucketValid(b, |gs|)
    ensures multiset(Members(gs)) == multiset(sorted)
    ensures |gs| <= |sorted|
  {
    gs, b := [], map[];
    run := [([], map[])];
    var i := 0;
    while i < |sorted|
      invariant Clustered(sorted, i, gs, b, st, within, sim, firstGroupId)
      invariant IsRun(sorted, run, i, st, within, sim, cell, firstGroupId) && run[i] == (gs, b)
    {
      var gs', b', order, pos;
      gs', b', order, pos, run := Step(sorted, i, gs, b, run, st, within, sim, cell, firstGroupId);
      if pos < |order| {
        StepJoin(sorted, i, gs, b, gs', b', order[pos], st, within, sim, firstGroupId);
      } else {
        StepOpen(sorted, i, gs, b, gs', b', st, within, sim, firstGroupId);
      }
      gs, b, i := gs', b', i + 1;
    }
    ClusteredAll(sorted, gs, b, st, within, sim, firstGroupId);
  }

  /** The canonical order: lower priority value, then more upvotes, then later `createdAt`. */
  predicate Before(a: Issue, b: Issue) {
    || a.priority < b.priority
    || (a.priority == b.priority && a.upvotes > b.upvotes)
    || (a.priority == b.priority && a.upvotes == b.upvotes && a.createdAt > b.createdAt)
  }

  /**
   * `c` is the head of the members stably sorted by the canonical order: nothing comes
   * before it, and every earlier member comes strictly after it.
   */
  predicate IsCanonical(ms: seq<Issue>, c: nat) {
    && c < |ms|
    && (forall j :: 0 <= j < |ms| ==> !Before(ms[j], ms[c]))
    && (forall j :: 0 <= j < c ==> Before(ms[c], ms[j]))
  }

  /** A position before the canonical one is not canonical: the canonical member comes strictly before it. */
  lemma EarlierNotCanonical(ms: seq<Issue>, c: nat, d: nat)
    requires IsCanonical(ms, c) && d < c
    ensures !IsCanonical(ms, d)
  {
    assert Before(ms[c], ms[d]);
  }

  /** There is only one canonical position. */
  lemma CanonicalUnique(ms: seq<Issue>, c1: nat, c2: nat)
    requires IsCanonical(ms, c1) && IsCanonical(ms, c2)
    ensures c1 == c2
  {
    if c2 < c1 {
      EarlierNotCanonical(ms, c1, c2);
    }
    if c1 < c2 {
      EarlierNotCanonical(ms, c2, c1);
    }
  }

  /** `[...members].sort(canonicalOrder)[0]`, as a position in `members`. */
  method PickCanonical(ms: seq<Issue>) returns (c: nat)
    requires |ms| > 0
    ensures IsCanonical(ms, c)
  {
    c := 0;
    var j := 1;
    while j < |ms|
      invariant 1 <= j <= |ms| && c < j
      invariant forall t :: 0 <= t < j ==> !Before(ms[t], ms[c])
      invariant forall t :: 0 <= t < c ==> Before(ms[c], ms[t])
    {
      if Before(ms[j], ms[c]) {
        c := j;
      }
      j := j + 1;
    }
  }

  function Upvotes(i: Issue): int { i.upvotes }

  /** `members.reduce((sum, m) => sum + m.upvotes, 0)`. */
  function TotalUpvotes(ms: seq<Issue>): nat {
    SumOfNonNegative(ms);
    SumOf(ms, Upvotes)
  }

  /** The latest `updatedAt` among `d` and the members: the source's second `reduce`. */
  function Latest(ms: seq<Issue>, d: int): (r: int)
    ensures r >= d
    ensures forall j :: 0 <= j < |ms| ==> ms[j].updatedAt <= r
    ensures r == d || exists j :: 0 <= j < |ms| && ms[j].updatedAt == r
  {
    if ms == [] then d
    else
      var r := Latest(ms[1..], if ms[0].updatedAt > d then ms[0].updatedAt else d);
      assert forall j :: 1 <= j < |ms| ==> ms[j] == ms[1..][j - 1];
      r
  }

  /**
   * The merged output for a cluster: the canonical member, marked as the cluster's
   * representative, carrying the cluster's total upvotes and its latest update.
   */
  function MergedCopy(g: Group, c: nat): (r: Issue)
    requires c < |g.members|
    ensures r == g.members[c].(groupId := r.groupId, duplicateOf := r.duplicateOf,
                               upvotes := r.upvotes, updatedAt := r.updatedAt)
    ensures r.groupId == Some(g.id) && r.duplicateOf.None?
    ensures r.upvotes == SumOf(g.members, Upvotes)
    ensures forall j :: 0 <= j < |g.members| ==> g.members[j].updatedAt <= r.updatedAt
    ensures exists j :: 0 <= j < |g.members| && g.members[j].updatedAt == r.updatedAt
  {
    var canonical := g.members[c];
    var latest := Latest(g.members, canonical.updatedAt);
    canonical.(groupId := Some(g.id), duplicateOf := None,
               upvotes := TotalUpvotes(g.members), updatedAt := latest)
  }

  /** The write-back onto each member: its cluster id, and the canonical id unless it is the canonical one. */
  function WriteBack(g: Group, canonicalId: nat): (w: seq<Issue>)
    ensures |w| == |g.members|
  {
    seq(|g.members|, j requires 0 <= j < |g.members| =>
      g.members[j].(groupId := Some(g.id),
                    duplicateOf := if g.members[j].id == canonicalId then None else Some(canonicalId)))
  }

  /**
   * With distinct ids, exactly the canonical member ends with no `duplicateOf`; every other
   * member points at it, and every member carries the cluster id.
   */
  lemma WriteBackMarksCanonical(g: Group, c: nat)
    requires c < |g.members|
    requires forall a, b :: 0 <= a < b < |g.members| ==> g.members[a].id != g.members[b].id
    ensures forall j :: 0 <= j < |g.members| ==> WriteBack(g, g.members[c].id)[j].groupId == Some(g.id)
    ensures forall j :: 0 <= j < |g.members| ==>
      (WriteBack(g, g.members[c].id)[j].duplicateOf.None? <==> j == c)
    ensures forall j :: 0 <= j < |g.members| && j != c ==>
      WriteBack(g, g.members[c].id)[j].duplicateOf == Some(g.members[c].id)
  {
  }

  lemma {:induction false} SumOfNonNegative(ms: seq<Issue>)
    ensures SumOf(ms, Upvotes) >= 0
  {
    if ms != [] {
      SumOfNonNegative(ms[1..]);
    }
  }

  /** The merge loop: one canonical choice and one merged copy per cluster, in cluster order. */
  method MergeGroups(gs: seq<Group>) returns (merged: seq<Issue>, canon: seq<nat>)
    requires NonEmptyGroups(gs)
    ensures |merged| == |gs| && |canon| == |gs|
    ensures forall k :: 0 <= k < |gs| ==>
      IsCanonical(gs[k].members, canon[k]) && merged[k] == MergedCopy(gs[k], canon[k])
  {
    merged, canon := [], [];
    var k := 0;
    while k < |gs|
      invariant 0 <= k <= |gs|
      invariant |merged| == k && |canon| == k
      invariant forall t :: 0 <= t < k ==>
        IsCanonical(gs[t].members, canon[t]) && merged[t] == MergedCopy(gs[t], canon[t])
    {
      var g := gs[k];
      var c := PickCanonical(g.members);
      var canonical := g.members[c];
      var total := TotalUpvotes(g.members);
      var latest := Latest(g.members, canonical.updatedAt);
      var copy := canonical.(groupId := Some(g.id), duplicateOf := None, upvotes := total, updatedAt := latest);
      merged := merged + [copy];
      canon := canon + [c];
      k := k + 1;
    }
  }

  function GroupUpvotes(g: Group): int { SumOf(g.members, Upvotes) }

  function GroupSize(g: Group): int { |g.members| }

  lemma {:induction false} MembersUpvotes(gs: seq<Group>)
    ensures SumOf(Members(gs), Upvotes) == SumOf(gs, GroupUpvotes)
  {
    if gs != [] {
      MembersUpvotes(gs[1..]);
      SumOfConcat(gs[0].members, Members(gs[1..]), Upvotes);
    }
  }

  lemma {:induction false} MembersSize(gs: seq<Group>)
    ensures |Members(gs)| == SumOf(gs, GroupSize)
  {
    if gs != [] {
      MembersSize(gs[1..]);
    }
  }

  lemma {:induction false} MergedUpvotes(merged: seq<Issue>, gs: seq<Group>)
    requires |merged| == |gs|
    requires forall k :: 0 <= k < |gs| ==> merged[k].upvotes == GroupUpvotes(gs[k])
    ensures SumOf(merged, Upvotes) == SumOf(gs, GroupUpvotes)
  {
    if gs != [] {
      MergedUpvotes(merged[1..], gs[1..]);
    }
  }

  /**
   * Merging conserves upvotes: the merged copies together carry exactly the upvotes of the
   * input, and the clusters together hold exactly the input's issues.
   */
  lemma Conservation(issues: seq<Issue>, gs: seq<Group>, merged: seq<Issue>, canon: seq<nat>)
    requires multiset(Members(gs)) == multiset(issues)
    requires |merged| == |gs| && |canon| == |gs|
    requires forall k :: 0 <= k < |gs| ==>
      IsCanonical(gs[k].members, canon[k]) && merged[k] == MergedCopy(gs[k], canon[k])
    ensures SumOf(gs, GroupSize) == |issues|
    ensures SumOf(merged, Upvotes) == SumOf(issues, Upvotes)
  {
    MembersSize(gs);
    assert |Members(gs)| == |multiset(Members(gs))| == |issues|;
    MembersUpvotes(gs);
    MergedUpvotes(merged, gs);
    SumOfPermutation(Members(gs), issues, Upvotes);
  }

  /** Every merged copy is a representative (no `duplicateOf`) carrying its cluster's id. */
  lemma MergedMarked(gs: seq<Group>, merged: seq<Issue>, canon: seq<nat>, firstGroupId: nat)
    requires forall k :: 0 <= k < |gs| ==> gs[k].id == firstGroupId + k
    requires |merged| == |gs| && |canon| == |gs|
    requires forall k :: 0 <= k < |gs| ==>
      IsCanonical(gs[k].members, canon[k]) && merged[k] == MergedCopy(gs[k], canon[k])
    ensures forall k :: 0 <= k < |merged| ==> merged[k].duplicateOf.None? && merged[k].groupId == Some(firstGroupId + k)
  {
    forall k | 0 <= k < |merged|
      ensures merged[k].duplicateOf.None? && merged[k].groupId == Some(firstGroupId + k)
    {
      assert merged[k] == MergedCopy(gs[k], canon[k]) && gs[k].id == firstGroupId + k;
    }
  }

  function CreatedKey(i: Issue): Key { (i.createdAt, 0) }

  /**
   * The body of `detectAndMergeDuplicates` for resolved settings and a similarity score:
   * sort by `createdAt`, cluster, merge. Returns the merged issues, one per cluster in
   * creation order, together with the clusters and each cluster's canonical position.
   */
  method ClusterAndMerge(issues: seq<Issue>, st: Settings, within: (Point, Point) -> bool, sim: Scorer,
                         cell: Point -> string, firstGroupId: nat)
    returns (merged: seq<Issue>, gs: seq<Group>, canon: seq<nat>, ghost run: seq<Snapshot>)
    ensures var sorted := SortBy(issues, CreatedKey);
      IsRun(sorted, run, |sorted|, st, within, sim, cell, firstGroupId) && gs == run[|sorted|].0
    ensures |merged| == |gs| && |canon| == |gs|
    ensures issues == [] <==> merged == []
    ensures multiset(Members(gs)) == multiset(issues)
    ensures SumOf(gs, GroupSize) == |issues|
    ensures ClusterShape(gs, st, within, sim, firstGroupId)
    ensures forall k :: 0 <= k < |gs| ==>
      IsCanonical(gs[k].members, canon[k]) && merged[k] == MergedCopy(gs[k], canon[k])
    ensures forall k :: 0 <= k < |merged| ==> merged[k].duplicateOf.None? && merged[k].groupId == Some(firstGroupId + k)
    ensures SumOf(merged, Upvotes) == SumOf(issues, Upvotes)
  {
    var sorted := SortBy(issues, CreatedKey);
    var b;
    gs, b, run := Cluster(sorted, st, within, sim, cell, firstGroupId);
    merged, canon := MergeGroups(gs);
    Conservation(issues, gs, merged, canon);
    MergedMarked(gs, merged, canon, firstGroupId);
    if issues != [] {
      assert |Members(gs)| == |multiset(Members(gs))| > 0;
    }
  }

  /** `detectAndMergeDuplicates(issues, options)`: the defaults resolved, texts compared by `Jaccard`. */
  method DetectAndMergeDuplicates(issues: seq<Issue>, options: Options, within: (Point, Point) -> bool,
                                  cell: Point -> string, firstGroupId: nat)
    returns (merged: seq<Issue>, gs: seq<Group>, canon: seq<nat>, ghost run: seq<Snapshot>)
    ensures var sorted := SortBy(issues, CreatedKey);
      IsRun(sorted, run, |sorted|, Resolve(options), within, Jaccard, cell, firstGroupId) && gs == run[|sorted|].0
    ensures |merged| == |gs| && |canon| == |gs|
    ensures issues == [] <==> merged == []
    ensures multiset(Members(gs)) == multiset(issues)
    ensures SumOf(gs, GroupSize) == |issues|
    ensures ClusterShape(gs, Resolve(options), within, Jaccard, firstGroupId)
    ensures forall k :: 0 <= k < |gs| ==>
      IsCanonical(gs[k].members, canon[k]) && merged[k] == MergedCopy(gs[k], canon[k])
    ensures forall k :: 0 <= k < |merged| ==> merged[k].duplicateOf.None? && merged[k].groupId == Some(firstGroupId + k)
    ensures SumOf(merged, Upvotes) == SumOf(issues, Upvotes)
  {
    merged, gs, canon, run := ClusterAndMerge(issues, Resolve(options), within, Jaccard, cell, firstGroupId);
  }
}

=== FILE: generator.dfy ===
/**
 * `generateIssues`: a seeded linear congruential generator drives a loop that emits one
 * base issue per turn followed by zero, one or two near-duplicates of it.
 *
 * `rand()` is `s / 233280` after the update `s = (s * 9301 + 49297) % 233280`; the choices
 * `Math.floor(rand() * k)` and `rand() < p` are computed exactly on integers. The wall clock
 * `now` and the first identifier are parameters, and identifiers are consecutive naturals.
 */
module Generator {
  import opened Wrappers
  import opened Text
  import opened IssueModel

  const Modulus: nat := 233280

  /** JavaScript's `%`, whose result takes the sign of the dividend. */
  function JsRem(a: int, m: nat): (r: int)
    requires m > 0
    ensures a >= 0 ==> 0 <= r < m
    ensures a < 0 ==> -(m as int) < r <= 0
  {
    if a >= 0 then a % m else -((-a) % m)
  }

  /** One step of the generator's state. */
  function Next(s: int): int {
    JsRem(s * 9301 + 49297, Modulus)
  }

  /** A state whose next step is non-negative; every state after the first draw is one. */
  predicate Seeded(s: int) {
    Next(s) >= 0
  }

  /** Once non-negative, the state stays in `[0, 233280)` on every step. */
  lemma NextInRange(s: int)
    requires Seeded(s)
    ensures 0 <= Next(s) < Modulus && Seeded(Next(s))
  {
  }

  /**
   * The seeds whose first state is non-negative: those from -5 upwards, whose dividend is
   * non-negative, and those whose negative dividend is an exact multiple of 233280, for which
   * the first state is zero.
   */
  lemma SeededSeeds(seed: int)
    ensures Seeded(seed) <==> seed >= -5 || (seed * 9301 + 49297) % Modulus == 0
  {
    var a := seed * 9301 + 49297;
    if seed < -5 {
      assert seed * 9301 <= -6 * 9301;
      NegatedMultiple(a);
    }
  }

  /** For a negative dividend, its negation is a multiple of the modulus exactly when it is. */
  lemma NegatedMultiple(a: int)
    requires a < 0
    ensures (-a) % Modulus == 0 <==> a % Modulus == 0
  {
    var q := (-a) / Modulus;
    if (-a) % Modulus == 0 {
      assert a == (-q) * Modulus;
    }
    if a % Modulus == 0 {
      var p := a / Modulus;
      assert -a == (-p) * Modulus;
    }
  }

  /** Seed -210637 is below -5, yet its dividend is exactly -8398 * 233280, so its first state is zero. */
  lemma NegativeSeedZeroState()
    ensures Seeded(-210637) && Next(-210637) == 0
  {
    assert -210637 * 9301 + 49297 == -8398 * 233280;
  }

  /** `Math.floor((s / 233280) * k)`. */
  function Pick(s: int, k: nat): (v: nat)
    requires 0 <= s < Modulus && k > 0
    ensures v < k
  {
    (s * k) / Modulus
  }

  /** `rand() < pct / 100`. */
  predicate Below(s: int, pct: nat) {
    s * 100 < pct * Modulus
  }

  /** `const v = Math.floor(rand() * k)`: advance the state, then scale it to `[0, k)`. */
  method Draw(s: int, k: nat) returns (s': int, v: nat)
    requires Seeded(s) && k > 0
    ensures s' == Next(s) && 0 <= s' < Modulus && Seeded(s')
    ensures v == Pick(s', k) && v < k
  {
    NextInRange(s);
    s' := Next(s);
    v := Pick(s', k);
  }

  /** `rand() < pct / 100`, advancing the state. */
  method DrawBelow(s: int, pct: nat) returns (s': int, b: bool)
    requires Seeded(s)
    ensures s' == Next(s) && 0 <= s' < Modulus && Seeded(s')
    ensures b <==> Below(s', pct)
  {
    NextInRange(s);
    s' := Next(s);
    b := Below(s', pct);
  }

  /** Delhi, in micro-degrees. */
  const BaseLat: int := 28_613_900
  const BaseLon: int := 77_209_000

  /** Citizen `k` of the two hundred generated reporters. */
  function Citizen(k: nat): Reporter {
    Reporter("r" + Decimal(k), "Citizen " + Decimal(k + 1))
  }

  /** The three titles of each category. */
  function Titles(c: Category): (ts: seq<string>)
    ensures |ts| == 3
  {
    match c
    case Garbage => ["Overflowing garbage bin", "Uncollected waste pile", "Littered street corner"]
    case Pothole => ["Large pothole on road", "Broken asphalt patch", "Deep road cavity"]
    case Streetlight => ["Streetlight not working", "Flickering light pole", "Dark stretch at night"]
    case Water => ["Water leakage from pipe", "Burst pipeline flooding", "No water supply"]
    case Sewage => ["Open manhole hazard", "Sewage overflow", "Blocked sewer line"]
    case Encroachment => ["Illegal roadside stall", "Footpath encroachment", "Unauthorized parking"]
  }

  const Placeholder: string := "/placeholder.svg"

  /** `created.setHours(h)` in UTC: the hour of day becomes `h`, minutes and below are kept. */
  function SetHours(t: int, h: nat): (r: int)
    requires h < 24
    ensures t - DayMs < r < t + DayMs
  {
    t - t % DayMs + h * HourMs + t % HourMs
  }

  /** `statusRand < 0.55 ? "Pending" : statusRand < 0.85 ? "In Progress" : "Resolved"`. */
  function StatusFor(s: int): Status {
    if Below(s, 55) then Pending else if Below(s, 85) then InProgress else Resolved
  }

  /** The status thresholds 0.55 and 0.85 fall exactly on the states 128304 and 198288. */
  lemma StatusForThresholds(s: int)
    ensures StatusFor(s) == Pending <==> s < 128304
    ensures StatusFor(s) == InProgress <==> 128304 <= s < 198288
    ensures StatusFor(s) == Resolved <==> 198288 <= s
  {
  }

  /** What every base issue satisfies, apart from its identifier. */
  predicate IsBase(x: Issue, now: int) {
    && x.title in Titles(x.category)
    && x.description == x.title + ". Please resolve at the earliest."
    && (x.imageUrl == None || x.imageUrl == Some(Placeholder))
    && BaseLat - 75000 <= x.latitude < BaseLat + 75000
    && BaseLon - 75000 <= x.longitude < BaseLon + 75000
    && now - 60 * DayMs < x.createdAt < now + DayMs
    && x.createdAt <= x.updatedAt <= x.createdAt + 9 * DayMs
    && x.upvotes < 120
    && (exists k :: 0 <= k < 200 && x.reporter == Citizen(k))
    && x.assignment == Unassigned && x.duplicateOf == None && x.groupId == None
  }

  /**
   * `{ ...issue, id, latitude, longitude, upvotes, createdAt, updatedAt, assignment }`:
   * a copy of `b` that differs at most in those fields, placed near it and created within
   * a day of it.
   */
  predicate IsDupOf(d: Issue, b: Issue) {
    && d == b.(id := d.id, latitude := d.latitude, longitude := d.longitude, upvotes := d.upvotes,
               createdAt := d.createdAt, updatedAt := d.updatedAt, assignment := d.assignment)
    && b.latitude - 750 <= d.latitude < b.latitude + 750
    && b.longitude - 750 <= d.longitude < b.longitude + 750
    && b.createdAt <= d.createdAt <= b.createdAt + DayMs
    && b.createdAt <= d.updatedAt <= b.createdAt + 2 * DayMs
    && d.assignment == Unassigned
  }

  /** A base issue followed by up to two near-duplicates of it. */
  predicate Block(b: seq<Issue>, now: int) {
    && 1 <= |b| <= 3 && IsBase(b[0], now)
    && forall j :: 1 <= j < |b| ==> IsDupOf(b[j], b[0])
  }

  /** `s` is blocks of the given sizes laid end to end. */
  predicate Blocks(s: seq<Issue>, sizes: seq<int>, now: int)
    decreases |sizes|
  {
    if sizes == [] then s == []
    else
      var d := sizes[|sizes| - 1];
      && 1 <= d <= 3 && d <= |s|
      && Block(s[|s| - d..], now)
      && Blocks(s[..|s| - d], sizes[..|sizes| - 1], now)
  }

  lemma BlocksAppend(s: seq<Issue>, sizes: seq<int>, b: seq<Issue>, now: int)
    requires Blocks(s, sizes, now) && Block(b, now)
    ensures Blocks(s + b, sizes + [|b|], now)
  {
    var t := s + b;
    assert t[|t| - |b|..] == b;
    assert t[..|t| - |b|] == s;
    assert (sizes + [|b|])[..|sizes|] == sizes;
  }

  /** `k` blocks hold between `k` and `3k` issues. */
  lemma {:induction false} BlocksLength(s: seq<Issue>, sizes: seq<int>, now: int)
    requires Blocks(s, sizes, now)
    ensures |sizes| <= |s| <= 3 * |sizes|
    decreases |sizes|
  {
    if sizes != [] {
      var d := sizes[|sizes| - 1];
      BlocksLength(s[..|s| - d], sizes[..|sizes| - 1], now);
    }
  }

  /** The draws of one base issue, in the order the source makes them. */
  method MakeBase(s: int, id: nat, now: int) returns (x: Issue, s': int)
    requires Seeded(s)
    ensures IsBase(x, now) && x.id == id && Seeded(s')
  {
    var c, r, days, hour, pr, up, dLat, dLon, t, ward, zone, upd;
    var st := s;
    st, c := Draw(st, 6);
    var category := Categories[c];
    st, r := Draw(st, 200);
    st, days := Draw(st, 60);
    st, hour := Draw(st, 24);
    var created := SetHours(now - days * DayMs, hour);
    NextInRange(st);
    st := Next(st);
    var status := StatusFor(st);
    st, pr := Draw(st, 3);
    st, up := Draw(st, 120);
    st, dLat := Draw(st, 150000);
    st, dLon := Draw(st, 150000);
    st, t := Draw(st, 3);
    var title := Titles(category)[t];
    var img;
    st, img := DrawBelow(st, 70);
    st, ward := Draw(st, 60);
    st, zone := Draw(st, 12);
    st, upd := Draw(st, 10);
    x := Issue(id, title, title + ". Please resolve at the earliest.", category,
               if img then Some(Placeholder) else None,
               BaseLat + dLat - 75000, BaseLon + dLon - 75000,
               "Ward " + Decimal(1 + ward) + ", Zone " + Decimal(1 + zone),
               created, created + upd * DayMs, up, 1 + pr, status, Unassigned, Citizen(r), None, None);
    assert x.reporter == Citizen(r);
    s' := st;
  }

  /** `Math.floor(upvotes * (0.5 + rand() * 0.6))`. */
  function ScaleUpvotes(u: nat, s: int): (v: nat)
    requires 0 <= s < Modulus
    ensures v <= u + u / 10
  {
    (u * (583200 + 3 * s)) / 1166400
  }

  /** The draws of one near-duplicate of `b`. */
  method MakeDup(b: Issue, s: int, id: nat) returns (d: Issue, s': int)
    requires Seeded(s)
    ensures IsDupOf(d, b) && d.id == id && Seeded(s')
  {
    var jLat, jLon, cd, ud;
    var st := s;
    st, jLat := Draw(st, 1500);
    st, jLon := Draw(st, 1500);
    NextInRange(st);
    st := Next(st);
    var up := ScaleUpvotes(b.upvotes, st);
    st, cd := Draw(st, 2);
    st, ud := Draw(st, 3);
    d := b.(id := id, latitude := b.latitude + jLat - 750, longitude := b.longitude + jLon - 750,
            upvotes := up, createdAt := b.createdAt + cd * DayMs, updatedAt := b.createdAt + ud * DayMs,
            assignment := Unassigned);
    s' := st;
  }

  /** Issues `firstId`, `firstId + 1`, … in order. */
  predicate NumberedFrom(s: seq<Issue>, firstId: nat) {
    forall j :: 0 <= j < |s| ==> s[j].id == firstId + j
  }

  /**
   * `if (rand() < 0.15)`: one or two near-duplicates of `base`, numbered on from its
   * identifier, follow it; otherwise it stands alone.
   */
  method AddDups(base: Issue, s: int, now: int) returns (block: seq<Issue>, s': int)
    requires Seeded(s) && IsBase(base, now)
    ensures Block(block, now) && block[0] == base && Seeded(s')
    ensures NumberedFrom(block, base.id)
  {
    block := [base];
    s' := s;
    var more;
    s', more := DrawBelow(s', 15);
    if more {
      var n;
      s', n := Draw(s', 2);
      var j := 0;
      while j < 1 + n
        invariant 0 <= j <= 1 + n && Seeded(s')
        invariant |block| == 1 + j && block[0] == base && Block(block, now)
        invariant NumberedFrom(block, base.id)
      {
        var dup;
        dup, s' := MakeDup(base, s', base.id + |block|);
        block := block + [dup];
        j := j + 1;
      }
    }
  }

  /** Appending a block numbered on from `s` keeps the numbering. */
  lemma NumberedAppend(s: seq<Issue>, b: seq<Issue>, firstId: nat)
    requires NumberedFrom(s, firstId) && NumberedFrom(b, firstId + |s|)
    ensures NumberedFrom(s + b, firstId)
  {
  }

  /**
   * `generateIssues(count, seed)`. Each of the `count` turns emits a base issue and, with
   * probability 0.15, one or two near-duplicates of it right after it.
   */
  method GenerateIssues(count: int, seed: int, firstId: nat, now: int) returns (issues: seq<Issue>)
    requires count <= 0 || Seeded(seed)
    ensures var n := if count < 0 then 0 else count;
      n <= |issues| <= 3 * n && exists sizes :: |sizes| == n && Blocks(issues, sizes, now)
    ensures NumberedFrom(issues, firstId)
  {
    var n := if count < 0 then 0 else count;
    issues := [];
    var s := seed;
    var i := 0;
    ghost var sizes: seq<int> := [];
    while i < count
      invariant 0 <= i <= n
      invariant i < n ==> Seeded(s)
      invariant |sizes| == i && Blocks(issues, sizes, now) && NumberedFrom(issues, firstId)
    {
      var base, block;
      base, s := MakeBase(s, firstId + |issues|, now);
      block, s := AddDups(base, s, now);
      BlocksAppend(issues, sizes, block, now);
      sizes := sizes + [|block|];
      NumberedAppend(issues, block, firstId);
      issues := issues + block;
      i := i + 1;
    }
    BlocksLength(issues, sizes, now);
  }
}

=== FILE: header.dfy ===
/**
 * The landing-page header menu: `normalize` turns a nav label into a URL-style key, the six
 * nav entries become menu items keyed that way, and `active` tracks the selected key.
 */
module Header {
  import opened Wrappers
  import opened Text

  predicate NotAlnum(c: char) { !IsLowerAlnum(c) }

  /** `.replace(/^-|-$/g, "")`: one leading and one trailing `-` removed. */
  function StripDashes(s: string): (r: string)
    ensures |r| <= |s|
  {
    var t := if |s| > 0 && s[0] == '-' then s[1..] else s;
    if |t| > 0 && t[|t| - 1] == '-' then t[..|t| - 1] else t
  }

  /** `normalize(s)`: lower-case, every run of characters outside `[a-z0-9]` becomes one `-`, then the end dashes go. */
  function Normalize(s: string): string {
    StripDashes(ReplaceRuns(Lower(s), NotAlnum, '-'))
  }

  /** The shape of a key: `[a-z0-9-]` only, no `--`, no `-` at either end. */
  predicate IsSlug(r: string) {
    && (forall i :: 0 <= i < |r| ==> IsLowerAlnum(r[i]) || r[i] == '-')
    && (forall i :: 0 <= i < |r| - 1 ==> !(r[i] == '-' && r[i + 1] == '-'))
    && (r == [] || (r[0] != '-' && r[|r| - 1] != '-'))
  }

  /** `[a-z0-9-]` only, with no `--`. */
  predicate IsDashed(c: string) {
    && (forall i :: 0 <= i < |c| ==> IsLowerAlnum(c[i]) || c[i] == '-')
    && (forall i :: 0 <= i < |c| - 1 ==> !(c[i] == '-' && c[i + 1] == '-'))
  }

  lemma ReplacedIsDashed(l: string)
    ensures IsDashed(ReplaceRuns(l, NotAlnum, '-'))
  {
    ReplaceRunsChars(l, NotAlnum, '-');
    ReplaceRunsNoDouble(l, NotAlnum, '-');
  }

  /** Removing the end dashes of dashed text leaves a key. */
  lemma StripDashesIsSlug(c: string)
    requires IsDashed(c)
    ensures IsSlug(StripDashes(c))
  {
    var t := if |c| > 0 && c[0] == '-' then c[1..] else c;
    assert forall i :: 0 <= i < |t| ==> IsLowerAlnum(t[i]) || t[i] == '-';
    assert forall i :: 0 <= i < |t| - 1 ==> !(t[i] == '-' && t[i + 1] == '-');
    assert t == [] || t[0] != '-';
  }

  /** `normalize` yields only `[a-z0-9-]`, never `--`, and never a `-` at either end. */
  lemma NormalizeIsSlug(s: string)
    ensures IsSlug(Normalize(s))
  {
    ReplacedIsDashed(Lower(s));
    StripDashesIsSlug(ReplaceRuns(Lower(s), NotAlnum, '-'));
  }

  /** A key is its own normal form. */
  lemma NormalizeSlug(r: string)
    requires IsSlug(r)
    ensures Normalize(r) == r
  {
    SlugIsLower(r);
    SlugIsCollapsed(r);
  }

  lemma SlugIsLower(r: string)
    requires IsSlug(r)
    ensures Lower(r) == r
  {
    assert forall i :: 0 <= i < |r| ==> !IsUpper(r[i]);
    LowerIdempotent(r);
  }

  lemma SlugIsCollapsed(r: string)
    requires IsSlug(r)
    ensures ReplaceRuns(r, NotAlnum, '-') == r
  {
    assert forall i :: 0 <= i < |r| ==> (NotAlnum(r[i]) ==> r[i] == '-');
    ReplaceRunsFixed(r, NotAlnum, '-');
  }

  /** `normalize` is idempotent. */
  lemma NormalizeIdempotent(s: string)
    ensures Normalize(Normalize(s)) == Normalize(s)
  {
    NormalizeIsSlug(s);
    NormalizeSlug(Normalize(s));
  }

  /** A menu entry `{ key, label, to }`, with `label` as `caption` and `to` as `path` (the icon is presentation). */
  datatype NavItem = NavItem(key: string, caption: string, path: string)

  /** The six `{ to, label }` entries of the header. */
  const Nav: seq<(string, string)> := [
    ("/#about", "About Us"),
    ("/#partners", "Authorities"),
    ("/#techstack", "Tech stack"),
    ("/#testimonials", "Feedback"),
    ("/#contact", "Help Centre"),
    ("/admin", "Admin Panel")
  ]

  /** `nav.map(n => ({ key: normalize(n.label), label: n.label, to: n.to }))`. */
  function Items(nav: seq<(string, string)>): (items: seq<NavItem>)
    ensures |items| == |nav|
    ensures forall j :: 0 <= j < |nav| ==> items[j] == NavItem(Normalize(nav[j].1), nav[j].1, nav[j].0)
  {
    seq(|nav|, j requires 0 <= j < |nav| => NavItem(Normalize(nav[j].1), nav[j].1, nav[j].0))
  }

  /** The keys of the six header entries, written out. */
  const NavKeys: seq<string> := ["about-us", "authorities", "tech-stack", "feedback", "help-centre", "admin-panel"]

  /** Words of ASCII letters and digits separated by single spaces, as the nav labels are. */
  predicate IsWords(s: string) {
    && (forall i :: 0 <= i < |s| ==> IsLowerAlnum(LowerChar(s[i])) || s[i] == ' ')
    && (forall i :: 0 <= i < |s| - 1 ==> !(s[i] == ' ' && s[i + 1] == ' '))
    && (s == [] || (s[0] != ' ' && s[|s| - 1] != ' '))
  }

  /** Each space becomes `-` and each letter is lower-cased. */
  function Dashed(s: string): (r: string)
    ensures |r| == |s|
  {
    seq(|s|, i requires 0 <= i < |s| => DashChar(s[i]))
  }

  function DashChar(c: char): char {
    if c == ' ' then '-' else LowerChar(c)
  }

  /** On text whose only separators are single spaces, collapsing the runs just swaps each for `-`. */
  lemma {:induction false} ReplaceSingleSpaces(l: string)
    requires forall i :: 0 <= i < |l| ==> IsLowerAlnum(l[i]) || l[i] == ' '
    requires forall i :: 0 <= i < |l| - 1 ==> !(l[i] == ' ' && l[i + 1] == ' ')
    ensures ReplaceRuns(l, NotAlnum, '-') == Dashed(l)
    decreases |l|
  {
    if l != [] {
      if NotAlnum(l[0]) {
        assert l[1..] == [] || !NotAlnum(l[1]);
        assert DropWhile(l[1..], NotAlnum) == l[1..];
      }
      ReplaceSingleSpaces(l[1..]);
      assert Dashed(l) == [Dashed(l)[0]] + Dashed(l[1..]);
    }
  }

  /** The key of a label made of words is the label lower-cased with its spaces turned into `-`. */
  lemma NormalizeWords(s: string)
    requires IsWords(s)
    ensures Normalize(s) == Dashed(s)
  {
    var l := Lower(s);
    LowerWords(s);
    ReplaceSingleSpaces(l);
    assert Dashed(s) == [] || (Dashed(s)[0] != '-' && Dashed(s)[|s| - 1] != '-');
  }

  /** Lower-casing words keeps them words and does not change their dashed form. */
  lemma LowerWords(s: string)
    requires IsWords(s)
    ensures var l := Lower(s);
      && (forall i :: 0 <= i < |l| ==> IsLowerAlnum(l[i]) || l[i] == ' ')
      && (forall i :: 0 <= i < |l| - 1 ==> !(l[i] == ' ' && l[i + 1] == ' '))
      && Dashed(l) == Dashed(s)
  {
  }

  /** A label made of words normalizes to the string that agrees with `DashChar` at every position. */
  lemma KeyOf(s: string, k: string)
    requires IsWords(s)
    requires |k| == |s| && forall i :: 0 <= i < |s| ==> k[i] == DashChar(s[i])
    ensures Normalize(s) == k
  {
    NormalizeWords(s);
  }

  lemma KeyAboutUs()
    ensures Normalize("About Us") == "about-us"
  {
    KeyOf("About Us", "about-us");
  }

  lemma KeyAuthorities()
    ensures Normalize("Authorities") == "authorities"
  {
    KeyOf("Authorities", "authorities");
  }

  lemma KeyTechStack()
    ensures Normalize("Tech stack") == "tech-stack"
  {
    KeyOf("Tech stack", "tech-stack");
  }

  lemma KeyFeedback()
    ensures Normalize("Feedback") == "feedback"
  {
    KeyOf("Feedback", "feedback");
  }

  lemma KeyHelpCentre()
    ensures Normalize("Help Centre") == "help-centre"
  {
    KeyOf("Help Centre", "help-centre");
  }

  lemma KeyAdminPanel()
    ensures Normalize("Admin Panel") == "admin-panel"
  {
    KeyOf("Admin Panel", "admin-panel");
  }

  /** The label of entry `j` normalizes to the `j`-th written-out key. */
  lemma NavKeyAt(j: nat)
    requires j < |Nav|
    ensures Normalize(Nav[j].1) == NavKeys[j]
  {
    if j == 0 {
      KeyAboutUs();
      assert Nav[0].1 == "About Us" && NavKeys[0] == "about-us";
    } else if j == 1 {
      KeyAuthorities();
      assert Nav[1].1 == "Authorities" && NavKeys[1] == "authorities";
    } else if j == 2 {
      KeyTechStack();
      assert Nav[2].1 == "Tech stack" && NavKeys[2] == "tech-stack";
    } else if j == 3 {
      KeyFeedback();
      assert Nav[3].1 == "Feedback" && NavKeys[3] == "feedback";
    } else if j == 4 {
      KeyHelpCentre();
      assert Nav[4].1 == "Help Centre" && NavKeys[4] == "help-centre";
    } else {
      KeyAdminPanel();
      assert Nav[5].1 == "Admin Panel" && NavKeys[5] == "admin-panel";
    }
  }

  /** Each nav item's key is the one written out in `NavKeys`. */
  lemma NavKeysAreNormalized()
    ensures forall j :: 0 <= j < |Nav| ==> Items(Nav)[j].key == NavKeys[j]
  {
    forall j | 0 <= j < |Nav|
      ensures Items(Nav)[j].key == NavKeys[j]
    {
      NavKeyAt(j);
    }
  }

  /** `items.find(i => i.key === key)`: the first item with that key. */
  function Find(items: seq<NavItem>, key: string): (r: Option<NavItem>)
    ensures r.Some? ==> r.value in items && r.value.key == key
    ensures r.None? <==> forall j :: 0 <= j < |items| ==> items[j].key != key
    ensures r.Some? ==> exists j :: 0 <= j < |items| && items[j] == r.value && forall i :: 0 <= i < j ==> items[i].key != key
  {
    if items == [] then None
    else if items[0].key == key then Some(items[0])
    else
      var rest := Find(items[1..], key);
      FirstMatchShift(items, key, rest);
      rest
  }

  /** A first match in the tail, behind a head that does not match, is a first match in the whole list. */
  lemma FirstMatchShift(items: seq<NavItem>, key: string, rest: Option<NavItem>)
    requires items != [] && items[0].key != key
    requires rest.Some? ==>
      exists j :: 0 <= j < |items| - 1 && items[1..][j] == rest.value && forall i :: 0 <= i < j ==> items[1..][i].key != key
    ensures rest.Some? ==>
      exists j :: 0 <= j < |items| && items[j] == rest.value && forall i :: 0 <= i < j ==> items[i].key != key
  {
    if rest.Some? {
      var j :| 0 <= j < |items| - 1 && items[1..][j] == rest.value
        && forall i :: 0 <= i < j ==> items[1..][i].key != key;
      forall i | 0 <= i < j + 1
        ensures items[i].key != key
      {
        if i > 0 {
          assert items[i] == items[1..][i - 1];
        }
      }
      assert items[j + 1] == rest.value;
    }
  }

  predicate DistinctKeys(items: seq<NavItem>) {
    forall a, b :: 0 <= a < b < |items| ==> items[a].key != items[b].key
  }

  /** With distinct keys, looking an item up by its own key finds that very item. */
  lemma {:induction false} FindByOwnKey(items: seq<NavItem>, j: nat)
    requires DistinctKeys(items) && j < |items|
    ensures Find(items, items[j].key) == Some(items[j])
  {
    if j > 0 {
      assert items[0].key != items[j].key;
      FindByOwnKey(items[1..], j - 1);
    }
  }

  /** The six written-out keys differ pairwise: by length, else by their first two characters. */
  lemma NavKeysLiteralDistinct()
    ensures forall a, b :: 0 <= a < b < |NavKeys| ==> NavKeys[a] != NavKeys[b]
  {
    assert |NavKeys[0]| == 8 && NavKeys[0][0] == 'a' && NavKeys[0][1] == 'b';
    assert |NavKeys[1]| == 11 && NavKeys[1][0] == 'a' && NavKeys[1][1] == 'u';
    assert |NavKeys[2]| == 10 && NavKeys[2][0] == 't' && NavKeys[2][1] == 'e';
    assert |NavKeys[3]| == 8 && NavKeys[3][0] == 'f' && NavKeys[3][1] == 'e';
    assert |NavKeys[4]| == 11 && NavKeys[4][0] == 'h' && NavKeys[4][1] == 'e';
    assert |NavKeys[5]| == 11 && NavKeys[5][0] == 'a' && NavKeys[5][1] == 'd';
    forall a, b | 0 <= a < b < |NavKeys|
      ensures NavKeys[a] != NavKeys[b]
    {
      if |NavKeys[a]| == |NavKeys[b]| {
        assert NavKeys[a][0] != NavKeys[b][0] || NavKeys[a][1] != NavKeys[b][1];
      }
    }
  }

  /** The six header keys are pairwise different, so selecting by key is unambiguous. */
  lemma NavKeysDistinct()
    ensures DistinctKeys(Items(Nav))
    ensures forall j :: 0 <= j < |Nav| ==> Find(Items(Nav), Items(Nav)[j].key) == Some(Items(Nav)[j])
  {
    NavKeysAreNormalized();
    NavKeysLiteralDistinct();
    var items := Items(Nav);
    assert DistinctKeys(items);
    forall j | 0 <= j < |items|
      ensures Find(items, items[j].key) == Some(items[j])
    {
      FindByOwnKey(items, j);
    }
  }

  /** The menu's selection state. */
  class Menu {
    const items: seq<NavItem>
    var active: string

    /** `useState(items[0]?.key ?? "")`. */
    constructor(items: seq<NavItem>)
      ensures this.items == items
      ensures active == if |items| > 0 then items[0].key else ""
    {
      this.items := items;
      active := if |items| > 0 then items[0].key else "";
    }

    /** `handleSelect(key)`: the key becomes active; the navigation that follows is outside the model. */
    method Select(key: string) returns (target: Option<NavItem>)
      modifies this
      ensures active == key
      ensures target == Find(items, key)
    {
      active := key;
      target := Find(items, key);
    }
  }
}

=== FILE: issue.dfy ===
/**
 * The `Issue` record of the admin panel and its enumerations.
 * Identifiers produced by `crypto.randomUUID` are naturals, coordinates are integer
 * micro-degrees and timestamps are integer milliseconds.
 */
module IssueModel {
  import opened Wrappers
  import opened Text

  datatype Category = Garbage | Pothole | Streetlight | Water | Sewage | Encroachment

  datatype Status = Pending | InProgress | Resolved

  /** 1 = High, 2 = Medium, 3 = Low. */
  type Priority = p: int | 1 <= p <= 3 witness 1

  datatype Reporter = Reporter(id: string, name: string)

  datatype Assignment = Assignment(staffId: Option<string>, staffName: Option<string>, assignedAt: Option<int>)

  const Unassigned: Assignment := Assignment(None, None, None)

  datatype Issue = Issue(
    id: nat,
    title: string,
    description: string,
    category: Category,
    imageUrl: Option<string>,
    latitude: int,
    longitude: int,
    address: string,
    createdAt: int,
    updatedAt: int,
    upvotes: nat,
    priority: Priority,
    status: Status,
    assignment: Assignment,
    reporter: Reporter,
    duplicateOf: Option<nat>,   // the canonical issue's id when merged
    groupId: Option<nat>        // None is the empty string the generator writes
  )

  const Categories: seq<Category> := [Garbage, Pothole, Streetlight, Water, Sewage, Encroachment]

  const Statuses: seq<Status> := [Pending, InProgress, Resolved]

  const HourMs: nat := 3_600_000

  const DayMs: nat := 86_400_000

  /** The string value of a status, as stored and compared by the source. */
  function StatusText(s: Status): string {
    match s
    case Pending => "Pending"
    case InProgress => "In Progress"
    case Resolved => "Resolved"
  }

  /** The order in which `<` on the status strings ranks them. */
  function StatusRank(s: Status): (r: nat)
    ensures r < 3
  {
    match s
    case InProgress => 0
    case Pending => 1
    case Resolved => 2
  }

  /** Ranking statuses by `StatusRank` is the same as comparing their strings. */
  lemma StatusRankIsStringOrder(a: Status, b: Status)
    ensures StatusRank(a) < StatusRank(b) <==> StringLess(StatusText(a), StatusText(b))
  {
    StringLessIrreflexive(StatusText(a));
  }
}

=== FILE: leaderboard.dfy ===
/**
 * The leaderboard page: per-reporter and per-ward tallies built by a loop over the issues
 * into a `Map`, then sorted and cut to the first twenty rows. A `Map` is modelled as its
 * keys in insertion order together with a Dafny `map`.
 */
module Leaderboard {
  import opened Text
  import opened Seqs
  import opened Sorting
  import opened IssueModel
  import Dedup

  /** Rows shown on the page. */
  const Shown: nat := 20

  /** The test `key(i) === k`. */
  function Matching(key: Issue -> string, k: string): Issue -> bool {
    (i: Issue) => key(i) == k
  }

  /** The issues whose key is `k`, in list order: the issues a map entry accumulates. */
  function GroupOf(issues: seq<Issue>, key: Issue -> string, k: string): seq<Issue> {
    Filter(issues, Matching(key, k))
  }

  /** The key of every issue, in list order. */
  function KeysOf(issues: seq<Issue>, key: Issue -> string): (ks: seq<string>)
    ensures |ks| == |issues|
  {
    seq(|issues|, j requires 0 <= j < |issues| => key(issues[j]))
  }

  /** The keys of the map after the loop, in insertion order. */
  function MapKeys(issues: seq<Issue>, key: Issue -> string): seq<string> {
    FirstOccurrences(KeysOf(issues, key))
  }

  lemma KeysAppend(p: seq<Issue>, x: Issue, key: Issue -> string)
    ensures KeysOf(p + [x], key) == KeysOf(p, key) + [key(x)]
  {
  }

  /** One more issue joins the group of its own key and no other. */
  lemma GroupAppend(p: seq<Issue>, x: Issue, key: Issue -> string, k: string)
    ensures GroupOf(p + [x], key, k) == GroupOf(p, key, k) + (if key(x) == k then [x] else [])
  {
    FilterConcat(p, [x], Matching(key, k));
    assert Filter([x], Matching(key, k)) == (if key(x) == k then [x] else []) + Filter([x][1..], Matching(key, k));
  }

  /** A key has issues exactly when some issue carries it. */
  lemma GroupNonEmpty(p: seq<Issue>, key: Issue -> string, k: string)
    ensures GroupOf(p, key, k) != [] <==> k in KeysOf(p, key)
  {
    var g := GroupOf(p, key, k);
    if k in KeysOf(p, key) {
      var j :| 0 <= j < |p| && key(p[j]) == k;
      FilterMembership(p, Matching(key, k), p[j]);
    }
    if g != [] {
      FilterMembership(p, Matching(key, k), g[0]);
      var j :| 0 <= j < |p| && p[j] == g[0];
      assert KeysOf(p, key)[j] == k;
    }
  }

  /** The group size of each key, as a function of the key. */
  function SizeIn(issues: seq<Issue>, key: Issue -> string): string -> int {
    (k: string) => |GroupOf(issues, key, k)|
  }

  /** The groups of the map's keys share out the issues: their sizes add up to the list length. */
  lemma {:induction false} GroupSizesSum(issues: seq<Issue>, key: Issue -> string)
    ensures SumOf(MapKeys(issues, key), SizeIn(issues, key)) == |issues|
    decreases |issues|
  {
    if issues != [] {
      var p, x := issues[..|issues| - 1], issues[|issues| - 1];
      assert issues == p + [x];
      GroupSizesSum(p, key);
      var ks := MapKeys(p, key);
      KeysAppend(p, x, key);
      FirstOccurrencesAppend(KeysOf(p, key), key(x));
      FirstOccurrencesSpec(KeysOf(p, key));
      forall k
        ensures SizeIn(issues, key)(k) == SizeIn(p, key)(k) + (if k == key(x) then 1 else 0)
      {
        GroupAppend(p, x, key, k);
      }
      SumOfBump(ks, SizeIn(p, key), SizeIn(issues, key), key(x), 1);
      if key(x) !in ks {
        SumOfConcat(ks, [key(x)], SizeIn(issues, key));
        GroupNonEmpty(p, key, key(x));
      }
    }
  }

  /**
   * `map.set(key(x), v)` on a map whose keys, in insertion order, are those of `p`: the key
   * order and the key set become those of `p + [x]`, and the key was present exactly when
   * its group in `p` was non-empty.
   */
  lemma KeysStep<V>(p: seq<Issue>, x: Issue, key: Issue -> string, ks: seq<string>, m: map<string, V>, v: V, ks': seq<string>)
    requires ks == MapKeys(p, key) && forall k :: k in m <==> k in ks
    requires ks' == if key(x) in m then ks else ks + [key(x)]
    ensures ks' == MapKeys(p + [x], key)
    ensures forall k :: k in m[key(x) := v] <==> k in ks'
    ensures key(x) in m <==> GroupOf(p, key, key(x)) != []
  {
    KeysAppend(p, x, key);
    FirstOccurrencesAppend(KeysOf(p, key), key(x));
    FirstOccurrencesSpec(KeysOf(p, key));
    GroupNonEmpty(p, key, key(x));
  }

  /** A reporter's row: `{ name, count, upvotes }`. */
  datatype CitizenRow = CitizenRow(name: string, count: nat, upvotes: int)

  function ReporterId(i: Issue): string { i.reporter.id }

  /**
   * What the map holds for reporter `id`: the name on the first of its issues, the number of
   * its issues and the sum of their upvotes.
   */
  function CitizenRowOf(issues: seq<Issue>, id: string): (r: CitizenRow)
    ensures r.count == Count(issues, Matching(ReporterId, id))
  {
    var g := GroupOf(issues, ReporterId, id);
    CitizenRow(if g == [] then "" else g[0].reporter.name, |g|, SumOf(g, Dedup.Upvotes))
  }

  /** One more issue bumps its reporter's row, or starts it with the issue's reporter name. */
  lemma CitizenRowStep(p: seq<Issue>, x: Issue, id: string)
    ensures CitizenRowOf(p + [x], id) ==
      if id != x.reporter.id then CitizenRowOf(p, id)
      else if GroupOf(p, ReporterId, id) == [] then CitizenRow(x.reporter.name, 1, x.upvotes)
      else var c := CitizenRowOf(p, id); CitizenRow(c.name, c.count + 1, c.upvotes + x.upvotes)
  {
    var g := GroupOf(p, ReporterId, id);
    GroupAppend(p, x, ReporterId, id);
    assert ReporterId(x) == x.reporter.id;
    if id == x.reporter.id {
      assert GroupOf(p + [x], ReporterId, id) == g + [x];
      SumOfConcat(g, [x], Dedup.Upvotes);
      assert SumOf([x], Dedup.Upvotes) == x.upvotes + SumOf([x][1..], Dedup.Upvotes);
      if g != [] {
        assert (g + [x])[0] == g[0];
        assert CitizenRowOf(p, id) == CitizenRow(g[0].reporter.name, |g|, SumOf(g, Dedup.Upvotes));
      } else {
        assert g + [x] == [x];
      }
    } else {
      assert GroupOf(p + [x], ReporterId, id) == g;
    }
  }

  /** The loop's state after the issues `p`: the map's key order and each key's row. */
  ghost predicate CitizenTally(p: seq<Issue>, ids: seq<string>, m: map<string, CitizenRow>) {
    && ids == MapKeys(p, ReporterId)
    && (forall id :: id in m <==> id in ids)
    && (forall id :: id in m ==> m[id] == CitizenRowOf(p, id))
  }

  /** The rows after one more issue: its reporter's row is bumped or started, the others stay. */
  lemma CitizenRowsStep(p: seq<Issue>, x: Issue, m: map<string, CitizenRow>, c: CitizenRow, m': map<string, CitizenRow>)
    requires forall id :: id in m ==> m[id] == CitizenRowOf(p, id)
    requires x.reporter.id in m <==> GroupOf(p, ReporterId, x.reporter.id) != []
    requires c == if x.reporter.id in m then m[x.reporter.id] else CitizenRow(x.reporter.name, 0, 0)
    requires m' == m[x.reporter.id := CitizenRow(c.name, c.count + 1, c.upvotes + x.upvotes)]
    ensures forall id :: id in m' ==> m'[id] == CitizenRowOf(p + [x], id)
  {
    forall id | id in m'
      ensures m'[id] == CitizenRowOf(p + [x], id)
    {
      CitizenRowStep(p, x, id);
    }
  }

  /** One iteration of the reporter loop keeps the tally. */
  lemma CitizenStep(p: seq<Issue>, x: Issue, ids: seq<string>, m: map<string, CitizenRow>,
                    c: CitizenRow, ids': seq<string>, m': map<string, CitizenRow>)
    requires CitizenTally(p, ids, m)
    requires ids' == if x.reporter.id in m then ids else ids + [x.reporter.id]
    requires c == if x.reporter.id in m then m[x.reporter.id] else CitizenRow(x.reporter.name, 0, 0)
    requires m' == m[x.reporter.id := CitizenRow(c.name, c.count + 1, c.upvotes + x.upvotes)]
    ensures CitizenTally(p + [x], ids', m')
  {
    assert ReporterId(x) == x.reporter.id;
    KeysStep(p, x, ReporterId, ids, m, CitizenRow(c.name, c.count + 1, c.upvotes + x.upvotes), ids');
    CitizenRowsStep(p, x, m, c, m');
  }

  lemma CitizenTallyPrefix(issues: seq<Issue>, i: nat, ids: seq<string>, m: map<string, CitizenRow>)
    requires i < |issues| && CitizenTally(issues[..i] + [issues[i]], ids, m)
    ensures CitizenTally(issues[..i + 1], ids, m)
  {
    assert issues[..i + 1] == issues[..i] + [issues[i]];
  }

  /** The `for` loop filling the reporter map; returns the map's keys in order and the map. */
  method TallyCitizens(issues: seq<Issue>) returns (ids: seq<string>, m: map<string, CitizenRow>)
    ensures CitizenTally(issues, ids, m)
  {
    ids, m := [], map[];
    var i := 0;
    while i < |issues|
      invariant 0 <= i <= |issues|
      invariant CitizenTally(issues[..i], ids, m)
    {
      var x := issues[i];
      var id := x.reporter.id;
      ghost var ids0, m0 := ids, m;
      if id !in m {
        ids := ids + [id];
      }
      var c := if id in m then m[id] else CitizenRow(x.reporter.name, 0, 0);
      m := m[id := CitizenRow(c.name, c.count + 1, c.upvotes + x.upvotes)];
      CitizenStep(issues[..i], x, ids0, m0, c, ids, m);
      CitizenTallyPrefix(issues, i, ids, m);
      i := i + 1;
    }
    assert issues[..i] == issues;
  }

  /** `[...map.values()]`: one row per reporter, in order of each reporter's first issue. */
  function CitizenRows(issues: seq<Issue>): (rows: seq<CitizenRow>)
    ensures |rows| == |MapKeys(issues, ReporterId)|
  {
    var ids := MapKeys(issues, ReporterId);
    seq(|ids|, k requires 0 <= k < |ids| => CitizenRowOf(issues, ids[k]))
  }

  /** `(b.count - a.count) || (b.upvotes - a.upvotes)`: more issues first, then more upvotes. */
  function CitizenKey(r: CitizenRow): Key { (-(r.count as int), -r.upvotes) }

  /** Before the cut, the reporters' counts add up to the number of issues. */
  lemma CitizenCountsSum(issues: seq<Issue>)
    ensures SumOf(CitizenRows(issues), (r: CitizenRow) => r.count) == |issues|
  {
    var ids := MapKeys(issues, ReporterId);
    SumOfAlong(CitizenRows(issues), ids, (r: CitizenRow) => r.count, SizeIn(issues, ReporterId));
    GroupSizesSum(issues, ReporterId);
  }

  /** The first `Shown` rows of `rows` sorted by `key`, and what that cut promises. */
  function TopBy<T>(rows: seq<T>, key: T -> Key): (top: seq<T>)
    ensures |top| <= Shown && (|top| < Shown ==> |top| == |rows|)
    ensures SortedBy(top, key)
    ensures multiset(top) <= multiset(rows)
    ensures |rows| <= Shown ==> multiset(top) == multiset(rows)
    ensures forall t, r :: t in top && r in multiset(rows) - multiset(top) ==> KeyLeq(key(t), key(r))
  {
    var sorted := SortBy(rows, key);
    var top := Take(sorted, Shown);
    TakeSplit(sorted, Shown);
    SortedCut(sorted, |top|, key);
    top
  }

  /** A cut that keeps every row when there are fewer than `Shown`, and is part of the rows, shows min(`Shown`, n) rows. */
  lemma ShownCount<T>(rows: seq<T>, top: seq<T>)
    requires |top| <= Shown && (|top| < Shown ==> |top| == |rows|)
    requires multiset(top) <= multiset(rows)
    ensures |top| == if |rows| < Shown then |rows| else Shown
  {
    assert |multiset(top)| == |top| && |multiset(rows)| == |rows|;
    assert multiset(rows) == multiset(top) + (multiset(rows) - multiset(top));
  }

  /** Taking a prefix splits the multiset in two: what is kept and the rest of the sequence. */
  lemma TakeSplit<T>(s: seq<T>, n: nat)
    ensures multiset(Take(s, n)) <= multiset(s)
    ensures multiset(s) - multiset(Take(s, n)) == multiset(s[|Take(s, n)|..])
  {
    var top := Take(s, n);
    assert s == top + s[|top|..];
    assert multiset(s) == multiset(top) + multiset(s[|top|..]);
  }

  /**
   * `top` is what the leaderboard shows of `rows`: min(20, n) of them, each a row of `rows`,
   * ordered by count then upvotes, both descending, and none ranked below a row left out.
   */
  predicate ShowsTopCitizens(rows: seq<CitizenRow>, top: seq<CitizenRow>) {
    && |top| == (if |rows| < Shown then |rows| else Shown)
    && multiset(top) <= multiset(rows)
    && (forall a, b :: 0 <= a < b < |top| ==>
          top[a].count > top[b].count || (top[a].count == top[b].count && top[a].upvotes >= top[b].upvotes))
    && (forall t, r :: t in top && r in multiset(rows) - multiset(top) ==>
          t.count > r.count || (t.count == r.count && t.upvotes >= r.upvotes))
  }

  /** `topCitizens`: rows sorted by count then upvotes, both descending, at most twenty. */
  function TopCitizensOf(issues: seq<Issue>): (top: seq<CitizenRow>)
    ensures ShowsTopCitizens(CitizenRows(issues), top)
    ensures |MapKeys(issues, ReporterId)| <= Shown ==> multiset(top) == multiset(CitizenRows(issues))
  {
    CitizenTop(CitizenRows(issues));
    TopBy(CitizenRows(issues), CitizenKey)
  }

  /** The sort and `slice(0, 20)` of any citizen rows shows their top rows. */
  lemma CitizenTop(rows: seq<CitizenRow>)
    ensures ShowsTopCitizens(rows, TopBy(rows, CitizenKey))
    ensures |rows| <= Shown ==> multiset(TopBy(rows, CitizenKey)) == multiset(rows)
  {
    var top := TopBy(rows, CitizenKey);
    ShownCount(rows, top);
    CitizenKeyOrder(top, multiset(rows) - multiset(top));
  }

  /** Ranking by `CitizenKey` is ranking by count, then upvotes, both descending. */
  lemma CitizenKeyOrder(top: seq<CitizenRow>, rest: multiset<CitizenRow>)
    requires SortedBy(top, CitizenKey)
    requires forall t, r :: t in top && r in rest ==> KeyLeq(CitizenKey(t), CitizenKey(r))
    ensures forall a, b :: 0 <= a < b < |top| ==>
      top[a].count > top[b].count || (top[a].count == top[b].count && top[a].upvotes >= top[b].upvotes)
    ensures forall t, r :: t in top && r in rest ==> t.count > r.count || (t.count == r.count && t.upvotes >= r.upvotes)
  {
  }

  /** Every row shown is the tally of one reporter who has issues. */
  lemma TopCitizensAreReporters(issues: seq<Issue>, r: CitizenRow)
    requires r in TopCitizensOf(issues)
    ensures exists id :: id in KeysOf(issues, ReporterId) && r == CitizenRowOf(issues, id) && r.count > 0
  {
    var top := TopCitizensOf(issues);
    assert r in multiset(top) && multiset(top) <= multiset(CitizenRows(issues));
    assert r in multiset(CitizenRows(issues));
    var ids := MapKeys(issues, ReporterId);
    var k :| 0 <= k < |ids| && CitizenRows(issues)[k] == r;
    FirstOccurrencesSpec(KeysOf(issues, ReporterId));
    GroupNonEmpty(issues, ReporterId, ids[k]);
  }

  /** `topCitizens` computed as the page does: the loop, then sort and slice. */
  method TopCitizens(issues: seq<Issue>) returns (top: seq<CitizenRow>)
    ensures top == TopCitizensOf(issues)
  {
    var ids, m := TallyCitizens(issues);
    var rows := seq(|ids|, k requires 0 <= k < |ids| => m[ids[k]]);
    assert rows == CitizenRows(issues);
    top := Take(SortBy(rows, CitizenKey), Shown);
  }

  /** What the ward map holds: `{ open, total }`. */
  datatype WardCount = WardCount(open: nat, total: nat)

  /** A ward's row: `{ ward, open, total }`. */
  datatype WardRow = WardRow(ward: string, open: nat, total: nat)

  /** `address.split(",")[0]`: the address up to its first comma. */
  function WardOf(i: Issue): (w: string)
    ensures w == Split(i.address, ',')[0]
    ensures ',' !in w
  {
    BeforeFirstIsFirstPiece(i.address, ',');
    BeforeFirst(i.address, ',')
  }

  function IsOpen(i: Issue): bool { i.status != Resolved }

  /** What the map holds for ward `w`: the issues not yet resolved, and all its issues. */
  function WardCountOf(issues: seq<Issue>, w: string): (c: WardCount)
    ensures c.open <= c.total
    ensures c.total == Count(issues, Matching(WardOf, w))
  {
    var g := GroupOf(issues, WardOf, w);
    WardCount(Count(g, IsOpen), |g|)
  }

  /** One more issue counts towards its own ward's total, and towards its open count when not resolved. */
  lemma WardCountStep(p: seq<Issue>, x: Issue, w: string)
    ensures WardCountOf(p + [x], w) ==
      if w != WardOf(x) then WardCountOf(p, w)
      else var c := WardCountOf(p, w); WardCount(c.open + (if IsOpen(x) then 1 else 0), c.total + 1)
  {
    var g := GroupOf(p, WardOf, w);
    GroupAppend(p, x, WardOf, w);
    if w == WardOf(x) {
      assert GroupOf(p + [x], WardOf, w) == g + [x];
      CountConcat(g, [x], IsOpen);
      assert Filter([x], IsOpen) == (if IsOpen(x) then [x] else []) + Filter([x][1..], IsOpen);
    } else {
      assert GroupOf(p + [x], WardOf, w) == g;
    }
  }

  ghost predicate WardTally(p: seq<Issue>, ws: seq<string>, m: map<string, WardCount>) {
    && ws == MapKeys(p, WardOf)
    && (forall w :: w in m <==> w in ws)
    && (forall w :: w in m ==> m[w] == WardCountOf(p, w))
  }

  /** The counts after one more issue: its ward's count is bumped or started, the others stay. */
  lemma WardCountsStep(p: seq<Issue>, x: Issue, m: map<string, WardCount>, cur: WardCount, m': map<string, WardCount>)
    requires forall w :: w in m ==> m[w] == WardCountOf(p, w)
    requires WardOf(x) in m <==> GroupOf(p, WardOf, WardOf(x)) != []
    requires cur == if WardOf(x) in m then m[WardOf(x)] else WardCount(0, 0)
    requires m' == m[WardOf(x) := WardCount(cur.open + (if IsOpen(x) then 1 else 0), cur.total + 1)]
    ensures forall w :: w in m' ==> m'[w] == WardCountOf(p + [x], w)
  {
    forall w | w in m'
      ensures m'[w] == WardCountOf(p + [x], w)
    {
      WardCountStep(p, x, w);
    }
  }

  /** One iteration of the ward loop keeps the tally. */
  lemma WardStep(p: seq<Issue>, x: Issue, ws: seq<string>, m: map<string, WardCount>,
                 cur: WardCount, ws': seq<string>, m': map<string, WardCount>)
    requires WardTally(p, ws, m)
    requires ws' == if WardOf(x) in m then ws else ws + [WardOf(x)]
    requires cur == if WardOf(x) in m then m[WardOf(x)] else WardCount(0, 0)
    requires m' == m[WardOf(x) := WardCount(cur.open + (if IsOpen(x) then 1 else 0), cur.total + 1)]
    ensures WardTally(p + [x], ws', m')
  {
    KeysStep(p, x, WardOf, ws, m, WardCount(cur.open + (if IsOpen(x) then 1 else 0), cur.total + 1), ws');
    WardCountsStep(p, x, m, cur, m');
  }

  lemma WardTallyPrefix(issues: seq<Issue>, i: nat, ws: seq<string>, m: map<string, WardCount>)
    requires i < |issues| && WardTally(issues[..i] + [issues[i]], ws, m)
    ensures WardTally(issues[..i + 1], ws, m)
  {
    assert issues[..i + 1] == issues[..i] + [issues[i]];
  }

  /** The `for` loop filling the ward map. */
  method TallyWards(issues: seq<Issue>) returns (ws: seq<string>, m: map<string, WardCount>)
    ensures WardTally(issues, ws, m)
  {
    ws, m := [], map[];
    var i := 0;
    while i < |issues|
      invariant 0 <= i <= |issues|
      invariant WardTally(issues[..i], ws, m)
    {
      var x := issues[i];
      var key := WardOf(x);
      ghost var ws0, m0 := ws, m;
      if key !in m {
        ws := ws + [key];
      }
      var cur := if key in m then m[key] else WardCount(0, 0);
      ghost var cur0 := cur;
      cur := cur.(total := cur.total + 1);
      if x.status != Resolved {
        cur := cur.(open := cur.open + 1);
      }
      m := m[key := cur];
      WardStep(issues[..i], x, ws0, m0, cur0, ws, m);
      WardTallyPrefix(issues, i, ws, m);
      i := i + 1;
    }
    assert issues[..i] == issues;
  }

  function WardRowOf(issues: seq<Issue>, w: string): WardRow {
    var c := WardCountOf(issues, w);
    WardRow(w, c.open, c.total)
  }

  /** `[...map.entries()].map(([ward, v]) => ({ ward, ...v }))`. */
  function WardRows(issues: seq<Issue>): (rows: seq<WardRow>)
    ensures |rows| == |MapKeys(issues, WardOf)|
  {
    var ws := MapKeys(issues, WardOf);
    seq(|ws|, k requires 0 <= k < |ws| => WardRowOf(issues, ws[k]))
  }

  /** `b.open - a.open`: more open issues first; equal counts keep map order. */
  function WardKey(r: WardRow): Key { (-(r.open as int), 0) }

  /** Before the cut, the ward totals add up to the number of issues. */
  lemma WardTotalsSum(issues: seq<Issue>)
    ensures SumOf(WardRows(issues), (r: WardRow) => r.total) == |issues|
  {
    var ws := MapKeys(issues, WardOf);
    SumOfAlong(WardRows(issues), ws, (r: WardRow) => r.total, SizeIn(issues, WardOf));
    GroupSizesSum(issues, WardOf);
  }

  /**
   * `top` is what the leaderboard shows of `rows`: min(20, n) of them, each a row of `rows`,
   * ordered by open count descending, and none ranked below a row left out.
   */
  predicate ShowsTopWards(rows: seq<WardRow>, top: seq<WardRow>) {
    && |top| == (if |rows| < Shown then |rows| else Shown)
    && multiset(top) <= multiset(rows)
    && (forall a, b :: 0 <= a < b < |top| ==> top[a].open >= top[b].open)
    && (forall t, r :: t in top && r in multiset(rows) - multiset(top) ==> t.open >= r.open)
  }

  /** `topWards`: rows sorted by open count descending, at most twenty. */
  function TopWardsOf(issues: seq<Issue>): (top: seq<WardRow>)
    ensures ShowsTopWards(WardRows(issues), top)
    ensures |MapKeys(issues, WardOf)| <= Shown ==> multiset(top) == multiset(WardRows(issues))
  {
    WardTop(WardRows(issues));
    TopBy(WardRows(issues), WardKey)
  }

  /** The sort and `slice(0, 20)` of any ward rows shows their top rows. */
  lemma WardTop(rows: seq<WardRow>)
    ensures ShowsTopWards(rows, TopBy(rows, WardKey))
    ensures |rows| <= Shown ==> multiset(TopBy(rows, WardKey)) == multiset(rows)
  {
    var top := TopBy(rows, WardKey);
    ShownCount(rows, top);
    WardKeyOrder(top, multiset(rows) - multiset(top));
  }

  /** Ranking by `WardKey` is ranking by open count, descending. */
  lemma WardKeyOrder(top: seq<WardRow>, rest: multiset<WardRow>)
    requires SortedBy(top, WardKey)
    requires forall t, r :: t in top && r in rest ==> KeyLeq(WardKey(t), WardKey(r))
    ensures forall a, b :: 0 <= a < b < |top| ==> top[a].open >= top[b].open
    ensures forall t, r :: t in top && r in rest ==> t.open >= r.open
  {
  }

  /** Every row shown is the tally of one ward that has issues, and its open count is within its total. */
  lemma TopWardsAreWards(issues: seq<Issue>, r: WardRow)
    requires r in TopWardsOf(issues)
    ensures r.ward in KeysOf(issues, WardOf) && r == WardRowOf(issues, r.ward)
    ensures 0 < r.total && r.open <= r.total
  {
    var top := TopWardsOf(issues);
    assert r in multiset(top) && multiset(top) <= multiset(WardRows(issues));
    assert r in multiset(WardRows(issues));
    var ws := MapKeys(issues, WardOf);
    var k :| 0 <= k < |ws| && WardRows(issues)[k] == r;
    FirstOccurrencesSpec(KeysOf(issues, WardOf));
    GroupNonEmpty(issues, WardOf, ws[k]);
  }

  /** Ties on the open count keep the order in which the wards first appear. */
  lemma TopWardsStable(issues: seq<Issue>, open: nat)
    ensures WithKey(SortBy(WardRows(issues), WardKey), WardKey, (-(open as int), 0)) == WithKey(WardRows(issues), WardKey, (-(open as int), 0))
  {
    SortByStable(WardRows(issues), WardKey, (-(open as int), 0));
  }

  /** `topWards` computed as the page does: the loop, then sort and slice. */
  method TopWards(issues: seq<Issue>) returns (top: seq<WardRow>)
    ensures top == TopWardsOf(issues)
  {
    var ws, m := TallyWards(issues);
    var rows := seq(|ws|, k requires 0 <= k < |ws| => WardRow(ws[k], m[ws[k]].open, m[ws[k]].total));
    assert rows == WardRows(issues);
    top := Take(SortBy(rows, WardKey), Shown);
  }
}

=== FILE: query.dfy ===
/**
 * The query layer of the issue list: `filterIssues`, `sortIssues`, `paginate` and `metrics`.
 * Dates are integer milliseconds; `addDays(end, 1)` adds one day's worth of milliseconds.
 */
module Query {
  import opened Wrappers
  import opened Text
  import opened Seqs
  import opened Sorting
  import opened IssueModel

  /** A criterion that is unset, `"All"`, or one value. */
  datatype Choice<T(==)> = Any | Only(value: T) {
    predicate Admits(x: T) {
      match this
      case Any => true
      case Only(v) => v == x
    }
  }

  /** `IssueFilter`; an empty `query` is the unset one, since `""` is falsy. */
  datatype IssueFilter = IssueFilter(
    query: string,
    category: Choice<Category>,
    status: Choice<Status>,
    priority: Choice<Priority>,
    start: Option<int>,
    end: Option<int>,
    onlyCanonical: bool)

  const NoFilter: IssueFilter := IssueFilter("", Any, Any, Any, None, None, false)

  /** The text the query searches: `${title} ${description} ${address}`, lower-cased. */
  function Haystack(i: Issue): string {
    Lower(i.title + " " + i.description + " " + i.address)
  }

  /** The test applied to each issue: every set criterion must hold. */
  predicate Keep(f: IssueFilter, i: Issue) {
    && !(f.onlyCanonical && i.duplicateOf.Some?)
    && (f.query == "" || Contains(Haystack(i), Lower(f.query)))
    && f.category.Admits(i.category)
    && f.status.Admits(i.status)
    && f.priority.Admits(i.priority)
    && (f.start.None? || f.start.value <= i.createdAt)
    && (f.end.None? || i.createdAt <= f.end.value + DayMs)
  }

  /** `filterIssues(list, f)`: the issues that pass, in their original order. */
  function FilterIssues(list: seq<Issue>, f: IssueFilter): (r: seq<Issue>)
    ensures |r| <= |list|
  {
    Filter(list, (i: Issue) => Keep(f, i))
  }

  /** An issue is in the result exactly when it is in the list and passes every set criterion. */
  lemma FilterIssuesMembership(list: seq<Issue>, f: IssueFilter, x: Issue)
    ensures x in FilterIssues(list, f) <==> x in list && Keep(f, x)
  {
    FilterMembership(list, (i: Issue) => Keep(f, i), x);
  }

  /** Filtering keeps the relative order: it distributes over concatenation. */
  lemma FilterIssuesOrder(a: seq<Issue>, b: seq<Issue>, f: IssueFilter)
    ensures FilterIssues(a + b, f) == FilterIssues(a, f) + FilterIssues(b, f)
  {
    FilterConcat(a, b, (i: Issue) => Keep(f, i));
  }

  /** With nothing set, every issue is kept. */
  lemma FilterIssuesNoFilter(list: seq<Issue>)
    ensures FilterIssues(list, NoFilter) == list
  {
    FilterAll(list, (i: Issue) => Keep(NoFilter, i));
  }

  /** `onlyCanonical` alone removes exactly the issues merged into another one. */
  lemma OnlyCanonicalDropsDuplicates(list: seq<Issue>, x: Issue)
    ensures x in FilterIssues(list, NoFilter.(onlyCanonical := true)) <==> x in list && x.duplicateOf == None
  {
    FilterIssuesMembership(list, NoFilter.(onlyCanonical := true), x);
  }

  /** The end bound is inclusive of the whole following day: `end + 1 day` passes, a millisecond later does not. */
  lemma EndBoundInclusive(i: Issue, e: int)
    ensures Keep(NoFilter.(end := Some(e)), i) <==> i.createdAt <= e + DayMs
  {
  }

  /** The sort keys of `sortIssues`. */
  datatype SortKey = CreatedAt | PriorityKey | Upvotes | StatusKey

  datatype SortDir = Asc | Desc

  /** The compared value; statuses compare as their strings do. */
  function Value(key: SortKey, i: Issue): int {
    match key
    case CreatedAt => i.createdAt
    case PriorityKey => i.priority
    case Upvotes => i.upvotes
    case StatusKey => StatusRank(i.status)
  }

  /** The comparator `(a, b) => mult * compare(va, vb)` as an ascending key. */
  function Direction(key: SortKey, dir: SortDir): Issue -> Key {
    (i: Issue) => (if dir == Asc then Value(key, i) else -Value(key, i), 0)
  }

  /** `sortIssues(list, key, dir)`: a sorted copy; the input is a value and is left as it was. */
  function SortIssues(list: seq<Issue>, key: SortKey, dir: SortDir): (r: seq<Issue>)
    ensures |r| == |list| && multiset(r) == multiset(list)
    ensures forall a, b :: 0 <= a < b < |r| ==>
      if dir == Asc then Value(key, r[a]) <= Value(key, r[b]) else Value(key, r[a]) >= Value(key, r[b])
  {
    var r := SortBy(list, Direction(key, dir));
    assert forall a, b :: 0 <= a < b < |r| ==> KeyLeq(Direction(key, dir)(r[a]), Direction(key, dir)(r[b]));
    r
  }

  /** The issues whose compared value is `v`, in order. */
  function Ties(s: seq<Issue>, key: SortKey, v: int): seq<Issue> {
    Filter(s, (i: Issue) => Value(key, i) == v)
  }

  lemma {:induction false} WithKeyIsTies(s: seq<Issue>, key: SortKey, dir: SortDir, v: int)
    ensures WithKey(s, Direction(key, dir), (if dir == Asc then v else -v, 0)) == Ties(s, key, v)
  {
    if s != [] {
      WithKeyIsTies(s[1..], key, dir, v);
    }
  }

  /** Ties keep their input order, in both directions. */
  lemma SortIssuesStable(list: seq<Issue>, key: SortKey, dir: SortDir, v: int)
    ensures Ties(SortIssues(list, key, dir), key, v) == Ties(list, key, v)
  {
    var k := (if dir == Asc then v else -v, 0);
    SortByStable(list, Direction(key, dir), k);
    WithKeyIsTies(list, key, dir, v);
    WithKeyIsTies(SortIssues(list, key, dir), key, dir, v);
  }

  /** Status order is string order: "In Progress" < "Pending" < "Resolved". */
  lemma StatusSortIsStringSort(list: seq<Issue>, a: nat, b: nat)
    requires a < b < |list|
    ensures var r := SortIssues(list, StatusKey, Asc);
      !StringLess(StatusText(r[b].status), StatusText(r[a].status))
  {
    var r := SortIssues(list, StatusKey, Asc);
    assert Value(StatusKey, r[a]) <= Value(StatusKey, r[b]);
    StatusRankIsStringOrder(r[b].status, r[a].status);
  }

  /** The value `paginate` returns. */
  datatype Page<T> = Page(page: int, pages: int, total: nat, items: seq<T>)

  /** `Math.ceil(n / d)` for `d > 0`. */
  function CeilDiv(n: nat, d: nat): (q: nat)
    requires d > 0
    ensures q * d >= n && (q == 0 || (q - 1) * d < n)
  {
    (n + d - 1) / d
  }

  lemma MulMono(a: int, b: int, c: nat)
    requires a <= b
    ensures a * c <= b * c
  {
  }

  /** Every page in range starts within the list, and every page before the last is full. */
  lemma PageStart(total: nat, perPage: nat, pages: int, p: int)
    requires perPage > 0 && 1 <= p <= pages
    requires pages == 1 || (pages - 1) * perPage < total
    ensures 0 <= (p - 1) * perPage <= total
    ensures p < pages ==> p * perPage < total
  {
    MulMono(0, p - 1, perPage);
    if pages > 1 {
      MulMono(p - 1, pages - 1, perPage);
      if p < pages {
        MulMono(p, pages - 1, perPage);
      }
    }
  }

  /** `paginate(arr, page, perPage)`; callers pass a positive `perPage`. */
  function Paginate<T>(arr: seq<T>, page: int, perPage: nat): (r: Page<T>)
    requires perPage > 0
    ensures r.total == |arr|
    ensures r.pages >= 1 && r.pages * perPage >= |arr| && (r.pages == 1 || (r.pages - 1) * perPage < |arr|)
    ensures 1 <= r.page <= r.pages
    ensures page < 1 ==> r.page == 1
    ensures page > r.pages ==> r.page == r.pages
    ensures 1 <= page <= r.pages ==> r.page == page
    ensures |r.items| <= perPage
    ensures 0 <= (r.page - 1) * perPage && (r.page - 1) * perPage + |r.items| <= |arr|
    ensures r.items == arr[(r.page - 1) * perPage..(r.page - 1) * perPage + |r.items|]
    ensures r.page < r.pages ==> |r.items| == perPage
    ensures r.page == r.pages ==> (r.page - 1) * perPage + |r.items| == |arr|
  {
    var total := |arr|;
    var q := CeilDiv(total, perPage);
    var pages := if q < 1 then 1 else q;
    var p := if page < 1 then 1 else if page > pages then pages else page;
    PageStart(total, perPage, pages, p);
    var start := (p - 1) * perPage;
    var end := start + perPage;
    var hi := if end < total then end else total;
    Page(p, pages, total, arr[start..hi])
  }

  /** A page in range is non-empty when there are items at all. */
  lemma PageNonEmpty<T>(arr: seq<T>, page: int, perPage: nat)
    requires perPage > 0 && |arr| > 0
    ensures |Paginate(arr, page, perPage).items| > 0
  {
    var r := Paginate(arr, page, perPage);
    assert (r.page - 1) * perPage < |arr|;
  }

  /** 45 items at 20 per page: asking for page 10 gives the last page, 3, with its 5 items. */
  lemma PaginateClampsToLastPage<T>(arr: seq<T>)
    requires |arr| == 45
    ensures var r := Paginate(arr, 10, 20);
      r.page == 3 && r.pages == 3 && r.items == arr[40..]
  {
  }

  /** The value `metrics` returns. */
  datatype Metrics = Metrics(total: nat, byStatus: map<Status, nat>, avgResolutionHrs: int)

  function HasStatus(s: Status): Issue -> bool {
    (i: Issue) => i.status == s
  }

  function Duration(i: Issue): int { i.updatedAt - i.createdAt }

  /**
   * `Math.round(sum / n / 3600000)` for `n > 0`: the nearest whole number of hours,
   * with halves rounded up.
   */
  function RoundHours(sum: int, n: nat): (h: int)
    requires n > 0
    ensures (2 * h - 1) * (n * HourMs) <= 2 * sum < (2 * h + 1) * (n * HourMs)
  {
    var d := n * HourMs;
    var h := (2 * sum + d) / (2 * d);
    assert 2 * d * h <= 2 * sum + d < 2 * d * h + 2 * d;
    h
  }

  /** `metrics(issues)`. */
  function ComputeMetrics(issues: seq<Issue>): (m: Metrics)
    ensures m.total == |issues|
    ensures m.byStatus.Keys == {Pending, InProgress, Resolved}
    ensures forall s :: s in m.byStatus ==> m.byStatus[s] == Count(issues, HasStatus(s))
    ensures Count(issues, HasStatus(Resolved)) == 0 ==> m.avgResolutionHrs == 0
    ensures var n := Count(issues, HasStatus(Resolved));
      var sum := SumOf(Filter(issues, HasStatus(Resolved)), Duration);
      n > 0 ==> m.avgResolutionHrs == RoundHours(sum, n)
  {
    var byStatus := map s | s in Statuses :: Count(issues, HasStatus(s));
    var resolved := Filter(issues, HasStatus(Resolved));
    var avg := if |resolved| == 0 then 0 else RoundHours(SumOf(resolved, Duration), |resolved|);
    Metrics(|issues|, byStatus, avg)
  }

  /** The three status counts add up to the total. */
  lemma {:induction false} StatusCountsSum(issues: seq<Issue>)
    ensures Count(issues, HasStatus(Pending)) + Count(issues, HasStatus(InProgress))
      + Count(issues, HasStatus(Resolved)) == |issues|
  {
    if issues != [] {
      StatusCountsSum(issues[1..]);
    }
  }

  lemma MetricsByStatusSum(issues: seq<Issue>)
    ensures var m := ComputeMetrics(issues);
      m.byStatus[Pending] + m.byStatus[InProgress] + m.byStatus[Resolved] == m.total
  {
    StatusCountsSum(issues);
  }
}

=== FILE: seqs.dfy ===
/** Generic list operations behind `Array.prototype.filter`, `reduce` and `slice`. */
module Seqs {

  /** `s.filter(p)`. */
  function Filter<T>(s: seq<T>, p: T -> bool): (r: seq<T>)
    ensures |r| <= |s|
  {
    if s == [] then [] else (if p(s[0]) then [s[0]] else []) + Filter(s[1..], p)
  }

  /** An element is kept exactly when it is in the list and passes the test. */
  lemma {:induction false} FilterMembership<T>(s: seq<T>, p: T -> bool, x: T)
    ensures x in Filter(s, p) <==> x in s && p(x)
  {
    if s != [] {
      FilterMembership(s[1..], p, x);
      assert s == [s[0]] + s[1..];
    }
  }

  lemma ConcatTail<T>(a: seq<T>, b: seq<T>)
    requires a != []
    ensures (a + b)[0] == a[0] && (a + b)[1..] == a[1..] + b
  {
  }

  /** Filtering preserves order: it distributes over concatenation. */
  lemma {:induction false} FilterConcat<T>(a: seq<T>, b: seq<T>, p: T -> bool)
    ensures Filter(a + b, p) == Filter(a, p) + Filter(b, p)
  {
    if a == [] {
      assert a + b == b;
    } else {
      FilterConcat(a[1..], b, p);
      var h := if p(a[0]) then [a[0]] else [];
      ConcatTail(a, b);
      calc {
        Filter(a + b, p);
        h + Filter(a[1..] + b, p);
        h + (Filter(a[1..], p) + Filter(b, p));
        (h + Filter(a[1..], p)) + Filter(b, p);
        Filter(a, p) + Filter(b, p);
      }
    }
  }

  /** A test every element passes keeps the whole list. */
  lemma {:induction false} FilterAll<T>(s: seq<T>, p: T -> bool)
    requires forall i :: 0 <= i < |s| ==> p(s[i])
    ensures Filter(s, p) == s
  {
    if s != [] {
      FilterAll(s[1..], p);
    }
  }

  /** `s.filter(p).length`. */
  function Count<T>(s: seq<T>, p: T -> bool): (n: nat)
    ensures n <= |s|
  {
    |Filter(s, p)|
  }

  lemma {:induction false} CountConcat<T>(a: seq<T>, b: seq<T>, p: T -> bool)
    ensures Count(a + b, p) == Count(a, p) + Count(b, p)
  {
    FilterConcat(a, b, p);
  }

  /** Elements failing one of two complementary tests pass the other: the counts add up. */
  lemma {:induction false} CountSplit<T>(s: seq<T>, p: T -> bool, q: T -> bool)
    requires forall x :: p(x) <==> !q(x)
    ensures Count(s, p) + Count(s, q) == |s|
  {
    if s != [] {
      CountSplit(s[1..], p, q);
    }
  }

  /** `s.reduce((acc, x) => acc + f(x), 0)`. */
  function SumOf<T>(s: seq<T>, f: T -> int): int
  {
    if s == [] then 0 else f(s[0]) + SumOf(s[1..], f)
  }

  lemma {:induction false} SumOfConcat<T>(a: seq<T>, b: seq<T>, f: T -> int)
    ensures SumOf(a + b, f) == SumOf(a, f) + SumOf(b, f)
  {
    if a == [] {
      assert a + b == b;
    } else {
      SumOfConcat(a[1..], b, f);
      assert (a + b)[1..] == a[1..] + b;
    }
  }

  /** A sum does not depend on the order of its terms. */
  lemma {:induction false} SumOfPermutation<T>(a: seq<T>, b: seq<T>, f: T -> int)
    requires multiset(a) == multiset(b)
    ensures SumOf(a, f) == SumOf(b, f)
    decreases |a|
  {
    if a != [] {
      var x := a[0];
      assert x in multiset(b);
      var j :| 0 <= j < |b| && b[j] == x;
      var b' := b[..j] + b[j + 1..];
      assert b == b[..j] + [x] + b[j + 1..];
      assert a == [x] + a[1..];
      assert multiset(b) == multiset(b[..j]) + multiset{x} + multiset(b[j + 1..]);
      assert multiset(a) == multiset{x} + multiset(a[1..]);
      assert multiset(b') == multiset(b[..j]) + multiset(b[j + 1..]);
      assert multiset(a[1..]) == multiset(a) - multiset{x};
      assert multiset(b') == multiset(b) - multiset{x};
      SumOfPermutation(a[1..], b', f);
      SumOfConcat(b[..j] + [x], b[j + 1..], f);
      SumOfConcat(b[..j], [x], f);
      SumOfConcat(b[..j], b[j + 1..], f);
    }
  }

  /** `s.slice(0, n)`. */
  function Take<T>(s: seq<T>, n: nat): (r: seq<T>)
    ensures |r| <= n && |r| <= |s|
    ensures |r| == n || r == s
    ensures r == s[..|r|]
  {
    if |s| <= n then s else s[..n]
  }

  /** Extending a prefix by one element adds that element to its multiset. */
  lemma PrefixStep<T>(s: seq<T>, i: nat)
    requires i < |s|
    ensures multiset(s[..i + 1]) == multiset(s[..i]) + multiset{s[i]}
  {
    assert s[..i + 1] == s[..i] + [s[i]];
  }

  /** Growing the prefix of `b` after a fixed `a` by one element appends that element. */
  lemma AppendPrefixStep<T>(a: seq<T>, b: seq<T>, j: nat)
    requires j < |b|
    ensures a + b[..j + 1] == (a + b[..j]) + [b[j]]
  {
    assert b[..j + 1] == b[..j] + [b[j]];
  }

  /** No element occurs twice. */
  predicate Distinct<T(==)>(s: seq<T>) {
    forall i, j :: 0 <= i < j < |s| ==> s[i] != s[j]
  }

  /** In a sequence whose every element is `v`, the first two elements, when there are two, are equal. */
  lemma ConstantPair<T>(s: seq<T>, v: T)
    requires forall x :: x in s ==> x == v
    ensures |s| > 1 ==> s[0] == s[1]
  {
    if |s| > 1 {
      assert s[0] in s && s[1] in s;
    }
  }

  /** The elements of `s` in order of first occurrence: what iterating a JavaScript `Set` filled from `s` yields. */
  function FirstOccurrences<T(==)>(s: seq<T>): seq<T> {
    if s == [] then []
    else
      var d := FirstOccurrences(s[..|s| - 1]);
      if s[|s| - 1] in d then d else d + [s[|s| - 1]]
  }

  /** Adding one element to the end of `s` adds it to the first occurrences unless already there. */
  lemma FirstOccurrencesAppend<T>(s: seq<T>, x: T)
    ensures FirstOccurrences(s + [x]) ==
      if x in FirstOccurrences(s) then FirstOccurrences(s) else FirstOccurrences(s) + [x]
  {
    assert (s + [x])[..|s + [x]| - 1] == s;
  }

  lemma {:induction false} FirstOccurrencesSpec<T>(s: seq<T>)
    ensures Distinct(FirstOccurrences(s))
    ensures forall x :: x in FirstOccurrences(s) <==> x in s
  {
    if s != [] {
      FirstOccurrencesSpec(s[..|s| - 1]);
      assert s == s[..|s| - 1] + [s[|s| - 1]];
    }
  }

  /** Two sums agree when their terms agree position by position. */
  lemma {:induction false} SumOfAlong<A, B>(r: seq<A>, s: seq<B>, g: A -> int, h: B -> int)
    requires |r| == |s| && forall k :: 0 <= k < |r| ==> g(r[k]) == h(s[k])
    ensures SumOf(r, g) == SumOf(s, h)
  {
    if r != [] {
      SumOfAlong(r[1..], s[1..], g, h);
    }
  }

  /** Over distinct terms, raising the term of `x` by `d` raises the sum by `d` when `x` is present. */
  lemma {:induction false} SumOfBump<T>(s: seq<T>, f: T -> int, g: T -> int, x: T, d: int)
    requires Distinct(s)
    requires forall y :: g(y) == f(y) + (if y == x then d else 0)
    ensures SumOf(s, g) == SumOf(s, f) + (if x in s then d else 0)
  {
    if s != [] {
      assert Distinct(s[1..]);
      assert s[0] == x ==> x !in s[1..];
      assert x in s <==> s[0] == x || x in s[1..];
      SumOfBump(s[1..], f, g, x, d);
    }
  }
}

=== FILE: similarity.dfy ===
/** Token-set Jaccard similarity of two texts (`normalizeText`, `jaccardSimilarity`). */
module Similarity {
  import opened Text

  /** Characters that survive `replace(/[^a-z0-9\s]/g, "")`. */
  predicate IsTextChar(c: char) { IsLowerAlnum(c) || IsSpace(c) }

  /** The shape `normalizeText` produces: `[a-z0-9 ]` only, single inner spaces, none at the ends. */
  predicate IsNormalText(r: string) {
    && (forall i :: 0 <= i < |r| ==> IsLowerAlnum(r[i]) || r[i] == ' ')
    && (forall i :: 0 <= i < |r| - 1 ==> !(r[i] == ' ' && r[i + 1] == ' '))
    && (r == [] || (r[0] != ' ' && r[|r| - 1] != ' '))
  }

  /** Lower-case, drop every character outside `[a-z0-9\s]`, collapse whitespace runs to one space, trim. */
  function NormalizeText(s: string): string {
    Trim(ReplaceRuns(KeepChars(Lower(s), IsTextChar), IsSpace, ' '))
  }

  /** `[a-z0-9 ]` only, with no two spaces in a row. */
  predicate IsCollapsed(c: string) {
    && (forall i :: 0 <= i < |c| ==> IsLowerAlnum(c[i]) || c[i] == ' ')
    && (forall i :: 0 <= i < |c| - 1 ==> !(c[i] == ' ' && c[i + 1] == ' '))
  }

  /** Collapsing the whitespace runs of `[a-z0-9\s]` text leaves `[a-z0-9 ]` with no double space. */
  lemma CollapsedShape(k: string)
    requires forall i :: 0 <= i < |k| ==> IsTextChar(k[i])
    ensures IsCollapsed(ReplaceRuns(k, IsSpace, ' '))
  {
    ReplaceRunsChars(k, IsSpace, ' ');
    ReplaceRunsNoDouble(k, IsSpace, ' ');
  }

  /** Trimming such text also removes the spaces at the ends. */
  lemma TrimmedShape(c: string)
    requires IsCollapsed(c)
    ensures IsNormalText(Trim(c))
  {
    var r := Trim(c);
    var a := LeadingCount(c, IsSpace);
    assert forall i :: 0 <= i < |r| ==> r[i] == c[a + i];
  }

  /** `normalizeText` yields only `[a-z0-9 ]`, with single inner spaces and none at the ends. */
  lemma NormalizeTextIsNormal(s: string)
    ensures IsNormalText(NormalizeText(s))
  {
    var k := KeepChars(Lower(s), IsTextChar);
    KeepCharsPass(Lower(s), IsTextChar);
    CollapsedShape(k);
    TrimmedShape(ReplaceRuns(k, IsSpace, ' '));
  }

  /** Normalising twice is normalising once. */
  lemma NormalizeTextIdempotent(s: string)
    ensures NormalizeText(NormalizeText(s)) == NormalizeText(s)
  {
    var r := NormalizeText(s);
    NormalizeTextIsNormal(s);
    var l := Lower(r);
    assert l == r by { LowerIdempotent(r); }
    var k := KeepChars(l, IsTextChar);
    assert k == r by {
      assert forall i :: 0 <= i < |r| ==> IsTextChar(r[i]);
      KeepAll(r, IsTextChar);
    }
    var c := ReplaceRuns(k, IsSpace, ' ');
    assert c == r by { ReplaceRunsFixed(r, IsSpace, ' '); }
    assert Trim(c) == r by { TrimFixed(r); }
  }

  /** The distinct pieces of `n.split(" ")`. */
  function Words(n: string): (t: set<string>)
    ensures |t| >= 1
  {
    var pieces := Split(n, ' ');
    var t := set p | p in pieces;
    assert pieces[0] in t;
    assert |t| != 0;
    t
  }

  /** `new Set(normalizeText(s).split(" "))`. */
  function Tokens(s: string): set<string> {
    Words(NormalizeText(s))
  }

  /** A ratio `num / den`, compared without division. */
  datatype Ratio = Ratio(num: int, den: int)

  /** A ratio with a positive denominator. */
  type Fraction = r: Ratio | r.den > 0 witness Ratio(0, 1)

  /** `ratio >= threshold`, by cross-multiplication over positive denominators. */
  predicate AtLeast(r: Ratio, threshold: Ratio)
    requires r.den > 0 && threshold.den > 0
  {
    r.num * threshold.den >= threshold.num * r.den
  }

  /** Cross-multiplication decides the same comparison as real division. */
  lemma AtLeastIsRealComparison(r: Ratio, threshold: Ratio)
    requires r.den > 0 && threshold.den > 0
    ensures AtLeast(r, threshold) <==> r.num as real / r.den as real >= threshold.num as real / threshold.den as real
  {
    var x, y := r.num as real / r.den as real, threshold.num as real / threshold.den as real;
    assert x * (r.den as real) == r.num as real;
    assert y * (threshold.den as real) == threshold.num as real;
    var d := (r.den * threshold.den) as real;
    assert d > 0.0;
    assert x * d == (r.num * threshold.den) as real;
    assert y * d == (threshold.num * r.den) as real;
  }

  lemma SubsetCard(a: set<string>, b: set<string>)
    requires a <= b
    ensures |a| <= |b|
  {
    assert b == a + (b - a);
    assert a * (b - a) == {};
  }

  /** |intersection| / |union| of two token sets; the union of non-empty sets is non-empty. */
  function Overlap(sa: set<string>, sb: set<string>): (r: Fraction)
    requires |sa| >= 1
    ensures 1 <= r.den
    ensures 0 <= r.num <= r.den
  {
    SubsetCard(sa, sa + sb);
    SubsetCard(sa * sb, sa + sb);
    Ratio(|sa * sb|, |sa + sb|)
  }

  /**
   * `jaccardSimilarity(a, b)`: |intersection| / |union| of the token sets. Since `split`
   * always yields at least one piece, the union is never empty and the `: 0` branch of
   * the source is never taken.
   */
  function Jaccard(a: string, b: string): (r: Fraction)
    ensures 1 <= r.den
    ensures 0 <= r.num <= r.den
  {
    Overlap(Tokens(a), Tokens(b))
  }

  lemma OverlapSymmetric(sa: set<string>, sb: set<string>)
    requires |sa| >= 1 && |sb| >= 1
    ensures Overlap(sa, sb) == Overlap(sb, sa)
  {
    assert sa * sb == sb * sa;
    assert sa + sb == sb + sa;
  }

  lemma OverlapSelf(t: set<string>)
    requires |t| >= 1
    ensures Overlap(t, t).num == Overlap(t, t).den
  {
    assert t * t == t + t;
  }

  lemma JaccardSymmetric(a: string, b: string)
    ensures Jaccard(a, b) == Jaccard(b, a)
  {
    OverlapSymmetric(Tokens(a), Tokens(b));
  }

  lemma SameTextSameTokens(a: string, b: string)
    requires NormalizeText(a) == NormalizeText(b)
    ensures Tokens(a) == Tokens(b)
  {
  }

  /** Texts with the same normal form score exactly 1. */
  lemma JaccardSameText(a: string, b: string)
    requires NormalizeText(a) == NormalizeText(b)
    ensures Jaccard(a, b).num == Jaccard(a, b).den
  {
    SameTextSameTokens(a, b);
    OverlapSelf(Tokens(a));
  }

  /** Two texts that both normalise to "" have the one token "" in common and score 1, not 0. */
  lemma JaccardBothEmpty(a: string, b: string)
    requires NormalizeText(a) == "" && NormalizeText(b) == ""
    ensures Jaccard(a, b) == Ratio(1, 1)
  {
    SameTextSameTokens(a, b);
    EmptyTextTokens(a);
    OverlapEmptyWord();
  }

  lemma EmptyTextTokens(a: string)
    requires NormalizeText(a) == ""
    ensures Tokens(a) == {""}
  {
    assert Split("", ' ') == [""];
    assert Words("") == {""};
  }

  lemma OverlapEmptyWord()
    ensures Overlap({""}, {""}) == Ratio(1, 1)
  {
    assert {""} * {""} == {""};
    assert {""} + {""} == {""};
  }
}

=== FILE: sorting.dfy ===
/**
 * `Array.prototype.sort`, which is stable, for comparators that order by a key.
 * Keys are pairs compared lexicographically, so that a comparator with a tie-break
 * (`(b.count - a.count) || (b.upvotes - a.upvotes)`) is one key.
 */
module Sorting {

  type Key = (int, int)

  predicate KeyLeq(a: Key, b: Key) {
    a.0 < b.0 || (a.0 == b.0 && a.1 <= b.1)
  }

  predicate SortedBy<T>(s: seq<T>, key: T -> Key) {
    forall i, j :: 0 <= i < j < |s| ==> KeyLeq(key(s[i]), key(s[j]))
  }

  /** The elements of `s` whose key is `k`, in order: the tie class of `k`. */
  function WithKey<T>(s: seq<T>, key: T -> Key, k: Key): seq<T>
  {
    if s == [] then [] else (if key(s[0]) == k then [s[0]] else []) + WithKey(s[1..], key, k)
  }

  /** Places `x` in front of the first element whose key is not below its own. */
  function Insert<T>(x: T, s: seq<T>, key: T -> Key): seq<T>
  {
    if s == [] || KeyLeq(key(x), key(s[0])) then [x] + s
    else [s[0]] + Insert(x, s[1..], key)
  }

  lemma {:induction false} InsertPermutes<T>(x: T, s: seq<T>, key: T -> Key)
    ensures multiset(Insert(x, s, key)) == multiset([x] + s)
  {
    if !(s == [] || KeyLeq(key(x), key(s[0]))) {
      InsertPermutes(x, s[1..], key);
      assert s == [s[0]] + s[1..];
    }
  }

  lemma {:induction false} InsertSorted<T>(x: T, s: seq<T>, key: T -> Key)
    requires SortedBy(s, key)
    ensures SortedBy(Insert(x, s, key), key)
  {
    if !(s == [] || KeyLeq(key(x), key(s[0]))) {
      InsertSorted(x, s[1..], key);
      InsertPermutes(x, s[1..], key);
      var r := Insert(x, s[1..], key);
      forall j | 0 <= j < |r| ensures KeyLeq(key(s[0]), key(r[j])) {
        assert r[j] in multiset([x] + s[1..]);
      }
    }
  }

  /** Inserting `x` puts it at the front of its tie class and leaves the other classes alone. */
  lemma {:induction false} InsertStable<T>(x: T, s: seq<T>, key: T -> Key, k: Key)
    ensures WithKey(Insert(x, s, key), key, k) == WithKey([x] + s, key, k)
  {
    if s == [] || KeyLeq(key(x), key(s[0])) {
    } else {
      InsertStable(x, s[1..], key, k);
      var r := Insert(x, s[1..], key);
      assert ([s[0]] + r)[1..] == r;
      assert ([x] + s[1..])[1..] == s[1..];
      assert ([x] + s)[1..] == s;
      assert s[1..] == s[1..];
      assert key(s[0]) != key(x);
    }
  }

  /** `[...s].sort(cmp)` where `cmp` orders by `key` ascending. */
  function SortBy<T>(s: seq<T>, key: T -> Key): (r: seq<T>)
    ensures |r| == |s|
    ensures multiset(r) == multiset(s)
    ensures SortedBy(r, key)
  {
    if s == [] then []
    else
      var t := SortBy(s[1..], key);
      InsertPermutes(s[0], t, key);
      InsertSorted(s[0], t, key);
      assert s == [s[0]] + s[1..];
      assert |multiset(Insert(s[0], t, key))| == |s|;
      Insert(s[0], t, key)
  }

  /** Stability: each tie class keeps its input order, so equal keys keep their relative order. */
  lemma {:induction false} SortByStable<T>(s: seq<T>, key: T -> Key, k: Key)
    ensures WithKey(SortBy(s, key), key, k) == WithKey(s, key, k)
  {
    if s != [] {
      var t := SortBy(s[1..], key);
      SortByStable(s[1..], key, k);
      InsertStable(s[0], t, key, k);
      assert ([s[0]] + t)[1..] == t;
      assert s == [s[0]] + s[1..];
    }
  }

  /** Cutting a sorted sequence: nothing kept ranks after anything cut off. */
  lemma SortedCut<T>(s: seq<T>, k: nat, key: T -> Key)
    requires SortedBy(s, key) && k <= |s|
    ensures forall t, r :: t in s[..k] && r in multiset(s[k..]) ==> KeyLeq(key(t), key(r))
  {
    forall t, r | t in s[..k] && r in multiset(s[k..])
      ensures KeyLeq(key(t), key(r))
    {
      var i :| 0 <= i < k && s[..k][i] == t;
      assert r in s[k..];
      var j :| 0 <= j < |s| - k && s[k..][j] == r;
      assert s[i] == t && s[k + j] == r;
    }
  }
}

=== FILE: supervisor_store.dfy ===
/**
 * The supervisor's per-issue notes: when an issue was acknowledged and the images attached
 * to it, keyed by issue id. An absent `images` list is the empty one; the clock is a parameter.
 */
module SupervisorStore {
  import opened Wrappers

  /** `SupervisorIssueState`. */
  datatype SupState = SupState(acknowledgedAt: Option<int>, images: seq<string>)

  /** `{}`: no acknowledgement and no images. */
  const Empty: SupState := SupState(None, [])

  /** `store[issueId] || {}`. */
  function Get(store: map<nat, SupState>, id: nat): (r: SupState)
    ensures id in store ==> r == store[id]
    ensures id !in store ==> r.acknowledgedAt.None? && r.images == []
  {
    if id in store then store[id] else Empty
  }

  /** The record `acknowledge(issueId)` writes. */
  function Acknowledged(store: map<nat, SupState>, id: nat, now: int): (r: map<nat, SupState>)
    ensures r.Keys == store.Keys + {id}
    ensures r[id].acknowledgedAt == Some(now) && r[id].images == Get(store, id).images
    ensures forall k :: k in store && k != id ==> r[k] == store[k]
  {
    store[id := Get(store, id).(acknowledgedAt := Some(now))]
  }

  /** The record `addImage(issueId, dataUrl)` writes. */
  function WithImage(store: map<nat, SupState>, id: nat, url: string): (r: map<nat, SupState>)
    ensures r.Keys == store.Keys + {id}
    ensures |r[id].images| == |Get(store, id).images| + 1
    ensures r[id].images[..|Get(store, id).images|] == Get(store, id).images
    ensures r[id].images[|Get(store, id).images|] == url
    ensures r[id].acknowledgedAt == Get(store, id).acknowledgedAt
    ensures forall k :: k in store && k != id ==> r[k] == store[k]
  {
    var prev := Get(store, id);
    store[id := prev.(images := prev.images + [url])]
  }

  /** Every other issue reads back as before after either update. */
  lemma OthersUnaffected(store: map<nat, SupState>, id: nat, other: nat, now: int, url: string)
    requires other != id
    ensures Get(Acknowledged(store, id, now), other) == Get(store, other)
    ensures Get(WithImage(store, id, url), other) == Get(store, other)
  {
  }

  /** Acknowledging and adding an image touch different fields, so their order does not matter. */
  lemma AcknowledgeAddImageCommute(store: map<nat, SupState>, id: nat, now: int, url: string)
    ensures Acknowledged(WithImage(store, id, url), id, now) == WithImage(Acknowledged(store, id, now), id, url)
  {
    var a := Acknowledged(WithImage(store, id, url), id, now);
    var b := WithImage(Acknowledged(store, id, now), id, url);
    assert a[id] == b[id];
    assert a.Keys == b.Keys;
  }

  /** Adding images one after another lists them in the order they were added. */
  lemma AddImagesInOrder(store: map<nat, SupState>, id: nat, u1: string, u2: string)
    ensures Get(WithImage(WithImage(store, id, u1), id, u2), id).images == Get(store, id).images + [u1, u2]
  {
    assert Get(WithImage(store, id, u1), id).images == Get(store, id).images + [u1];
  }

  /** The hook's state: the map from issue id to its notes. */
  class Notes {
    var store: map<nat, SupState>

    constructor()
      ensures store == map[]
    {
      store := map[];
    }

    /** `acknowledge(issueId)` at time `now`. */
    method Acknowledge(id: nat, now: int)
      modifies this
      ensures store == Acknowledged(old(store), id, now)
    {
      store := Acknowledged(store, id, now);
    }

    /** `addImage(issueId, dataUrl)`. */
    method AddImage(id: nat, url: string)
      modifies this
      ensures store == WithImage(old(store), id, url)
    {
      store := WithImage(store, id, url);
    }

    /** `get(issueId)`. */
    function Lookup(id: nat): SupState
      reads this
    {
      Get(store, id)
    }
  }
}

=== FILE: text.dfy ===
/**
 * String helpers shared by the admin panel and the landing page: ASCII lower-casing,
 * the whitespace class of JavaScript regular expressions, run replacement, trimming,
 * `split` on one character, substring search and decimal rendering.
 * Only ASCII is interpreted; every other character is carried through unchanged.
 */
module Text {

  predicate IsUpper(c: char) { 'A' <= c <= 'Z' }

  predicate IsLowerAlnum(c: char) { 'a' <= c <= 'z' || '0' <= c <= '9' }

  /** The ASCII members of the `\s` class: space, tab, line feed, vertical tab, form feed, carriage return. */
  predicate IsSpace(c: char) {
    c == ' ' || c == '\t' || c == '\n' || c == '\U{B}' || c == '\U{C}' || c == '\r'
  }

  function LowerChar(c: char): (r: char)
    ensures !IsUpper(r)
    ensures !IsUpper(c) ==> r == c
    ensures IsLowerAlnum(r) <==> IsLowerAlnum(c) || IsUpper(c)
    ensures IsSpace(r) <==> IsSpace(c)
  {
    if IsUpper(c) then (c as int + 32) as char else c
  }

  /** `toLowerCase` restricted to ASCII. */
  function Lower(s: string): string {
    seq(|s|, i requires 0 <= i < |s| => LowerChar(s[i]))
  }

  lemma LowerIdempotent(s: string)
    requires forall i :: 0 <= i < |s| ==> !IsUpper(s[i])
    ensures Lower(s) == s
  {
  }

  /** The characters of `s` that satisfy `p`, in order. */
  function KeepChars(s: string, p: char -> bool): string {
    if s == [] then []
    else if p(s[0]) then [s[0]] + KeepChars(s[1..], p)
    else KeepChars(s[1..], p)
  }

  /** Every kept character passes the test. */
  lemma {:induction false} KeepCharsPass(s: string, p: char -> bool)
    ensures forall i :: 0 <= i < |KeepChars(s, p)| ==> p(KeepChars(s, p)[i])
  {
    if s != [] {
      KeepCharsPass(s[1..], p);
    }
  }

  lemma {:induction false} KeepAll(s: string, p: char -> bool)
    requires forall i :: 0 <= i < |s| ==> p(s[i])
    ensures KeepChars(s, p) == s
  {
    if s != [] {
      KeepAll(s[1..], p);
    }
  }

  /** The longest suffix of `s` that does not start with a character satisfying `p`. */
  function DropWhile(s: string, p: char -> bool): (r: string)
    ensures |r| <= |s| && r == s[|s| - |r|..]
    ensures r == [] || !p(r[0])
  {
    if s != [] && p(s[0]) then
      var r := DropWhile(s[1..], p);
      SuffixOfTail(s, r);
      r
    else s
  }

  /** A suffix of the tail of `s` is a suffix of `s`. */
  lemma SuffixOfTail(s: string, r: string)
    requires s != [] && |r| <= |s| - 1 && r == s[1..][|s| - 1 - |r|..]
    ensures r == s[|s| - |r|..]
  {
  }

  /**
   * `s.replace(/P+/g, c)`: every maximal run of characters satisfying `p` becomes one `c`.
   */
  function ReplaceRuns(s: string, p: char -> bool, c: char): (r: string)
    decreases |s|
  {
    if s == [] then []
    else if p(s[0]) then [c] + ReplaceRuns(DropWhile(s[1..], p), p, c)
    else [s[0]] + ReplaceRuns(s[1..], p, c)
  }

  /** Every character of the result is `c` or a character of `s` that `p` rejects. */
  lemma {:induction false} ReplaceRunsChars(s: string, p: char -> bool, c: char)
    ensures forall i :: 0 <= i < |ReplaceRuns(s, p, c)| ==>
      ReplaceRuns(s, p, c)[i] == c || (ReplaceRuns(s, p, c)[i] in s && !p(ReplaceRuns(s, p, c)[i]))
    decreases |s|
  {
    if s == [] {
    } else if p(s[0]) {
      var t := DropWhile(s[1..], p);
      ReplaceRunsChars(t, p, c);
      assert forall x :: x in t ==> x in s;
    } else {
      ReplaceRunsChars(s[1..], p, c);
    }
  }

  /** The result starts with `c` exactly when `s` starts with a character satisfying `p` (given `p(c)`). */
  lemma ReplaceRunsHead(s: string, p: char -> bool, c: char)
    requires p(c)
    ensures ReplaceRuns(s, p, c) == [] <==> s == []
    ensures s != [] ==> (ReplaceRuns(s, p, c)[0] == c <==> p(s[0]))
  {
  }

  /** When `p(c)` holds, two copies of `c` are never adjacent in the result. */
  lemma {:induction false} ReplaceRunsNoDouble(s: string, p: char -> bool, c: char)
    requires p(c)
    ensures forall i :: 0 <= i < |ReplaceRuns(s, p, c)| - 1 ==>
      !(ReplaceRuns(s, p, c)[i] == c && ReplaceRuns(s, p, c)[i + 1] == c)
    decreases |s|
  {
    var r := ReplaceRuns(s, p, c);
    if s == [] {
    } else if p(s[0]) {
      var t := DropWhile(s[1..], p);
      ReplaceRunsNoDouble(t, p, c);
      ReplaceRunsHead(t, p, c);
      assert r == [c] + ReplaceRuns(t, p, c);
    } else {
      ReplaceRunsNoDouble(s[1..], p, c);
      assert r == [s[0]] + ReplaceRuns(s[1..], p, c);
      assert s[0] != c;
    }
  }

  /** A string whose `p`-characters are all single copies of `c` is left unchanged. */
  lemma {:induction false} ReplaceRunsFixed(s: string, p: char -> bool, c: char)
    requires forall i :: 0 <= i < |s| ==> (p(s[i]) ==> s[i] == c)
    requires forall i :: 0 <= i < |s| - 1 ==> !(s[i] == c && s[i + 1] == c)
    requires p(c)
    ensures ReplaceRuns(s, p, c) == s
    decreases |s|
  {
    if s == [] {
    } else if p(s[0]) {
      assert s[1..] == [] || !p(s[1]);
      assert DropWhile(s[1..], p) == s[1..];
      ReplaceRunsFixed(s[1..], p, c);
    } else {
      ReplaceRunsFixed(s[1..], p, c);
    }
  }

  /** Number of leading characters of `s` satisfying `p`. */
  function LeadingCount(s: string, p: char -> bool): (n: nat)
    ensures n <= |s|
    ensures forall i :: 0 <= i < n ==> p(s[i])
    ensures n == |s| || !p(s[n])
  {
    if s != [] && p(s[0]) then 1 + LeadingCount(s[1..], p) else 0
  }

  /** Number of trailing characters of `s` satisfying `p`. */
  function TrailingCount(s: string, p: char -> bool): (n: nat)
    ensures n <= |s|
    ensures forall i :: |s| - n <= i < |s| ==> p(s[i])
    ensures n == |s| || !p(s[|s| - 1 - n])
  {
    if s != [] && p(s[|s| - 1]) then 1 + TrailingCount(s[..|s| - 1], p) else 0
  }

  /** `trim`: the whitespace at both ends removed. */
  function Trim(s: string): (r: string)
    ensures r == [] || (!IsSpace(r[0]) && !IsSpace(r[|r| - 1]))
    ensures LeadingCount(s, IsSpace) + |r| <= |s|
    ensures r == s[LeadingCount(s, IsSpace)..LeadingCount(s, IsSpace) + |r|]
  {
    var a := LeadingCount(s, IsSpace);
    var t := s[a..];
    var b := TrailingCount(t, IsSpace);
    assert t[..|t| - b] == s[a..a + (|t| - b)];
    t[..|t| - b]
  }

  /** A string that neither starts nor ends with whitespace is its own trim. */
  lemma TrimFixed(s: string)
    requires s == [] || (!IsSpace(s[0]) && !IsSpace(s[|s| - 1]))
    ensures Trim(s) == s
  {
  }

  /** `s.split(d)` for a one-character separator `d`. */
  function Split(s: string, d: char): (r: seq<string>)
    ensures |r| >= 1
  {
    if s == [] then [""]
    else if s[0] == d then [""] + Split(s[1..], d)
    else
      var rest := Split(s[1..], d);
      [[s[0]] + rest[0]] + rest[1..]
  }

  /** `s.split(d)[0]`: the text before the first `d`, or all of `s` when there is none. */
  function BeforeFirst(s: string, d: char): (r: string)
    ensures d !in r
    ensures |r| <= |s| && r == s[..|r|]
    ensures |r| < |s| <==> d in s
    ensures |r| < |s| ==> s[|r|] == d
  {
    if s == [] then ""
    else if s[0] == d then ""
    else [s[0]] + BeforeFirst(s[1..], d)
  }

  lemma {:induction false} BeforeFirstIsFirstPiece(s: string, d: char)
    ensures BeforeFirst(s, d) == Split(s, d)[0]
  {
    if s != [] && s[0] != d {
      BeforeFirstIsFirstPiece(s[1..], d);
    }
  }

  predicate OccursAt(hay: string, needle: string, i: nat) {
    i + |needle| <= |hay| && hay[i..i + |needle|] == needle
  }

  /** `hay.includes(needle)`. */
  predicate Contains(hay: string, needle: string) {
    exists i | 0 <= i <= |hay| - |needle| :: OccursAt(hay, needle, i)
  }

  /** JavaScript's `<` on strings: lexicographic by code unit. */
  predicate StringLess(a: string, b: string) {
    if a == [] then b != []
    else if b == [] then false
    else if a[0] != b[0] then a[0] < b[0]
    else StringLess(a[1..], b[1..])
  }

  lemma {:induction false} StringLessIrreflexive(a: string)
    ensures !StringLess(a, a)
  {
    if a != [] {
      StringLessIrreflexive(a[1..]);
    }
  }

  function Digit(n: nat): (c: char)
    requires n < 10
    ensures '0' <= c <= '9'
  {
    ('0' as int + n) as char
  }

  /** The decimal rendering of `n`, as a template literal produces it. */
  function Decimal(n: nat): (r: string)
    ensures |r| >= 1
    ensures forall i :: 0 <= i < |r| ==> '0' <= r[i] <= '9'
  {
    if n < 10 then [Digit(n)] else Decimal(n / 10) + [Digit(n % 10)]
  }
}

=== FILE: wrappers.dfy ===
/** Option and Result, for nullable fields and for operations that throw. */
module Wrappers {

  /** A value that may be absent: `null`, `undefined` or an empty field in the source. */
  datatype Option<+T> = None | Some(value: T) {
    function GetOr(default: T): T {
      match this
      case Some(v) => v
      case None => default
    }
  }

  /** The outcome of an operation that either succeeds or throws an Error with a message. */
  datatype Result<+R, +E> = Success(value: R) | Failure(error: E)
}
